=== FILE: README.md ===
# Library Management System: a Dafny model

This project models the core of a Spring library back end. The back end keeps
authors, books, customers and borrowing records behind four services. Each
service offers a paged and sorted list, a lookup by id, create, update and
delete, and the book and borrowing-record services also offer paged searches.
The REST controllers sit on top of the services. They answer 200, 204, 400,
404 or 500. Before answering a list, they copy the ids of resolved references
onto the scalar `authorID`, `customerID` and `bookID` fields.

The model is functional. It has these parts:

- **The store.** A `Store.Db` holds one `Table` per entity: a `map<Id, E>` and
  the next identity value. It enforces the foreign keys. It carries out the
  `CascadeType.ALL` deletes that the entities declare.
- **The caches.** `State.Caches` holds the thirteen Spring caches the services
  name. Every service operation is a pure function. It takes a
  `State.Library` (store plus caches) and returns a `State.Step`: the new
  library and the answer, or a fault. `@Cacheable`, `@CachePut` and
  `@CacheEvict` are written out as map updates after the method body.
- **Queries.** `Paging.Query` gives the meaning of paged, sorted queries. The
  rows a predicate selects are sorted by an abstract per-property rank, then by
  id, in the requested direction, and a window of the result is taken.
  `Repositories` holds the five derived search filters.
- **Validation.** `Validation` states the bean-validation constraints as
  standalone predicates. No handler uses `@Valid`, so the web layer does not
  check them. The persistence provider may still check them before an insert
  or update; that check is not modelled (see "Left out").
- **Flattening.** `Flatten` holds the controllers' copying of reference ids
  onto the scalar fields, including the null dereference that fails it.
- **JSON.** `Serialization` gives the JSON member sets that the ignore lists
  and the write-only password leave.
- **Controllers.** `BookController`, `BorrowingRecordController` and
  `CustomerController` map service answers to statuses.

Dates are day numbers, and "today" is a parameter. The password encoder and
the database's per-property ordering are parameters too, in `State.Env`.

## Model

Paths are relative to the repository root.

| member | source | states |
|---|---|---|
| Paging.AscSpellingsExact | src/main/java/com/sawy/LibrarySystem/service/AuthorService.java:26 | a string equals "asc" ignoring case exactly when it is one of the eight spellings of a, s, c in either case |
| Paging.ParseDirection | src/main/java/com/sawy/LibrarySystem/service/AuthorService.java:26 | the direction is ascending iff `sortOrder` equals "asc" ignoring case; every other string, "" included, is descending |
| Text.EqualsIgnoreCase | src/main/java/com/sawy/LibrarySystem/service/BookService.java:29 | `equalsIgnoreCase` holds iff the lengths agree and the lower-cased strings are equal |
| Text.RegionMatches | src/main/java/com/sawy/LibrarySystem/service/CustomerService.java:28 | the per-character comparison (equal as is, upper-cased, or lower-cased) agrees with comparing the lower-cased strings |
| Text.CharEqualsIgnoreCaseIsLowerEq | src/main/java/com/sawy/LibrarySystem/service/BorrowingRecordService.java:30 | two characters match ignoring case iff their lower cases are equal |
| Paging.MakePageRequest | src/main/java/com/sawy/LibrarySystem/service/AuthorService.java:27 | `PageRequest.of` succeeds iff page >= 0, size >= 1 and `sortBy` has text, and then carries exactly those arguments and the parsed direction; otherwise it is an illegal-argument fault |
| Paging.PageRequestExamples | src/test/java/com/sawy/LibrarySystem/service/AuthorServiceTest.java:46-55 | (0, 10, "name", "asc") gives PageRequest(0, 10, ASC "name"); "DESC" and "" give descending; a negative page, a zero size or a blank property are refused |
| Paging.SortIds | src/main/java/com/sawy/LibrarySystem/service/AuthorService.java:28 | the sorted listing is a permutation of the selected ids, strictly ordered by (rank, id) in the requested direction |
| Paging.Query | src/main/java/com/sawy/LibrarySystem/service/AuthorService.java:28 | a paged query fails on an unknown sort property, and otherwise on a page whose first row `page * size` lies beyond the largest `int`; when it answers, it answers the request it was given and the number of selected rows, at most `size` selected rows with their stored values, in the requested order, and exactly the selected rows whose position lies in [page*size, page*size+size) |
| Paging.OnPageIffPositionInWindow | src/main/java/com/sawy/LibrarySystem/service/BookService.java:31 | a row is on the page iff it is selected and its position among the selected rows lies in [page*size, page*size+size) |
| Paging.IndexIsPosition | src/main/java/com/sawy/LibrarySystem/service/BorrowingRecordService.java:32 | each element's index in the sorted listing is its position, the number of selected rows before it in the requested direction |
| Paging.DefaultOrderIsIdOrder | src/main/java/com/sawy/LibrarySystem/controller/BookController.java:21-24 | when the table sorts by "id" as its row ids (`SortsById`), the default request (page 0, ascending by "id") succeeds and holds exactly the `size` smallest selected ids, in ascending order |
| Paging.FirstPageHoldsSmallResult | src/main/java/com/sawy/LibrarySystem/service/CustomerService.java:30 | when every selected row fits on one page, page 0 contains each of them |
| Paging.RowOnExactlyOnePage | src/main/java/com/sawy/LibrarySystem/service/BookService.java:27-32 | under the model's total order (rank, then id), the pages of one size partition the result: a selected row has a position below the number of selected rows, and it is on page `position / size` and on no other page |
| Paging.InWindowIffQuotient | src/main/java/com/sawy/LibrarySystem/service/CustomerService.java:29-30 | a position lies in the window of page `page` exactly when `page` is the position divided by the page size |
| Store.Insert | src/main/java/com/sawy/LibrarySystem/service/AuthorService.java:38 | saving a new entity gives it the next identity value, which no row has, and adds exactly that row |
| Store.Overwrite | src/main/java/com/sawy/LibrarySystem/service/AuthorService.java:50 | saving a loaded entity replaces its row only; the ids and every other row stay |
| Store.FindAfterWrites | src/main/java/com/sawy/LibrarySystem/service/AuthorService.java:33-59 | `findById` after a `save` of a new entity finds it under its new id, which was free before; after an overwrite it finds the new value under the same id; after a delete it finds nothing under a removed id; every other id answers as before |
| Store.InsertBook | src/main/java/com/sawy/LibrarySystem/service/BookService.java:43 | inserting a book fails with a constraint violation exactly when its author reference names no author |
| Store.InsertRecord | src/main/java/com/sawy/LibrarySystem/service/BorrowingRecordService.java:46 | inserting a record fails exactly when its customer or book reference names no row |
| Store.DeleteAuthorRow | src/main/java/com/sawy/LibrarySystem/model/Author.java:35-37 | deleting an author removes it and every book it wrote, and is refused exactly when a record references one of those books; customers and records are untouched |
| Store.DeleteCustomerRow | src/main/java/com/sawy/LibrarySystem/model/Customer.java:43-45 | deleting a customer removes it and exactly its records, and is never refused; authors and books are untouched |
| Store.DeleteBookRow | src/main/java/com/sawy/LibrarySystem/service/BookService.java:70 | deleting a book is refused exactly when a record references it, and otherwise removes only that row |
| Store.DeletesKeepValid | src/main/java/com/sawy/LibrarySystem/model/Author.java:35-37 | the declared cascades keep every foreign key intact across deletes |
| Store.InsertsKeepValid | src/main/java/com/sawy/LibrarySystem/model/Book.java:42-45 | every accepted insert keeps the identity counters fresh and every join column resolvable |
| Store.OverwritesKeepValid | src/main/java/com/sawy/LibrarySystem/model/BorrowingRecord.java:21-29 | every accepted overwrite keeps the store valid |
| Cache.ReadThrough | src/main/java/com/sawy/LibrarySystem/service/AuthorService.java:31 | a hit answers the cached value and leaves the cache alone; a miss answers the method's result, caches it only on success and never disturbs other keys |
| Cache.ReadThroughTransparent | src/main/java/com/sawy/LibrarySystem/service/BookService.java:34 | a cache that agrees with the method answers what the method would, and still agrees afterwards |
| Cache.ReadThroughSticky | src/main/java/com/sawy/LibrarySystem/service/BookService.java:73 | once a key is cached, every later call with that key answers the first result, whatever the method would answer now |
| Cache.ByIdCoherentMeans | src/main/java/com/sawy/LibrarySystem/service/CustomerService.java:33 | a by-id cache agrees with the table exactly when it is a coherent cache of `findById` |
| Cache.ByIdCoherentAfterWrite | src/main/java/com/sawy/LibrarySystem/service/CustomerService.java:44-45 | after a write to one row, evicting that id or putting its new row keeps a coherent cache coherent |
| Cache.CoherentIsKeyedById | src/main/java/com/sawy/LibrarySystem/service/BorrowingRecordService.java:35 | a coherent by-id cache stores every row under its own id |
| AuthorService.ListAuthors | src/main/java/com/sawy/LibrarySystem/service/AuthorService.java:24-29 | the list runs iff `page` >= 0, `size` >= 1, `sortBy` has text and names a sortable property, and `page * size` fits in an `int`; it then answers the request, the row count of the table, and exactly the authors whose position in the order of `sortBy` and the direction `sortOrder` names lies in the window of page `page`, in that order, each with its stored value |
| AuthorService.GetAllAuthors | src/main/java/com/sawy/LibrarySystem/service/AuthorService.java:24-29 | the list is cached under all four arguments: a hit answers the cached page; a miss runs the query and caches only a success; the store is untouched |
| AuthorService.GetAuthorById | src/main/java/com/sawy/LibrarySystem/service/AuthorService.java:31-34 | a null id is refused; a hit answers the cached entry, a miss the store's row and caches it (an empty answer too); with a coherent cache the answer is the store's row |
| AuthorService.CreateAuthor | src/main/java/com/sawy/LibrarySystem/service/AuthorService.java:36-39 | the author is saved under a fresh id and returned; only the "authors" list cache is cleared |
| AuthorService.UpdateAuthor | src/main/java/com/sawy/LibrarySystem/service/AuthorService.java:41-54 | a missing id answers empty and leaves the store alone; otherwise name, birth date and nationality are overwritten, the id and books kept; the list cache is cleared and the answer put under the id |
| AuthorService.DeleteAuthor | src/main/java/com/sawy/LibrarySystem/service/AuthorService.java:56-62 | the author and its books are removed, the list cache cleared and the id evicted; the delete fails, changing nothing, exactly when a record references one of its books |
| AuthorService.ListIsCachedPerArguments | src/main/java/com/sawy/LibrarySystem/service/AuthorService.java:24 | a second list call with the same arguments answers the first page, whatever the store now holds |
| AuthorService.DeleteThenGetIsEmpty | src/main/java/com/sawy/LibrarySystem/service/AuthorService.java:56-61 | after a successful delete, `getAuthorById` of the id is empty, whether or not the id existed |
| AuthorService.CreateThenGet | src/main/java/com/sawy/LibrarySystem/service/AuthorService.java:32-38 | a created author is found by its id, provided the cache held nothing for that id |
| AuthorService.UpdateThenGet | src/main/java/com/sawy/LibrarySystem/service/AuthorService.java:42-43 | an update answers what a later lookup of the id answers |
| AuthorService.AuthorReadsAndWritesKeepCacheCoherent | src/main/java/com/sawy/LibrarySystem/service/AuthorService.java:31-62 | lookups, updates and deletes keep the "author" cache in agreement with the store |
| AuthorService.CreateAuthorKeepsCacheCoherent | src/main/java/com/sawy/LibrarySystem/service/AuthorService.java:36-39 | a create keeps the "author" cache coherent iff that cache held nothing for the new id |
| BookService.ListBooks | src/main/java/com/sawy/LibrarySystem/service/BookService.java:27-32 | the list runs iff `page` >= 0, `size` >= 1, `sortBy` has text and names a sortable property, and `page * size` fits in an `int`; it then answers the request, the row count of the table, and exactly the books whose position in the order of `sortBy` and the direction `sortOrder` names lies in the window of page `page`, in that order, each with its stored value and with exactly the records whose join column names it |
| BookService.GetAllBooks | src/main/java/com/sawy/LibrarySystem/service/BookService.java:27-32 | the book list, cached under all four arguments |
| BookService.ListIsCachedPerArguments | src/main/java/com/sawy/LibrarySystem/service/BookService.java:27 | a second list call with the same four arguments answers the first call's page, whatever the store holds by then |
| BookService.GetBookById | src/main/java/com/sawy/LibrarySystem/service/BookService.java:34-37 | the cached lookup by id, as for authors |
| BookService.CreateBook | src/main/java/com/sawy/LibrarySystem/service/BookService.java:39-44 | a null `authorID` is refused; otherwise `author` becomes the author the cached lookup answers, or null; `authorID` is kept as supplied and the book saved; after it, `author` is null or equals `authorID` |
| BookService.UpdateBook | src/main/java/com/sawy/LibrarySystem/service/BookService.java:46-63 | a missing id answers empty and saves nothing; otherwise the six fields are overwritten, `author` re-resolved and the id and records kept; the list cache is cleared and the answer put under the id |
| BookService.DeleteBook | src/main/java/com/sawy/LibrarySystem/service/BookService.java:65-71 | the book is removed, the list cache cleared and the id evicted; the delete fails, changing nothing, exactly when a record references the book |
| BookService.SearchBooksByTitle | src/main/java/com/sawy/LibrarySystem/service/BookService.java:73-78 | a title search is cached under the title alone: a hit answers the cached page whatever the paging arguments; a miss runs the title filter with the list's page request |
| BookService.SearchBooksByAuthor | src/main/java/com/sawy/LibrarySystem/service/BookService.java:80-85 | the author search, cached under the author term alone |
| BookService.SearchBooksByIsbn | src/main/java/com/sawy/LibrarySystem/service/BookService.java:87-92 | the ISBN search, cached under the ISBN term alone |
| BookService.DeleteThenGetIsEmpty | src/main/java/com/sawy/LibrarySystem/service/BookService.java:65-70 | after a successful delete, `getBookById` of the id is empty |
| BookService.UpdateThenGet | src/main/java/com/sawy/LibrarySystem/service/BookService.java:47-48 | an update answers what a later lookup of the id answers |
| BookService.CascadedBookStaysCached | src/main/java/com/sawy/LibrarySystem/service/AuthorService.java:56-59 | deleting an author removes its books from the store, yet a book already in the "book" cache is still answered by id |
| BookService.SearchIgnoresPagingOnceCached | src/main/java/com/sawy/LibrarySystem/service/BookService.java:73 | after one successful title search, the same title with any other paging arguments answers the same page |
| CustomerService.ListCustomers | src/main/java/com/sawy/LibrarySystem/service/CustomerService.java:26-31 | the list runs iff `page` >= 0, `size` >= 1, `sortBy` has text and names a sortable property, and `page * size` fits in an `int`; it then answers the request, the row count of the table, and exactly the customers whose position in the order of `sortBy` and the direction `sortOrder` names lies in the window of page `page`, in that order, each with its stored value and with exactly its records |
| CustomerService.GetAllCustomers | src/main/java/com/sawy/LibrarySystem/service/CustomerService.java:26-31 | the customer list, cached under all four arguments |
| CustomerService.ListIsCachedPerArguments | src/main/java/com/sawy/LibrarySystem/service/CustomerService.java:26 | a second list call with the same four arguments answers the first call's page, whatever the store holds by then |
| CustomerService.GetCustomerById | src/main/java/com/sawy/LibrarySystem/service/CustomerService.java:33-36 | the cached lookup by id |
| CustomerService.CreateCustomer | src/main/java/com/sawy/LibrarySystem/service/CustomerService.java:38-42 | a null password makes the encoder throw and changes nothing; otherwise the customer is saved under a fresh id with the encoder's output in place of the password, every other field as supplied, and only the list cache is cleared |
| CustomerService.UpdateCustomer | src/main/java/com/sawy/LibrarySystem/service/CustomerService.java:44-59 | a missing id answers empty and saves nothing; otherwise all five fields, the password verbatim, are overwritten and the id and records kept |
| CustomerService.DeleteCustomer | src/main/java/com/sawy/LibrarySystem/service/CustomerService.java:61-67 | the customer and its records are removed, never refused; the list cache is cleared and the id evicted |
| CustomerService.DeleteThenGetIsEmpty | src/main/java/com/sawy/LibrarySystem/service/CustomerService.java:61-66 | after a delete, `getCustomerById` of the id is empty |
| CustomerService.UpdateThenGet | src/main/java/com/sawy/LibrarySystem/service/CustomerService.java:45-46 | an update answers what a later lookup of the id answers |
| CustomerService.CreateAndUpdateStoreDifferentPasswords | src/main/java/com/sawy/LibrarySystem/service/CustomerService.java:40-54 | the same details stored by create hold the encoded password, and stored by update hold it verbatim |
| CustomerService.CustomerReadsAndWritesKeepCacheCoherent | src/main/java/com/sawy/LibrarySystem/service/CustomerService.java:33-67 | lookups, updates and deletes keep the "customer" cache in agreement with the store |
| BorrowingRecordService.ListRecords | src/main/java/com/sawy/LibrarySystem/service/BorrowingRecordService.java:28-33 | the list runs iff `page` >= 0, `size` >= 1, `sortBy` has text and names a sortable property, and `page * size` fits in an `int`; it then answers the request, the row count of the table, and exactly the records whose position in the order of `sortBy` and the direction `sortOrder` names lies in the window of page `page`, in that order, each with its stored value |
| BorrowingRecordService.GetAllRecords | src/main/java/com/sawy/LibrarySystem/service/BorrowingRecordService.java:28-33 | the record list, cached under all four arguments |
| BorrowingRecordService.ListIsCachedPerArguments | src/main/java/com/sawy/LibrarySystem/service/BorrowingRecordService.java:28 | a second list call with the same four arguments answers the first call's page, whatever the store holds by then |
| BorrowingRecordService.GetRecordById | src/main/java/com/sawy/LibrarySystem/service/BorrowingRecordService.java:35-38 | the cached lookup by id |
| BorrowingRecordService.Resolve | src/main/java/com/sawy/LibrarySystem/service/BorrowingRecordService.java:42-43 | the customer lookup, then the book lookup; each null id is refused, and otherwise each answers the cached or stored row, or empty |
| BorrowingRecordService.CreateRecord | src/main/java/com/sawy/LibrarySystem/service/BorrowingRecordService.java:40-47 | `customer` and `book` become the lookups' answers or null, the ids stay as supplied, and the record is saved; a null id is refused, and a stale cached reference is a constraint violation |
| BorrowingRecordService.UpdateRecord | src/main/java/com/sawy/LibrarySystem/service/BorrowingRecordService.java:49-63 | a missing id answers empty and saves nothing; otherwise `customer` and `book` are re-resolved from the details' ids and both dates overwritten, while the stored `customerID` and `bookID` stay |
| BorrowingRecordService.DeleteRecord | src/main/java/com/sawy/LibrarySystem/service/BorrowingRecordService.java:65-71 | only that record is removed; the list cache is cleared and the id evicted |
| BorrowingRecordService.RecordsByCustomer | src/main/java/com/sawy/LibrarySystem/service/BorrowingRecordService.java:73-78 | the customer search, cached under the customer id alone; a null id is refused |
| BorrowingRecordService.RecordsByBook | src/main/java/com/sawy/LibrarySystem/service/BorrowingRecordService.java:80-85 | the book search, cached under the book id alone |
| BorrowingRecordService.DeleteThenGetIsEmpty | src/main/java/com/sawy/LibrarySystem/service/BorrowingRecordService.java:65-70 | after a delete, the lookup of the id is empty |
| BorrowingRecordService.UpdateThenGet | src/main/java/com/sawy/LibrarySystem/service/BorrowingRecordService.java:50-51 | an update answers what a later lookup of the id answers |
| BorrowingRecordService.UpdateLeavesCustomerIdStale | src/main/java/com/sawy/LibrarySystem/service/BorrowingRecordService.java:55-58 | moving a record to another customer changes `customer` but leaves the old `customerID`, so the two disagree |
| BorrowingRecordService.SearchByCustomerIgnoresPagingOnceCached | src/main/java/com/sawy/LibrarySystem/service/BorrowingRecordService.java:73 | after one customer search, the same id with any other paging arguments answers the same page |
| BorrowingRecordService.CascadedRecordStaysCached | src/main/java/com/sawy/LibrarySystem/model/Customer.java:43-45 | deleting a customer removes its records by cascade, yet a cached record is still answered by id |
| BorrowingRecordService.StaleBookRefusesRecord | src/main/java/com/sawy/LibrarySystem/service/BorrowingRecordService.java:43-46 | a book deleted while still cached makes a record for it fail with a constraint violation |
| BorrowingRecordService.RecordReadsAndWritesKeepCacheCoherent | src/main/java/com/sawy/LibrarySystem/service/BorrowingRecordService.java:35-71 | lookups, updates and deletes keep the "borrowingRecord" cache in agreement with the store |
| Repositories.TitleMatchesMeaning | src/main/java/com/sawy/LibrarySystem/repository/BookRepository.java:11 | a book matches a title term iff its title is present and the lower-cased term occurs in the lower-cased title; the empty term matches every non-null title |
| Repositories.IsbnMatchesMeaning | src/main/java/com/sawy/LibrarySystem/repository/BookRepository.java:13 | the ISBN filter is the same case-insensitive substring test on `isbn` |
| Repositories.AuthorSearchFollowsReference | src/main/java/com/sawy/LibrarySystem/repository/BookRepository.java:12 | the author filter looks only at the resolved author's name: a null author never matches, and `authorID` plays no part |
| Repositories.RecordSearchFollowsReference | src/main/java/com/sawy/LibrarySystem/repository/BorrowingRecordRepository.java:11-12 | a record matches a customer or book id iff its resolved reference is that id; a null reference never matches, and the scalar ids play no part |
| Repositories.TitleSearchSelects | src/main/java/com/sawy/LibrarySystem/repository/BookRepository.java:11 | every book the title search answers is stored, with its stored value, and matches; a page holds at most `size` |
| Repositories.IsbnSearchSelects | src/main/java/com/sawy/LibrarySystem/repository/BookRepository.java:13 | every book the ISBN search answers is stored and matches |
| Repositories.AuthorSearchSelects | src/main/java/com/sawy/LibrarySystem/repository/BookRepository.java:12 | every book the author search answers has a stored author whose name contains the term |
| Repositories.RecordSearchesSelect | src/main/java/com/sawy/LibrarySystem/repository/BorrowingRecordRepository.java:11-12 | every record the customer or book search answers is stored and references that id |
| Repositories.FindAll | src/main/java/com/sawy/LibrarySystem/service/AuthorService.java:28 | `findAll` fails exactly on an unknown property or a first row beyond the largest `int`; otherwise it answers the request and the row count of the table, and exactly the rows whose position in the requested order lies in the page's window, in that order, with their stored values |
| Repositories.RunSearch | src/main/java/com/sawy/LibrarySystem/service/BookService.java:75-77 | a search builds its page request as the list does, and runs its filter exactly when that request is legal |
| Repositories.RecordsOfBook | src/main/java/com/sawy/LibrarySystem/model/Book.java:47-49 | `Book.borrowingRecords` is exactly the records whose join column names the book |
| Repositories.RecordsOfCustomerMap | src/main/java/com/sawy/LibrarySystem/model/Customer.java:43-45 | `Customer.borrowingRecords` is exactly the records whose join column names the customer |
| Text.ContainsIffOccurs | src/main/java/com/sawy/LibrarySystem/repository/BookRepository.java:11 | the recursive substring test succeeds iff the term occurs at some index |
| Text.ContainsIgnoreCaseMeaning | src/main/java/com/sawy/LibrarySystem/repository/BookRepository.java:11-13 | an ignore-case containment is an occurrence of the lower-cased term in the lower-cased text; the empty term is always contained |
| Text.TrimEmptyIffAllTrimmable | src/main/java/com/sawy/LibrarySystem/model/Book.java:24-25 | trimming leaves nothing iff every character is at most U+0020, and what is left starts and ends with a visible character |
| Text.LongToString | src/main/java/com/sawy/LibrarySystem/controller/BorrowingRecordController.java:70 | the decimal text of a number is never empty |
| Validation.NotBlankIffVisibleChar | src/main/java/com/sawy/LibrarySystem/model/Book.java:27-28 | `@NotBlank` holds iff the string is present and has a character above U+0020 |
| Validation.MatchesWholePointwise | src/main/java/com/sawy/LibrarySystem/model/Customer.java:34 | an anchored pattern without repetition matches iff the lengths agree and each position matches its class |
| Validation.PhoneValidShape | src/main/java/com/sawy/LibrarySystem/model/Customer.java:34-35 | a phone number is valid iff it is null, or eleven characters: "01", one of 0, 1, 2, 5, then eight ASCII digits |
| Validation.PhoneAccepted | src/main/java/com/sawy/LibrarySystem/model/Customer.java:34 | "01112345678" passes the pattern |
| Validation.PhoneRejected | src/test/java/com/sawy/LibrarySystem/controller/CustomerControllerTest.java:74 | the fixture "12345678" fails the pattern, as do a ten-character number and a number with third digit 3 |
| Validation.CustomerFixtureInvalid | src/test/java/com/sawy/LibrarySystem/controller/CustomerControllerTest.java:74 | the controller tests' customer is invalid, and only because of its phone number |
| Validation.AuthorValidIff | src/main/java/com/sawy/LibrarySystem/model/Author.java:24-33 | an author is valid iff the name is non-blank with 2..50 characters, the birth date is null or strictly before today, and the nationality is non-blank with 4..50 characters |
| Validation.BookValidIgnoresAuthor | src/main/java/com/sawy/LibrarySystem/model/Book.java:24-45 | a valid book has a non-null `authorID` and a publication date that is null or not after today; its `author` and `available` play no part |
| Validation.ReturnDateInvalidIff | src/main/java/com/sawy/LibrarySystem/model/BorrowingRecord.java:52-58 | `isReturnDateValid` fails iff both dates are present and the return date is strictly before the borrow date; equal dates pass |
| Validation.BorrowingRecordDatesUnconstrained | src/main/java/com/sawy/LibrarySystem/model/BorrowingRecord.java:31-41 | both scalar ids are mandatory, while any single date, past or future, is acceptable |
| Flatten.FlattenRecord | src/main/java/com/sawy/LibrarySystem/controller/BorrowingRecordController.java:27-28 | copying the ids succeeds iff both references are present; then the scalar ids equal the references and nothing else changes; otherwise a null-pointer fault |
| Flatten.FlattenRecords | src/main/java/com/sawy/LibrarySystem/controller/CustomerController.java:27-30 | a record collection flattens iff every record has both references; the ids are kept and each record flattened |
| Flatten.FlattenBook | src/main/java/com/sawy/LibrarySystem/controller/BookController.java:26-32 | a listed book flattens iff its author and every record's references are present; then `authorID` equals `author` and nothing else of the book changes |
| Flatten.FlattenCustomer | src/main/java/com/sawy/LibrarySystem/controller/CustomerController.java:26-31 | a listed customer is unchanged; only its records are flattened |
| Flatten.FlattenAll | src/main/java/com/sawy/LibrarySystem/controller/BookController.java:26 | the loop succeeds iff every element flattens, keeping order and length; a failure is the first failing element's fault |
| Flatten.FlattenPage | src/main/java/com/sawy/LibrarySystem/controller/BorrowingRecordController.java:26 | a page flattens iff each element does, keeping request, total and positions |
| Flatten.FlattenRecordIdempotent | src/main/java/com/sawy/LibrarySystem/controller/BorrowingRecordController.java:26-29 | flattening a flattened record changes nothing, so flattening in place a page that is cached and served again is harmless |
| Flatten.FlattenRecordsIdempotent | src/main/java/com/sawy/LibrarySystem/controller/CustomerController.java:27-30 | flattening a flattened record collection changes nothing |
| Flatten.FlattenBookIdempotent | src/main/java/com/sawy/LibrarySystem/controller/BookController.java:26-32 | flattening a flattened book changes nothing |
| Flatten.FlattenCustomerIdempotent | src/main/java/com/sawy/LibrarySystem/controller/CustomerController.java:26-31 | flattening a flattened customer changes nothing |
| Flatten.FlattenPageIdempotent | src/main/java/com/sawy/LibrarySystem/controller/BookController.java:26 | an idempotent element flattening gives an idempotent page flattening |
| Flatten.FlattenBookSafe | src/main/java/com/sawy/LibrarySystem/controller/BookController.java:27 | the null-checked copy never fails: a present reference is copied, a null one leaves the scalar as it was |
| Flatten.FlattenBookSafeAgrees | src/main/java/com/sawy/LibrarySystem/controller/BookController.java:26-32 | wherever the unchecked copy succeeds, the null-checked one answers the same; and it is idempotent |
| Web.ListParams | src/main/java/com/sawy/LibrarySystem/controller/BookController.java:21-24 | each parameter takes its own default: `page` 0 and `size` 10 when absent, `sortBy` "id" and `sortOrder` "asc" when absent or empty; when both `int` parameters bind, the page and size passed on fit in an `int` |
| BookController.List | src/main/java/com/sawy/LibrarySystem/controller/BookController.java:20-34 | 400 when `page` or `size` does not fit in an `int`; otherwise `GET /books` answers 200 iff the service page is answered and every book on it has an author and fully resolved records, otherwise 500; every book answered has `authorID` equal to `author` and flattened records |
| BookController.ListNullSafe | src/main/java/com/sawy/LibrarySystem/controller/BookController.java:26-32 | 400 when `page` or `size` does not fit in an `int`; otherwise with null checks, `GET /books` answers 200 iff the service does, each book flattened null-safely |
| BookController.Get | src/main/java/com/sawy/LibrarySystem/controller/BookController.java:36-40 | 404 iff the lookup is empty; with a coherent cache, 404 iff the book is not stored, and 200 with the stored book otherwise |
| BookController.Create | src/main/java/com/sawy/LibrarySystem/controller/BookController.java:42-46 | 200 with the saved book iff the service succeeds; a null `authorID` gives 500; with a coherent author cache a non-null `authorID` always succeeds (persistence-time validation aside, see "Left out") |
| BookController.Update | src/main/java/com/sawy/LibrarySystem/controller/BookController.java:48-52 | 404 iff no such book is stored; a null `authorID` on a stored book gives 500 |
| BookController.Delete | src/main/java/com/sawy/LibrarySystem/controller/BookController.java:54-58 | 204 unless a record references the stored book, which gives 500 and changes nothing; a missing id gives 204 |
| BookController.GuardsCountTerms | src/main/java/com/sawy/LibrarySystem/controller/BookController.java:69-78 | the first guard holds iff no term is given, the second iff at least two are, and past both the last branch is reached only with the ISBN given |
| BookController.Search | src/main/java/com/sawy/LibrarySystem/controller/BookController.java:60-90 | 400 when `page` or `size` does not fit in an `int`; otherwise 400, with no service call, unless exactly one non-empty term is given; then the search for that term with the paging arguments as received |
| BorrowingRecordController.List | src/main/java/com/sawy/LibrarySystem/controller/BorrowingRecordController.java:20-31 | 400 when `page` or `size` does not fit in an `int`; otherwise `GET /borrowings` answers 200 iff every record on the page has both references, and each answered record differs from the stored one only in having its scalar ids equal to its references; otherwise 500 |
| BorrowingRecordController.Get | src/main/java/com/sawy/LibrarySystem/controller/BorrowingRecordController.java:33-37 | 404 iff the lookup is empty; with a coherent cache, 404 iff the record is not stored and 200 iff it is, with the stored record as body |
| BorrowingRecordController.Create | src/main/java/com/sawy/LibrarySystem/controller/BorrowingRecordController.java:39-43 | 200 with the saved record iff the service succeeds; a null id gives 500 |
| BorrowingRecordController.Update | src/main/java/com/sawy/LibrarySystem/controller/BorrowingRecordController.java:45-49 | 404 iff no such record is stored; a null id on a stored record gives 500; the 200 body is the stored record under its id with the details' dates and the re-resolved `customer` and `book`, every other field, the scalar `customerID` and `bookID` included, as stored before |
| BorrowingRecordController.Delete | src/main/java/com/sawy/LibrarySystem/controller/BorrowingRecordController.java:51-55 | always 204, and the record is gone |
| BorrowingRecordController.SecondGuardIsBothGiven | src/main/java/com/sawy/LibrarySystem/controller/BorrowingRecordController.java:70-72 | the second guard holds iff both ids are given, because a number's decimal text is never empty |
| BorrowingRecordController.Search | src/main/java/com/sawy/LibrarySystem/controller/BorrowingRecordController.java:57-82 | 400 when `page` or `size` does not fit in an `int`; otherwise 400 unless exactly one id is given; then the customer search for `userId`, otherwise the book search, with the paging arguments as received and the answer unflattened |
| CustomerController.List | src/main/java/com/sawy/LibrarySystem/controller/CustomerController.java:20-33 | 400 when `page` or `size` does not fit in an `int`; otherwise `GET /customers` answers 200 iff every record of every listed customer has both references; each customer is answered unchanged with the same record ids, every record flattened; otherwise 500 |
| CustomerController.Get | src/main/java/com/sawy/LibrarySystem/controller/CustomerController.java:35-39 | 404 iff the lookup is empty; with a coherent cache, 404 iff the customer is not stored and 200 iff it is, with the stored customer as body |
| CustomerController.Create | src/main/java/com/sawy/LibrarySystem/controller/CustomerController.java:41-45 | for an entity the persistence layer accepts (see "Left out"), 200 iff the password is not null, with the password encoded; a null password answers 500 and changes nothing |
| CustomerController.Update | src/main/java/com/sawy/LibrarySystem/controller/CustomerController.java:47-51 | 404 iff no such customer is stored; otherwise, for an entity the persistence layer accepts (see "Left out"), 200 with the details under the id |
| CustomerController.Delete | src/main/java/com/sawy/LibrarySystem/controller/CustomerController.java:53-57 | always 204, whether or not the customer existed, and the customer is gone |
| Serialization.NestedCustomerMentions | src/main/java/com/sawy/LibrarySystem/model/BorrowingRecord.java:21-24 | a record's customer has exactly the members id, name, email, address and phoneNumber; no records and no password |
| Serialization.NestedBookMentions | src/main/java/com/sawy/LibrarySystem/model/BorrowingRecord.java:26-29 | a record's book, or an author's book, has exactly id, title, isbn, publicationDate, genre and available; no records, no author, no `authorID` |
| Serialization.NestedAuthorMentions | src/main/java/com/sawy/LibrarySystem/model/Book.java:42-45 | a book's author has exactly id, name, birthDate and nationality; no books |
| Serialization.BareRecordsNeverMention | src/main/java/com/sawy/LibrarySystem/model/Book.java:47-49 | the records inside a book or a customer name no member a bare record lacks, so neither `customer` nor `book` |
| Serialization.CustomerBodyHidesPassword | src/main/java/com/sawy/LibrarySystem/model/Customer.java:39-41 | a customer response body mentions the password nowhere, not even inside its records |
| Serialization.RecordBodyHidesPassword | src/main/java/com/sawy/LibrarySystem/model/BorrowingRecord.java:21-24 | a record response body mentions the password nowhere, not even in its customer |
| Serialization.BookBodyHidesPassword | src/main/java/com/sawy/LibrarySystem/model/Book.java:42-49 | a book response body mentions the password nowhere, in its author or its records |
| Serialization.AuthorBodyHidesPassword | src/main/java/com/sawy/LibrarySystem/model/Author.java:35-37 | an author response body mentions the password nowhere, in any of its books |
| Serialization.RecordBodyNests | src/main/java/com/sawy/LibrarySystem/model/BorrowingRecord.java:21-41 | a record body has exactly its seven members; its customer and book are the referenced rows in nested form, or null |
| Serialization.PasswordIsWriteOnly | src/main/java/com/sawy/LibrarySystem/model/Customer.java:39-41 | a customer read back from its request body is the customer; read back from a response body it is the customer with a null password |
| Findings.CreateKeepsNegativeEntry | src/main/java/com/sawy/LibrarySystem/service/AuthorService.java:36-39 | on an empty store, a lookup of author 1 caches "empty"; creating an author then stores it as 1, and the lookup still answers empty |
| Findings.CreateAuthorCaching | src/main/java/com/sawy/LibrarySystem/service/AuthorService.java:36-39 | a create that also puts the saved author under its id: same store change, list cache cleared |
| Findings.CachingCreateThenGet | src/main/java/com/sawy/LibrarySystem/service/AuthorService.java:31-39 | with the put, a created author is found by id whatever the cache held |
| Findings.CachingCreateKeepsCacheCoherent | src/main/java/com/sawy/LibrarySystem/service/AuthorService.java:31-62 | with the put, a create keeps the "author" cache coherent, so coherence is kept by every author operation |
| Findings.NullAuthorBreaksBookList | src/main/java/com/sawy/LibrarySystem/controller/BookController.java:27 | a book whose `authorID` names no author is saved with a null author, and the next `GET /books` answers 500 |
| Findings.ListedOnFirstPage | src/main/java/com/sawy/LibrarySystem/controller/BookController.java:21-25 | with one stored book, the default first page lists it |
| Findings.NullSafeListAnswers | src/main/java/com/sawy/LibrarySystem/controller/BookController.java:26-33 | with the null-checked copy the same request answers 200, and the book keeps its supplied `authorID` |
| Findings.SearchAnswersFirstPageAgain | src/main/java/com/sawy/LibrarySystem/service/BookService.java:73-78 | after a title search for page 0, the request for page 1 answers page 0 |
| Findings.KeyedSearch | src/main/java/com/sawy/LibrarySystem/service/BookService.java:73-78 | a search cached under the term and all paging arguments answers the page it is asked for |
| Findings.BookSearchesAnswerRequest | src/main/java/com/sawy/LibrarySystem/repository/BookRepository.java:11-13 | each book filter answers the page request it is given |
| Findings.KeyedSearchAnswersRequestedPage | src/main/java/com/sawy/LibrarySystem/service/BookService.java:73-78 | with the keyed cache, the second request of the example answers page 1 |
| Findings.UpdateStoresPlainPassword | src/main/java/com/sawy/LibrarySystem/service/CustomerService.java:54 | an update whose password the encoder cannot produce leaves a stored password that is not an encoding |
| Findings.PlainPasswordExample | src/main/java/com/sawy/LibrarySystem/service/CustomerService.java:38-54 | with an encoder that always answers a hash, create stores the hash and update stores "secret" |
| Findings.UpdateCustomerEncoding | src/main/java/com/sawy/LibrarySystem/service/CustomerService.java:44-59 | the update that encodes the password as create does: a missing id answers empty; on a stored id a null password answers a fault and changes nothing, and any other is stored encoded |
| Findings.CustomerWritesKeepPasswordsEncoded | src/main/java/com/sawy/LibrarySystem/service/CustomerService.java:38-67 | with the encoding update, create, update and delete keep every stored password an encoding |

## Left out

- `AuthorController` is not modelled. It only delegates, and its status choices are those of the other three controllers.
- Routing, request binding and `ResponseEntity` are not modelled; only the status choice is. A non-numeric `page`, `size` or id is refused by the framework before any handler runs, so those parameters are integers here. An empty numeric parameter becomes null in the framework, which is `None` here. A `page` or `size` outside the `int` range is modelled as the 400 the binder answers. Ids are unbounded integers: an id beyond the `long` range, which the binder refuses with a 400, is not modelled.
- The Spring cache proxy is not modelled. The declared effects are written out explicitly. A write never evicts the search caches, so the model never does either.
- The negative entry that `createAuthor` leaves in the "author" cache is corrected for authors only. The same gap in `createBook`, `createCustomer` and `createBorrowingRecord` is modelled as written.
- Findings.KeyedSearch corrects only the cache key. The search caches stay unevicted by writes, as in the source.
- JPA is not modelled beyond its declared effect. Identity generation is "the next counter value". Cascades and foreign keys are "what the relational store enforces". Transactions, lazy loading and the persistence context are left out.
- Paging.SortIds, Paging.Query, Paging.RowOnExactlyOnePage, Paging.OnPageIffPositionInWindow, Paging.IndexIsPosition: the order a database imposes on a sort property is abstract, a rank per property from `Paging.Ordering`. Breaking ties by id is a modelling assumption: the source sorts by `sortBy` alone, so the database may order rows of equal rank differently from one query to the next, and a row can then appear on two pages or on none. The partition these members prove holds in the source only for a sort key with no ties, such as the default "id"; `State.OrdersById` states that "id" is such a key in every table, and the lemmas about the default listing assume it.
- Paging.Query, Repositories.FindAll: a rank from `Paging.Ordering` depends on the row alone. Nested sort paths that Spring Data also accepts, such as `author.name` on books, rank a row by another table and are not modelled; the set of sortable properties is a parameter, and any other name is the `UnknownProperty` fault.
- Page metadata beyond the request and the total is not modelled.
- The controllers flatten cached pages in place, which mutates objects held by the cache. The model is pure. The idempotence lemmas in `Flatten` show that a second flattening of an already flattened page changes nothing.
- The password encoder is the `encode` parameter on non-null passwords; bcrypt is not modelled. A null password, on which the encoder throws, is the `IllegalArgument` fault.
- `@Email` is not modelled, because its format rule is Hibernate Validator's and not part of this repository.
- Text.RegionMatches, Text.CharEqualsIgnoreCaseIsLowerEq: Java's `regionMatches(true, …)` compares characters after Unicode upper- and lower-casing, so it matches 'ſ' (long s) with 's', whose lower cases differ. The model's `Lower` folds only A–Z, so these members promise the ASCII behaviour only.
- Text.ContainsIgnoreCaseMeaning, Repositories.TitleMatchesMeaning, Repositories.IsbnMatchesMeaning, Repositories.AuthorSearchFollowsReference: the derived `...ContainingIgnoreCase` queries run `upper(column) like upper(term)` in the database, whose `upper()` also folds non-ASCII letters, so "Émile" matches "émile" there. The model folds only A–Z and does not match them.
- Paging.ParseDirection, Paging.AscSpellingsExact, Text.EqualsIgnoreCase: case folding is ASCII only. Java's `equalsIgnoreCase` also matches characters whose upper-case form is ASCII, so it accepts "aſc" (long s) as "asc", which the model reads as descending.
- AuthorService.CreateAuthor, AuthorService.UpdateAuthor, BookService.CreateBook, BookService.UpdateBook, CustomerService.CreateCustomer, CustomerService.UpdateCustomer, BorrowingRecordService.CreateRecord, BorrowingRecordService.UpdateRecord, BookController.Create, BookController.Update, CustomerController.Create, CustomerController.Update, BorrowingRecordController.Create, BorrowingRecordController.Update: no handler takes `@Valid`, but when a Bean Validation provider is present the persistence layer validates an entity before insert and update and throws on a violation, which answers 500. That check is not modelled: these members save entities that break the constraints in `Validation`.
- Validation.AuthorValidIff, Validation.BookValidIgnoresAuthor, Validation.CustomerFixtureInvalid: `@Size` counts UTF-16 code units, while the model counts characters of a string. A name with characters outside the Basic Multilingual Plane counts once here and twice in Java.
- JSON serialization is modelled only as far as member names go: which members each object has, and where the password appears. Number and date formats, and the `isReturnDateValid` accessor, are not modelled.
- Request bodies that carry ids or nested collections are not modelled. The services ignore them, except that `save` would take a client-supplied id.
- Constructors: `Author(name, birthDate, nationality)` and the five-argument `Customer` constructor are the datatype constructors. `Entities.NewBook` and `Entities.NewBorrowingRecord` only assign fields and carry no contract.
- `DatabasePopulator.java` is commented out. `SwaggerConfig.java` is documentation metadata. `CustomerRepository.java` is plain CRUD, covered by `Store`.
- Concurrency is not modelled: every operation is sequential.

## Findings

| source | as written | input that shows it | evidently intended | confidence | as-written member | corrected member |
|---|---|---|---|---|---|---|
| src/main/java/com/sawy/LibrarySystem/service/AuthorService.java:36-39 | `createAuthor` only clears the list cache, so an empty answer cached by `getAuthorById` for the new id survives | on an empty store, `getAuthorById(1)`, then `createAuthor(a)` (saved as 1), then `getAuthorById(1)` answers empty | a created author is found by id afterwards | medium; not executed | Findings.CreateKeepsNegativeEntry | Findings.CachingCreateThenGet |
| src/main/java/com/sawy/LibrarySystem/controller/BookController.java:27 | `book.getAuthor().getId()` dereferences an author that `createBook` may have stored as null | `POST /books` with `authorID` 7 and no author 7, then `GET /books` answers 500 | the list answers 200, keeping the supplied `authorID` when there is no author | high; not executed | Findings.NullAuthorBreaksBookList | Findings.NullSafeListAnswers |
| src/main/java/com/sawy/LibrarySystem/service/BookService.java:73 | the title search is cached under the title alone | `searchBooksByTitle("t", 0, 10, "id", "asc")`, then the same with page 1, answers page 0 | each paging request answers its own page | high; not executed | Findings.SearchAnswersFirstPageAgain | Findings.KeyedSearchAnswersRequestedPage |
| src/main/java/com/sawy/LibrarySystem/service/CustomerService.java:54 | `updateCustomer` stores the supplied password without encoding it | with an encoder that maps every password to "$2a$10$h", create with "secret" stores "$2a$10$h"; updating the same customer with "secret" stores "secret", which is not an encoding | update encodes as create does, so every stored password is an encoding | high; not executed | Findings.PlainPasswordExample | Findings.CustomerWritesKeepPasswordsEncoded |

=== FILE: author_service.dfy ===
/**
 * `AuthorService`: list, get, create, update and delete authors, with the
 * caches "authors" (pages, keyed by all four list arguments) and "author"
 * (`findById` answers, keyed by id).
 */
module AuthorService {
  import opened Values
  import opened Entities
  import opened Paging
  import opened Store
  import opened Repositories
  import opened Cache
  import opened State

  /** What `getAllAuthors` computes when it runs: page `page` of `size` rows of the whole
      table, sorted by `sortBy` in the direction `sortOrder` names. The page holds
      exactly the rows whose position in that order falls in its window, in that order. It
      fails on a malformed page request, an unknown property, or a first row beyond the
      largest `int`. */
  ghost function ListAuthors(db: Db, env: Env, page: int, size: int, sortBy: string, sortOrder: string): (r: Result<Page<Stored<Author>>>)
    ensures r.Ok? <==>
      && page >= 0 && size >= 1 && Text.HasText(sortBy)
      && sortBy in env.authorOrder.properties && page * size <= MaxInt32
    ensures r.Ok? ==>
      && r.value.request == MakePageRequest(page, size, sortBy, sortOrder).value
      && r.value.totalElements == |db.authors.rows|
      && |r.value.content| <= size
      && forall i :: 0 <= i < |r.value.content| ==>
           r.value.content[i].id in db.authors.rows && db.authors.rows[r.value.content[i].id] == r.value.content[i].val
    ensures r.Ok? ==> forall i, j :: 0 <= i < j < |r.value.content| ==>
      InOrder(KeyOf(db.authors.rows, env.authorOrder, sortBy), ParseDirection(sortOrder), r.value.content[i].id, r.value.content[j].id)
    ensures r.Ok? ==> forall x :: x in ContentIds(r.value.content) <==>
      x in db.authors.rows && InWindow(page, size, Position(KeyOf(db.authors.rows, env.authorOrder, sortBy), ParseDirection(sortOrder), db.authors.rows.Keys, x))
  {
    match MakePageRequest(page, size, sortBy, sortOrder)
    case Err(f) => Err(f)
    case Ok(req) =>
      assert req.sort.direction == ParseDirection(sortOrder);
      FindAll(db.authors, env.authorOrder, req)
  }

  /** `getAllAuthors`, cached under all four arguments. A hit answers the cached page; a
      miss builds the page request and queries, and an error is not cached. */
  ghost function GetAllAuthors(lib: Library, env: Env, page: int, size: int, sortBy: string, sortOrder: string): (s: Step<Page<Stored<Author>>>)
    ensures s.lib.db == lib.db && s.lib.cache == lib.cache.(authors := s.lib.cache.authors)
    ensures var key := ListKey(page, size, sortBy, sortOrder);
      key in lib.cache.authors ==> s == Step(lib, Ok(lib.cache.authors[key]))
    ensures ListKey(page, size, sortBy, sortOrder) !in lib.cache.authors ==>
      s.out == ListAuthors(lib.db, env, page, size, sortBy, sortOrder)
    ensures s.out.Ok? ==> s.lib.cache.authors == lib.cache.authors[ListKey(page, size, sortBy, sortOrder) := s.out.value]
  {
    var r := ReadThrough(lib.cache.authors, ListKey(page, size, sortBy, sortOrder),
                         ListAuthors(lib.db, env, page, size, sortBy, sortOrder));
    Step(lib.(cache := lib.cache.(authors := r.0)), r.1)
  }

  /** `getAuthorById`, cached per id. A null id is refused as a cache key. With a coherent
      cache the answer is the store's `findById`. */
  function GetAuthorById(lib: Library, id: Option<Id>): (s: Step<Option<Stored<Author>>>)
    ensures id.None? ==> s == Step(lib, Err(IllegalArgument))
    ensures s.lib.db == lib.db && s.lib.cache == lib.cache.(author := s.lib.cache.author)
    ensures id.Some? ==> s.out.Ok? && id.value in s.lib.cache.author && s.lib.cache.author[id.value] == s.out.value
    ensures id.Some? && id.value in lib.cache.author ==> s == Step(lib, Ok(lib.cache.author[id.value]))
    ensures id.Some? && id.value !in lib.cache.author ==> s.out == Ok(FindStored(lib.db.authors, id.value))
    ensures KeyedById(lib.cache.author) ==> KeyedById(s.lib.cache.author)
    ensures ByIdCoherent(lib.cache.author, lib.db.authors) ==>
      ByIdCoherent(s.lib.cache.author, lib.db.authors) &&
      (id.Some? ==> s.out == Ok(FindStored(lib.db.authors, id.value)))
  {
    if id.None? then Step(lib, Err(IllegalArgument))
    else
      var (c, out) := ReadThrough(lib.cache.author, id.value, Ok(FindStored(lib.db.authors, id.value)));
      Step(lib.(cache := lib.cache.(author := c)), out)
  }

  /** `createAuthor`: the author is saved under a fresh id, and the list cache is cleared.
      The "author" cache is not touched. */
  function CreateAuthor(lib: Library, a: Author): (s: Step<Stored<Author>>)
    ensures s.out.Ok? && s.out.value.val == a
    ensures Fresh(lib.db.authors) ==> s.out.value.id !in lib.db.authors.rows
    ensures s.lib.db.authors.rows == lib.db.authors.rows[s.out.value.id := a]
    ensures s.lib.db == lib.db.(authors := s.lib.db.authors)
    ensures s.lib.cache == lib.cache.(authors := map[])
  {
    var (db, saved) := InsertAuthor(lib.db, a);
    Step(Library(db, lib.cache.(authors := map[])), Ok(saved))
  }

  /** `updateAuthor`: on an existing id the name, birth date and nationality become the
      details' (every column of an author), and the id and the author's books stay; on a
      missing id nothing is saved and the answer is empty. Either way the list cache is
      cleared and the answer is put under the id. */
  function UpdateAuthor(lib: Library, id: Id, details: Author): (s: Step<Option<Stored<Author>>>)
    ensures s.out.Ok?
    ensures id !in lib.db.authors.rows ==> s.out.value.None? && s.lib.db == lib.db
    ensures id in lib.db.authors.rows ==>
      && s.out.value == Some(Stored(id, Author(details.name, details.birthDate, details.nationality)))
      && s.lib.db.authors.rows == lib.db.authors.rows[id := details]
      && s.lib.db == lib.db.(authors := s.lib.db.authors)
      && BooksOf(s.lib.db, id) == BooksOf(lib.db, id)
    ensures s.lib.cache == lib.cache.(authors := map[], author := lib.cache.author[id := s.out.value])
  {
    match FindStored(lib.db.authors, id)
    case None =>
      Step(lib.(cache := lib.cache.(authors := map[], author := lib.cache.author[id := None])), Ok(None))
    case Some(found) =>
      var row := found.val.(name := details.name, birthDate := details.birthDate, nationality := details.nationality);
      var saved := Some(Stored(id, row));
      Step(Library(OverwriteAuthor(lib.db, id, row),
                   lib.cache.(authors := map[], author := lib.cache.author[id := saved])),
           Ok(saved))
  }

  /** `deleteAuthor`: the author and, by cascade, its books are removed, the list cache is
      cleared and the id evicted; a missing id removes nothing. When a record references
      one of the books the store refuses and nothing changes. No book cache is touched. */
  function DeleteAuthor(lib: Library, id: Id): (s: Step<()>)
    ensures s.out.Err? <==> id in lib.db.authors.rows && AnyRecordOnBooks(lib.db, BooksOf(lib.db, id))
    ensures s.out.Err? ==> s.out.fault == ConstraintViolation && s.lib == lib
    ensures s.out.Ok? ==>
      && id !in s.lib.db.authors.rows
      && (id in lib.db.authors.rows ==>
            forall b :: b in s.lib.db.books.rows <==> b in lib.db.books.rows && b !in BooksOf(lib.db, id))
      && s.lib.db.customers == lib.db.customers && s.lib.db.records == lib.db.records
      && s.lib.cache == lib.cache.(authors := map[], author := lib.cache.author - {id})
  {
    match DeleteAuthorRow(lib.db, id)
    case Err(f) => Step(lib, Err(f))
    case Ok(db) => Step(Library(db, lib.cache.(authors := map[], author := lib.cache.author - {id})), Ok(()))
  }

  // ---------------------------------------------------------------------------
  // Properties across calls

  /** A second list call with the same arguments answers the first call's page without
      querying, whatever has been written to the store in between. */
  lemma ListIsCachedPerArguments(lib: Library, env: Env, db: Db, page: int, size: int, sortBy: string, sortOrder: string)
    requires GetAllAuthors(lib, env, page, size, sortBy, sortOrder).out.Ok?
    ensures var s := GetAllAuthors(lib, env, page, size, sortBy, sortOrder);
      GetAllAuthors(Library(db, s.lib.cache), env, page, size, sortBy, sortOrder).out == s.out
  {
  }

  /** After a delete that succeeded, the author is gone for `getAuthorById`, whether or not
      it existed and whatever the cache held. */
  lemma DeleteThenGetIsEmpty(lib: Library, id: Id)
    requires DeleteAuthor(lib, id).out.Ok?
    ensures GetAuthorById(DeleteAuthor(lib, id).lib, Some(id)).out == Ok(None)
  {
  }

  /** A created author is found by id afterwards, provided the "author" cache held no
      answer for the new id. */
  lemma CreateThenGet(lib: Library, a: Author)
    requires CreateAuthor(lib, a).out.value.id !in lib.cache.author
    ensures var s := CreateAuthor(lib, a);
      GetAuthorById(s.lib, Some(s.out.value.id)).out == Ok(Some(s.out.value))
  {
  }

  /** An update answers what a later `getAuthorById` of the id answers. */
  lemma UpdateThenGet(lib: Library, id: Id, details: Author)
    ensures var s := UpdateAuthor(lib, id, details);
      GetAuthorById(s.lib, Some(id)).out == s.out
  {
  }

  /** Reading, updating and deleting keep the "author" cache in agreement with the store. */
  lemma AuthorReadsAndWritesKeepCacheCoherent(lib: Library, id: Option<Id>, key: Id, a: Author)
    requires ByIdCoherent(lib.cache.author, lib.db.authors)
    ensures ByIdCoherent(GetAuthorById(lib, id).lib.cache.author, lib.db.authors)
    ensures var s := UpdateAuthor(lib, key, a); ByIdCoherent(s.lib.cache.author, s.lib.db.authors)
    ensures var s := DeleteAuthor(lib, key); ByIdCoherent(s.lib.cache.author, s.lib.db.authors)
  {
    var u := UpdateAuthor(lib, key, a);
    ByIdCoherentAfterWrite(lib.cache.author, lib.db.authors, u.lib.db.authors, key);
    assert u.lib.cache.author == lib.cache.author[key := FindStored(u.lib.db.authors, key)];
    var d := DeleteAuthor(lib, key);
    if d.out.Ok? {
      ByIdCoherentAfterWrite(lib.cache.author, lib.db.authors, d.lib.db.authors, key);
    }
  }

  /** Creating keeps the "author" cache coherent only when it held nothing for the new id. */
  lemma CreateAuthorKeepsCacheCoherent(lib: Library, a: Author)
    requires Fresh(lib.db.authors)
    requires ByIdCoherent(lib.cache.author, lib.db.authors)
    ensures var s := CreateAuthor(lib, a);
      ByIdCoherent(s.lib.cache.author, s.lib.db.authors) <==> s.out.value.id !in lib.cache.author
  {
    var s := CreateAuthor(lib, a);
    var id := s.out.value.id;
    ByIdCoherentAfterWrite(lib.cache.author, lib.db.authors, s.lib.db.authors, id);
    if id in lib.cache.author {
      assert lib.cache.author[id] == None;
      assert FindStored(s.lib.db.authors, id).Some?;
    } else {
      assert lib.cache.author - {id} == lib.cache.author;
    }
  }
}

=== FILE: book_controller.dfy ===
/**
 * `BookController`: the five CRUD handlers and `GET /books/search`. The list
 * handler flattens every listed book and its records before answering; the
 * search handler accepts exactly one non-empty term among title, author and
 * isbn and answers the service's page unflattened.
 */
module BookController {
  import opened Values
  import opened Entities
  import opened Paging
  import opened Store
  import opened Cache
  import opened State
  import opened Web
  import opened Flatten
  import BookService

  /** `GET /books`: the service page, with each book flattened. A book with a null author,
      or a record of one with a null customer, fails the whole answer. */
  ghost function List(lib: Library, env: Env, page: Option<int>, size: Option<int>,
                      sortBy: Option<string>, sortOrder: Option<string>): (r: Reply<Page<Listed<Book>>>)
    ensures !PagingBinds(page, size) ==> r == Reply(lib, BadRequest400)
    ensures PagingBinds(page, size) ==>
      var a := ListParams(page, size, sortBy, sortOrder);
      var s := BookService.GetAllBooks(lib, env, a.page, a.size, a.sortBy, a.sortOrder);
      && r.lib == s.lib
      && (s.out.Err? ==> r.response == Error500(s.out.fault))
      && (s.out.Ok? ==>
            && (r.response.Ok200? <==>
                  forall i :: 0 <= i < |s.out.value.content| ==>
                    s.out.value.content[i].row.val.author.Some? && FlattenRecords(s.out.value.content[i].records).Ok?)
            && (!r.response.Ok200? ==> r.response == Error500(NullPointer)))
    ensures PagingBinds(page, size) ==>
      r.response.Ok200? ==>
      var body := r.response.body;
      forall i :: 0 <= i < |body.content| ==>
        && body.content[i].row.val.authorID == body.content[i].row.val.author
        && forall k :: k in body.content[i].records ==> IdsAgree(body.content[i].records[k])
  {
    if !PagingBinds(page, size) then Reply(lib, BadRequest400)
    else
      var a := ListParams(page, size, sortBy, sortOrder);
      var s := BookService.GetAllBooks(lib, env, a.page, a.size, a.sortBy, a.sortOrder);
      match s.out
      case Err(f) => Reply(s.lib, Error500(f))
      case Ok(p) =>
        match FlattenPage(p, FlattenBook)
        case Err(f) => Reply(s.lib, Error500(f))
        case Ok(q) => Reply(s.lib, Ok200(q))
  }

  /** `GET /books` with the null-safe flattening: the answer never fails on a null author
      or a dangling record reference. */
  ghost function ListNullSafe(lib: Library, env: Env, page: Option<int>, size: Option<int>,
                              sortBy: Option<string>, sortOrder: Option<string>): (r: Reply<Page<Listed<Book>>>)
    ensures !PagingBinds(page, size) ==> r == Reply(lib, BadRequest400)
    ensures PagingBinds(page, size) ==>
      var a := ListParams(page, size, sortBy, sortOrder);
      var s := BookService.GetAllBooks(lib, env, a.page, a.size, a.sortBy, a.sortOrder);
      && r.lib == s.lib
      && (r.response.Ok200? <==> s.out.Ok?)
      && (s.out.Err? ==> r.response == Error500(s.out.fault))
      && (s.out.Ok? ==>
            && |r.response.body.content| == |s.out.value.content|
            && forall i :: 0 <= i < |s.out.value.content| ==>
                 r.response.body.content[i] == FlattenBookSafe(s.out.value.content[i]))
  {
    if !PagingBinds(page, size) then Reply(lib, BadRequest400)
    else
      var a := ListParams(page, size, sortBy, sortOrder);
      var s := BookService.GetAllBooks(lib, env, a.page, a.size, a.sortBy, a.sortOrder);
      match s.out
      case Err(f) => Reply(s.lib, Error500(f))
      case Ok(p) => Reply(s.lib, Ok200(MapPage(p, FlattenBookSafe)))
  }

  /** `GET /books/{id}`: 404 exactly when the lookup answers empty, which with a coherent
      cache is exactly when no such book is stored. */
  function Get(lib: Library, id: Id): (r: Reply<Stored<Book>>)
    ensures r.lib == BookService.GetBookById(lib, Some(id)).lib
    ensures r.response.NotFound404? <==> BookService.GetBookById(lib, Some(id)).out == Ok(None)
    ensures ByIdCoherent(lib.cache.book, lib.db.books) ==>
      && (r.response.NotFound404? <==> id !in lib.db.books.rows)
      && (r.response.Ok200? <==> id in lib.db.books.rows)
      && (r.response.Ok200? ==> r.response.body == Stored(id, lib.db.books.rows[id]))
  {
    var s := BookService.GetBookById(lib, Some(id));
    Reply(s.lib, Found(s.out))
  }

  /** `POST /books`: 200 with the saved book, or 500 when `authorID` is null or the store
      refuses the author reference. */
  function Create(lib: Library, b: Book): (r: Reply<Stored<Book>>)
    ensures r.lib == BookService.CreateBook(lib, b).lib
    ensures b.authorID.None? ==> r == Reply(lib, Error500(IllegalArgument))
    ensures r.response.Ok200? <==> BookService.CreateBook(lib, b).out.Ok?
    ensures r.response.Ok200? ==> r.response.body.val == b.(author := r.response.body.val.author)
    ensures ByIdCoherent(lib.cache.author, lib.db.authors) && b.authorID.Some? ==> r.response.Ok200?
  {
    var s := BookService.CreateBook(lib, b);
    Reply(s.lib, Answer(s.out))
  }

  /** `PUT /books/{id}`: 404 exactly when no such book is stored. */
  function Update(lib: Library, id: Id, details: Book): (r: Reply<Stored<Book>>)
    ensures r.lib == BookService.UpdateBook(lib, id, details).lib
    ensures r.response.NotFound404? <==> id !in lib.db.books.rows
    ensures id in lib.db.books.rows && details.authorID.None? ==> r == Reply(lib, Error500(IllegalArgument))
    ensures r.response.Ok200? ==> r.response.body.id == id && r.response.body.val == details.(author := r.response.body.val.author)
  {
    var s := BookService.UpdateBook(lib, id, details);
    Reply(s.lib, Found(s.out))
  }

  /** `DELETE /books/{id}`: 204 whether or not the book existed, and a 500 when a record
      still references it. */
  function Delete(lib: Library, id: Id): (r: Reply<()>)
    ensures r.lib == BookService.DeleteBook(lib, id).lib
    ensures r.response == NoContent204 <==>
      !(id in lib.db.books.rows && exists k :: k in lib.db.records.rows && lib.db.records.rows[k].book == Some(id))
    ensures r.response != NoContent204 ==> r == Reply(lib, Error500(ConstraintViolation))
    ensures id !in lib.db.books.rows ==> r.response == NoContent204
  {
    var s := BookService.DeleteBook(lib, id);
    Reply(s.lib, Deleted(s.out))
  }

  // ---------------------------------------------------------------------------
  // Search

  /** `x != null && !x.isEmpty()`. */
  predicate Given(x: Option<string>) {
    x.Some? && x.value != ""
  }

  function Count(b: bool): nat {
    if b then 1 else 0
  }

  /** How many of the three terms are given. */
  function GivenCount(title: Option<string>, author: Option<string>, isbn: Option<string>): nat {
    Count(Given(title)) + Count(Given(author)) + Count(Given(isbn))
  }

  /** The first guard as written: every term null or empty. */
  predicate NoneGiven(title: Option<string>, author: Option<string>, isbn: Option<string>) {
    (title.None? || title.value == "") && (author.None? || author.value == "") && (isbn.None? || isbn.value == "")
  }

  /** The second guard as written: some given term together with another given term. */
  predicate MoreThanOneGiven(title: Option<string>, author: Option<string>, isbn: Option<string>) {
    || (Given(title) && (Given(author) || Given(isbn)))
    || (Given(author) && (Given(title) || Given(isbn)))
    || (Given(isbn) && (Given(title) || Given(author)))
  }

  /** The guards count the given terms: the first holds when none is given and the second
      when at least two are, so a request passes both exactly when one term is given. */
  lemma GuardsCountTerms(title: Option<string>, author: Option<string>, isbn: Option<string>)
    ensures NoneGiven(title, author, isbn) <==> GivenCount(title, author, isbn) == 0
    ensures MoreThanOneGiven(title, author, isbn) <==> GivenCount(title, author, isbn) >= 2
    ensures !NoneGiven(title, author, isbn) && !MoreThanOneGiven(title, author, isbn) && !Given(title) && !Given(author) ==>
      Given(isbn)
  {
  }

  /** `GET /books/search`: 400 unless exactly one term is given; then the search for that
      term, with the paging arguments passed on as received. */
  ghost function Search(lib: Library, env: Env, title: Option<string>, author: Option<string>, isbn: Option<string>,
                        page: Option<int>, size: Option<int>, sortBy: Option<string>, sortOrder: Option<string>): (r: Reply<Page<Stored<Book>>>)
    ensures !PagingBinds(page, size) ==> r == Reply(lib, BadRequest400)
    ensures GivenCount(title, author, isbn) != 1 ==> r == Reply(lib, BadRequest400)
    ensures PagingBinds(page, size) ==>
      var a := ListParams(page, size, sortBy, sortOrder);
      GivenCount(title, author, isbn) == 1 && Given(title) ==>
        r == (var s := BookService.SearchBooksByTitle(lib, env, title.value, a.page, a.size, a.sortBy, a.sortOrder); Reply(s.lib, Answer(s.out)))
    ensures PagingBinds(page, size) ==>
      var a := ListParams(page, size, sortBy, sortOrder);
      GivenCount(title, author, isbn) == 1 && Given(author) ==>
        r == (var s := BookService.SearchBooksByAuthor(lib, env, author.value, a.page, a.size, a.sortBy, a.sortOrder); Reply(s.lib, Answer(s.out)))
    ensures PagingBinds(page, size) ==>
      var a := ListParams(page, size, sortBy, sortOrder);
      GivenCount(title, author, isbn) == 1 && Given(isbn) ==>
        r == (var s := BookService.SearchBooksByIsbn(lib, env, isbn.value, a.page, a.size, a.sortBy, a.sortOrder); Reply(s.lib, Answer(s.out)))
  {
    if !PagingBinds(page, size) then Reply(lib, BadRequest400)
    else
      GuardsCountTerms(title, author, isbn);
      var a := ListParams(page, size, sortBy, sortOrder);
      if NoneGiven(title, author, isbn) then Reply(lib, BadRequest400)
      else if MoreThanOneGiven(title, author, isbn) then Reply(lib, BadRequest400)
      else if Given(title) then (var s := BookService.SearchBooksByTitle(lib, env, title.value, a.page, a.size, a.sortBy, a.sortOrder); Reply(s.lib, Answer(s.out)))
      else if Given(author) then (var s := BookService.SearchBooksByAuthor(lib, env, author.value, a.page, a.size, a.sortBy, a.sortOrder); Reply(s.lib, Answer(s.out)))
      else (var s := BookService.SearchBooksByIsbn(lib, env, isbn.value, a.page, a.size, a.sortBy, a.sortOrder); Reply(s.lib, Answer(s.out)))
  }
}

=== FILE: book_service.dfy ===
/**
 * `BookService`: list, get, create, update and delete books, and the three
 * searches. The caches are "books" (pages, keyed by all four list arguments),
 * "book" (`findById` answers, keyed by id) and "booksByTitle", "booksByAuthor",
 * "booksByIsbn" (pages, keyed by the search term alone, never evicted).
 *
 * Creating and updating a book resolve `authorID` through
 * `AuthorService.getAuthorById`, so the lookup goes through the "author" cache.
 */
module BookService {
  import opened Values
  import opened Entities
  import opened Paging
  import opened Store
  import opened Repositories
  import opened Cache
  import opened State
  import AuthorService

  /** What `getAllBooks` computes when it runs: page `page` of `size` rows of the whole
      table, each book with the records that reference it, sorted by `sortBy` in the direction `sortOrder` names. The page holds
      exactly the rows whose position in that order falls in its window, in that order. It
      fails on a malformed page request, an unknown property, or a first row beyond the
      largest `int`. */
  ghost function ListBooks(db: Db, env: Env, page: int, size: int, sortBy: string, sortOrder: string): (r: Result<Page<Listed<Book>>>)
    ensures r.Ok? <==>
      && page >= 0 && size >= 1 && Text.HasText(sortBy)
      && sortBy in env.bookOrder.properties && page * size <= MaxInt32
    ensures r.Ok? ==>
      && r.value.request == MakePageRequest(page, size, sortBy, sortOrder).value
      && r.value.totalElements == |db.books.rows|
      && |r.value.content| <= size
      && forall i :: 0 <= i < |r.value.content| ==>
           (var l := r.value.content[i];
            && l.row.id in db.books.rows && db.books.rows[l.row.id] == l.row.val
            && l.records == RecordsOfBook(db, l.row.id))
    ensures r.Ok? ==> forall i, j :: 0 <= i < j < |r.value.content| ==>
      InOrder(KeyOf(db.books.rows, env.bookOrder, sortBy), ParseDirection(sortOrder), r.value.content[i].row.id, r.value.content[j].row.id)
    ensures r.Ok? ==> forall x :: x in ListedIds(r.value.content) <==>
      x in db.books.rows && InWindow(page, size, Position(KeyOf(db.books.rows, env.bookOrder, sortBy), ParseDirection(sortOrder), db.books.rows.Keys, x))
  {
    match MakePageRequest(page, size, sortBy, sortOrder)
    case Err(f) => Err(f)
    case Ok(req) =>
      assert req.sort.direction == ParseDirection(sortOrder);
      match FindAll(db.books, env.bookOrder, req)
      case Err(f) => Err(f)
      case Ok(p) =>
        var q := MapPage(p, (e: Stored<Book>) => WithBookRecords(db, e));
        assert ListedIds(q.content) == ContentIds(p.content);
        Ok(q)
  }

  /** `getAllBooks`, cached under all four arguments. */
  ghost function GetAllBooks(lib: Library, env: Env, page: int, size: int, sortBy: string, sortOrder: string): (s: Step<Page<Listed<Book>>>)
    ensures s.lib.db == lib.db && s.lib.cache == lib.cache.(books := s.lib.cache.books)
    ensures var key := ListKey(page, size, sortBy, sortOrder);
      key in lib.cache.books ==> s == Step(lib, Ok(lib.cache.books[key]))
    ensures ListKey(page, size, sortBy, sortOrder) !in lib.cache.books ==>
      s.out == ListBooks(lib.db, env, page, size, sortBy, sortOrder)
    ensures s.out.Ok? ==> s.lib.cache.books == lib.cache.books[ListKey(page, size, sortBy, sortOrder) := s.out.value]
  {
    var r := ReadThrough(lib.cache.books, ListKey(page, size, sortBy, sortOrder),
                         ListBooks(lib.db, env, page, size, sortBy, sortOrder));
    Step(lib.(cache := lib.cache.(books := r.0)), r.1)
  }

  /** `getBookById`, cached per id; a null id is refused as a cache key. */
  function GetBookById(lib: Library, id: Option<Id>): (s: Step<Option<Stored<Book>>>)
    ensures id.None? ==> s == Step(lib, Err(IllegalArgument))
    ensures s.lib.db == lib.db && s.lib.cache == lib.cache.(book := s.lib.cache.book)
    ensures id.Some? ==> s.out.Ok? && id.value in s.lib.cache.book && s.lib.cache.book[id.value] == s.out.value
    ensures id.Some? && id.value in lib.cache.book ==> s == Step(lib, Ok(lib.cache.book[id.value]))
    ensures id.Some? && id.value !in lib.cache.book ==> s.out == Ok(FindStored(lib.db.books, id.value))
    ensures KeyedById(lib.cache.book) ==> KeyedById(s.lib.cache.book)
  {
    if id.None? then Step(lib, Err(IllegalArgument))
    else
      var r := ReadThrough(lib.cache.book, id.value, Ok(FindStored(lib.db.books, id.value)));
      Step(lib.(cache := lib.cache.(book := r.0)), r.1)
  }

  /** `createBook`: `author` becomes the author `getAuthorById(authorID)` answers, or null,
      every other field is kept as supplied, and the book is saved under a fresh id; the
      list cache is cleared. A null `authorID` is refused before anything is saved. */
  function CreateBook(lib: Library, b: Book): (s: Step<Stored<Book>>)
    ensures b.authorID.None? ==> s == Step(lib, Err(IllegalArgument))
    ensures s.lib.db == lib.db.(books := s.lib.db.books)
    ensures s.lib.cache == lib.cache.(author := s.lib.cache.author, books := s.lib.cache.books)
    ensures s.out.Err? ==> s.lib.db == lib.db && s.lib.cache.books == lib.cache.books
    ensures s.out.Ok? ==>
      && s.out.value.val == b.(author := s.out.value.val.author)
      && s.lib.db.books.rows == lib.db.books.rows[s.out.value.id := s.out.value.val]
      && (Fresh(lib.db.books) ==> s.out.value.id !in lib.db.books.rows)
      && s.lib.cache.books == map[]
    ensures KeyedById(lib.cache.author) && s.out.Ok? ==>
      s.out.value.val.author.None? || s.out.value.val.author == b.authorID
    ensures ByIdCoherent(lib.cache.author, lib.db.authors) ==>
      && ByIdCoherent(s.lib.cache.author, s.lib.db.authors)
      && (b.authorID.Some? ==>
            && s.out.Ok?
            && (s.out.value.val.author == b.authorID <==> b.authorID.value in lib.db.authors.rows)
            && (s.out.value.val.author.None? <==> b.authorID.value !in lib.db.authors.rows))
  {
    var look := AuthorService.GetAuthorById(lib, b.authorID);
    if look.out.Err? then Step(look.lib, Err(look.out.fault))
    else
      var book := b.(author := RefOf(look.out.value));
      match InsertBook(look.lib.db, book)
      case Err(f) => Step(look.lib, Err(f))
      case Ok(res) => Step(Library(res.0, look.lib.cache.(books := map[])), Ok(res.1))
  }

  /** `updateBook`: on an existing id title, isbn, publication date, genre, availability
      and `authorID` become the details', `author` is re-resolved from the details'
      `authorID`, and the id and the book's records stay; on a missing id nothing is
      saved and the answer is empty. After success the list cache is cleared and the
      answer is put under the id. */
  function UpdateBook(lib: Library, id: Id, details: Book): (s: Step<Option<Stored<Book>>>)
    ensures id !in lib.db.books.rows ==>
      s == Step(lib.(cache := lib.cache.(books := map[], book := lib.cache.book[id := None])), Ok(None))
    ensures id in lib.db.books.rows && details.authorID.None? ==> s == Step(lib, Err(IllegalArgument))
    ensures s.lib.db == lib.db.(books := s.lib.db.books)
    ensures s.out.Ok? && id in lib.db.books.rows ==>
      && s.out.value.Some? && s.out.value.value.id == id
      && s.out.value.value.val == details.(author := s.out.value.value.val.author)
      && s.lib.db.books.rows == lib.db.books.rows[id := s.out.value.value.val]
      && RecordsOfBook(s.lib.db, id) == RecordsOfBook(lib.db, id)
      && s.lib.cache.books == map[] && s.lib.cache.book == lib.cache.book[id := s.out.value]
    ensures KeyedById(lib.cache.author) && s.out.Ok? && s.out.value.Some? ==>
      s.out.value.value.val.author.None? || s.out.value.value.val.author == details.authorID
    ensures s.out.Err? ==> s.lib.db == lib.db && s.lib.cache == lib.cache.(author := s.lib.cache.author)
    ensures ByIdCoherent(lib.cache.author, lib.db.authors) ==> ByIdCoherent(s.lib.cache.author, s.lib.db.authors)
  {
    match FindStored(lib.db.books, id)
    case None =>
      Step(lib.(cache := lib.cache.(books := map[], book := lib.cache.book[id := None])), Ok(None))
    case Some(found) =>
      var look := AuthorService.GetAuthorById(lib, details.authorID);
      if look.out.Err? then Step(look.lib, Err(look.out.fault))
      else
        var row := found.val.(title := details.title, isbn := details.isbn,
                              publicationDate := details.publicationDate, genre := details.genre,
                              available := details.available, authorID := details.authorID,
                              author := RefOf(look.out.value));
        match OverwriteBook(look.lib.db, id, row)
        case Err(f) => Step(look.lib, Err(f))
        case Ok(db) =>
          var saved := Some(Stored(id, row));
          Step(Library(db, look.lib.cache.(books := map[], book := look.lib.cache.book[id := saved])), Ok(saved))
  }

  /** `deleteBook`: the book is removed, the list cache cleared and the id evicted; a
      missing id removes nothing. A book that a record references is refused by the store
      and nothing changes. */
  function DeleteBook(lib: Library, id: Id): (s: Step<()>)
    ensures s.out.Err? <==>
      id in lib.db.books.rows && exists r :: r in lib.db.records.rows && lib.db.records.rows[r].book == Some(id)
    ensures s.out.Err? ==> s.out.fault == ConstraintViolation && s.lib == lib
    ensures s.out.Ok? ==>
      && s.lib.db == lib.db.(books := RemoveAll(lib.db.books, {id}))
      && s.lib.cache == lib.cache.(books := map[], book := lib.cache.book - {id})
  {
    match DeleteBookRow(lib.db, id)
    case Err(f) => Step(lib, Err(f))
    case Ok(db) => Step(Library(db, lib.cache.(books := map[], book := lib.cache.book - {id})), Ok(()))
  }

  // ---------------------------------------------------------------------------
  // Searches

  /** `searchBooksByTitle`, cached under the title alone. */
  ghost function SearchBooksByTitle(lib: Library, env: Env, title: string, page: int, size: int, sortBy: string, sortOrder: string): (s: Step<Page<Stored<Book>>>)
    ensures s.lib.db == lib.db && s.lib.cache == lib.cache.(booksByTitle := s.lib.cache.booksByTitle)
    ensures title in lib.cache.booksByTitle ==> s == Step(lib, Ok(lib.cache.booksByTitle[title]))
    ensures title !in lib.cache.booksByTitle ==>
      s.out == RunSearch(page, size, sortBy, sortOrder, req => FindByTitle(lib.db, env.bookOrder, title, req))
    ensures s.out.Ok? ==> s.lib.cache.booksByTitle == lib.cache.booksByTitle[title := s.out.value]
  {
    var r := ReadThrough(lib.cache.booksByTitle, title,
                         RunSearch(page, size, sortBy, sortOrder, req => FindByTitle(lib.db, env.bookOrder, title, req)));
    Step(lib.(cache := lib.cache.(booksByTitle := r.0)), r.1)
  }

  /** `searchBooksByAuthor`, cached under the author term alone. */
  ghost function SearchBooksByAuthor(lib: Library, env: Env, author: string, page: int, size: int, sortBy: string, sortOrder: string): (s: Step<Page<Stored<Book>>>)
    ensures s.lib.db == lib.db && s.lib.cache == lib.cache.(booksByAuthor := s.lib.cache.booksByAuthor)
    ensures author in lib.cache.booksByAuthor ==> s == Step(lib, Ok(lib.cache.booksByAuthor[author]))
    ensures author !in lib.cache.booksByAuthor ==>
      s.out == RunSearch(page, size, sortBy, sortOrder, req => FindByAuthorName(lib.db, env.bookOrder, author, req))
    ensures s.out.Ok? ==> s.lib.cache.booksByAuthor == lib.cache.booksByAuthor[author := s.out.value]
  {
    var r := ReadThrough(lib.cache.booksByAuthor, author,
                         RunSearch(page, size, sortBy, sortOrder, req => FindByAuthorName(lib.db, env.bookOrder, author, req)));
    Step(lib.(cache := lib.cache.(booksByAuthor := r.0)), r.1)
  }

  /** `searchBooksByIsbn`, cached under the ISBN term alone. */
  ghost function SearchBooksByIsbn(lib: Library, env: Env, isbn: string, page: int, size: int, sortBy: string, sortOrder: string): (s: Step<Page<Stored<Book>>>)
    ensures s.lib.db == lib.db && s.lib.cache == lib.cache.(booksByIsbn := s.lib.cache.booksByIsbn)
    ensures isbn in lib.cache.booksByIsbn ==> s == Step(lib, Ok(lib.cache.booksByIsbn[isbn]))
    ensures isbn !in lib.cache.booksByIsbn ==>
      s.out == RunSearch(page, size, sortBy, sortOrder, req => FindByIsbn(lib.db, env.bookOrder, isbn, req))
    ensures s.out.Ok? ==> s.lib.cache.booksByIsbn == lib.cache.booksByIsbn[isbn := s.out.value]
  {
    var r := ReadThrough(lib.cache.booksByIsbn, isbn,
                         RunSearch(page, size, sortBy, sortOrder, req => FindByIsbn(lib.db, env.bookOrder, isbn, req)));
    Step(lib.(cache := lib.cache.(booksByIsbn := r.0)), r.1)
  }

  // ---------------------------------------------------------------------------
  // Properties across calls

  /** A second list call with the same arguments answers the first call's page without
      querying, whatever has been written to the store in between. */
  lemma ListIsCachedPerArguments(lib: Library, env: Env, db: Db, page: int, size: int, sortBy: string, sortOrder: string)
    requires GetAllBooks(lib, env, page, size, sortBy, sortOrder).out.Ok?
    ensures var s := GetAllBooks(lib, env, page, size, sortBy, sortOrder);
      GetAllBooks(Library(db, s.lib.cache), env, page, size, sortBy, sortOrder).out == s.out
  {
  }

  /** After a delete that succeeded, the book is gone for `getBookById`. */
  lemma DeleteThenGetIsEmpty(lib: Library, id: Id)
    requires DeleteBook(lib, id).out.Ok?
    ensures GetBookById(DeleteBook(lib, id).lib, Some(id)).out == Ok(None)
  {
  }

  /** An update answers what a later `getBookById` of the id answers. */
  lemma UpdateThenGet(lib: Library, id: Id, details: Book)
    requires UpdateBook(lib, id, details).out.Ok?
    ensures var s := UpdateBook(lib, id, details);
      GetBookById(s.lib, Some(id)).out == s.out
  {
  }

  /** Deleting an author removes its books from the store but evicts none of them from
      the "book" cache: `getBookById` keeps answering a book that no longer exists. */
  lemma CascadedBookStaysCached(lib: Library, author: Id, bookId: Id)
    requires author in lib.db.authors.rows
    requires bookId in lib.db.books.rows && lib.db.books.rows[bookId].author == Some(author)
    requires lib.cache.book == map[bookId := Some(Stored(bookId, lib.db.books.rows[bookId]))]
    requires AuthorService.DeleteAuthor(lib, author).out.Ok?
    ensures var after := AuthorService.DeleteAuthor(lib, author).lib;
      && bookId !in after.db.books.rows
      && GetBookById(after, Some(bookId)).out == Ok(Some(Stored(bookId, lib.db.books.rows[bookId])))
  {
    assert bookId in BooksOf(lib.db, author);
  }

  /** A search term that has been answered once is answered the same way for every other
      page, size, sort property and direction, and after any write to the store. */
  lemma SearchIgnoresPagingOnceCached(lib: Library, env: Env, db: Db, title: string,
                                      page: int, size: int, sortBy: string, sortOrder: string,
                                      page2: int, size2: int, sortBy2: string, sortOrder2: string)
    requires SearchBooksByTitle(lib, env, title, page, size, sortBy, sortOrder).out.Ok?
    ensures var s := SearchBooksByTitle(lib, env, title, page, size, sortBy, sortOrder);
      SearchBooksByTitle(Library(db, s.lib.cache), env, title, page2, size2, sortBy2, sortOrder2).out == s.out
  {
  }
}

=== FILE: borrowing_controller.dfy ===
/**
 * `BorrowingRecordController`: the five CRUD handlers and
 * `GET /borrowings/search`. The list handler flattens every record before
 * answering; the search handler accepts exactly one of `userId` and `bookId`
 * and answers the service's page unflattened.
 */
module BorrowingRecordController {
  import opened Values
  import opened Entities
  import opened Paging
  import opened Cache
  import opened State
  import opened Web
  import opened Flatten
  import Text
  import BorrowingRecordService

  /** `GET /borrowings`: the service page with each record's scalar ids copied from its
      references; a record with a null reference fails the whole answer. */
  ghost function List(lib: Library, env: Env, page: Option<int>, size: Option<int>,
                      sortBy: Option<string>, sortOrder: Option<string>): (r: Reply<Page<Stored<BorrowingRecord>>>)
    ensures !PagingBinds(page, size) ==> r == Reply(lib, BadRequest400)
    ensures PagingBinds(page, size) ==>
      var a := ListParams(page, size, sortBy, sortOrder);
      var s := BorrowingRecordService.GetAllRecords(lib, env, a.page, a.size, a.sortBy, a.sortOrder);
      && r.lib == s.lib
      && (s.out.Err? ==> r.response == Error500(s.out.fault))
      && (s.out.Ok? ==>
            && (r.response.Ok200? <==>
                  forall i :: 0 <= i < |s.out.value.content| ==>
                    s.out.value.content[i].val.customer.Some? && s.out.value.content[i].val.book.Some?)
            && (!r.response.Ok200? ==> r.response == Error500(NullPointer))
            && (r.response.Ok200? ==>
                  && |r.response.body.content| == |s.out.value.content|
                  && forall i :: 0 <= i < |s.out.value.content| ==>
                       (var before, after := s.out.value.content[i], r.response.body.content[i];
                        && after.id == before.id && IdsAgree(after.val)
                        && after.val.(customerID := before.val.customerID, bookID := before.val.bookID) == before.val)))
  {
    if !PagingBinds(page, size) then Reply(lib, BadRequest400)
    else
      var a := ListParams(page, size, sortBy, sortOrder);
      var s := BorrowingRecordService.GetAllRecords(lib, env, a.page, a.size, a.sortBy, a.sortOrder);
      match s.out
      case Err(f) => Reply(s.lib, Error500(f))
      case Ok(p) =>
        match FlattenPage(p, FlattenStored)
        case Err(f) => Reply(s.lib, Error500(f))
        case Ok(q) => Reply(s.lib, Ok200(q))
  }

  /** `GET /borrowings/{id}`: 404 exactly when the lookup answers empty. */
  function Get(lib: Library, id: Id): (r: Reply<Stored<BorrowingRecord>>)
    ensures r.lib == BorrowingRecordService.GetRecordById(lib, Some(id)).lib
    ensures r.response.NotFound404? <==> BorrowingRecordService.GetRecordById(lib, Some(id)).out == Ok(None)
    ensures ByIdCoherent(lib.cache.record, lib.db.records) ==>
      && (r.response.NotFound404? <==> id !in lib.db.records.rows)
      && (r.response.Ok200? <==> id in lib.db.records.rows)
      && (r.response.Ok200? ==> r.response.body == Stored(id, lib.db.records.rows[id]))
  {
    var s := BorrowingRecordService.GetRecordById(lib, Some(id));
    Reply(s.lib, Found(s.out))
  }

  /** `POST /borrowings`: 200 with the saved record, or 500 when an id is null or the store
      refuses a reference. */
  function Create(lib: Library, rec: BorrowingRecord): (r: Reply<Stored<BorrowingRecord>>)
    ensures r.lib == BorrowingRecordService.CreateRecord(lib, rec).lib
    ensures rec.customerID.None? || rec.bookID.None? ==> r.response == Error500(IllegalArgument)
    ensures r.response.Ok200? <==> BorrowingRecordService.CreateRecord(lib, rec).out.Ok?
    ensures r.response.Ok200? ==>
      r.response.body.val == rec.(customer := r.response.body.val.customer, book := r.response.body.val.book)
  {
    var s := BorrowingRecordService.CreateRecord(lib, rec);
    Reply(s.lib, Answer(s.out))
  }

  /** `PUT /borrowings/{id}`: 404 exactly when no such record is stored; the 200 body is the
      stored record with the details' dates and the re-resolved references, its scalar
      `customerID` and `bookID` left as they were. */
  function Update(lib: Library, id: Id, details: BorrowingRecord): (r: Reply<Stored<BorrowingRecord>>)
    ensures r.lib == BorrowingRecordService.UpdateRecord(lib, id, details).lib
    ensures r.response.NotFound404? <==> id !in lib.db.records.rows
    ensures id in lib.db.records.rows && (details.customerID.None? || details.bookID.None?) ==>
      r.response == Error500(IllegalArgument)
    ensures r.response.Ok200? ==> r.response.body.id == id
    ensures r.response.Ok200? && id in lib.db.records.rows ==>
      r.response.body.val == lib.db.records.rows[id].(customer := r.response.body.val.customer, book := r.response.body.val.book,
                                                       borrowDate := details.borrowDate, returnDate := details.returnDate)
  {
    var s := BorrowingRecordService.UpdateRecord(lib, id, details);
    Reply(s.lib, Found(s.out))
  }

  /** `DELETE /borrowings/{id}`: always 204. */
  function Delete(lib: Library, id: Id): (r: Reply<()>)
    ensures r.response == NoContent204
    ensures r.lib == BorrowingRecordService.DeleteRecord(lib, id).lib
    ensures id !in r.lib.db.records.rows
  {
    var s := BorrowingRecordService.DeleteRecord(lib, id);
    Reply(s.lib, Deleted(s.out))
  }

  // ---------------------------------------------------------------------------
  // Search

  /** The second guard as written: both ids given, or one whose decimal text is empty. */
  predicate BothOrBlank(userId: Option<Id>, bookId: Option<Id>) {
    || (userId.Some? && bookId.Some?)
    || (userId.Some? && Text.LongToString(userId.value) == "")
    || (bookId.Some? && Text.LongToString(bookId.value) == "")
  }

  /** An id's decimal text is never empty, so the second guard only catches both ids
      given. */
  lemma SecondGuardIsBothGiven(userId: Option<Id>, bookId: Option<Id>)
    ensures BothOrBlank(userId, bookId) <==> userId.Some? && bookId.Some?
  {
    if userId.Some? {
      assert |Text.LongToString(userId.value)| > 0;
    }
    if bookId.Some? {
      assert |Text.LongToString(bookId.value)| > 0;
    }
  }

  /** `GET /borrowings/search`: 400 unless exactly one id is given; then the search by
      that id, with the paging arguments passed on as received, answered unflattened. */
  ghost function Search(lib: Library, env: Env, userId: Option<Id>, bookId: Option<Id>,
                        page: Option<int>, size: Option<int>, sortBy: Option<string>, sortOrder: Option<string>): (r: Reply<Page<Stored<BorrowingRecord>>>)
    ensures !PagingBinds(page, size) ==> r == Reply(lib, BadRequest400)
    ensures userId.Some? == bookId.Some? ==> r == Reply(lib, BadRequest400)
    ensures PagingBinds(page, size) ==>
      var a := ListParams(page, size, sortBy, sortOrder);
      userId.Some? && bookId.None? ==>
        var s := BorrowingRecordService.RecordsByCustomer(lib, env, userId, a.page, a.size, a.sortBy, a.sortOrder);
        r == Reply(s.lib, Answer(s.out))
    ensures PagingBinds(page, size) ==>
      var a := ListParams(page, size, sortBy, sortOrder);
      userId.None? && bookId.Some? ==>
        var s := BorrowingRecordService.RecordsByBook(lib, env, bookId, a.page, a.size, a.sortBy, a.sortOrder);
        r == Reply(s.lib, Answer(s.out))
  {
    if !PagingBinds(page, size) then Reply(lib, BadRequest400)
    else
      SecondGuardIsBothGiven(userId, bookId);
      var a := ListParams(page, size, sortBy, sortOrder);
      if userId.None? && bookId.None? then Reply(lib, BadRequest400)
      else if BothOrBlank(userId, bookId) then Reply(lib, BadRequest400)
      else if userId.Some? then
        var s := BorrowingRecordService.RecordsByCustomer(lib, env, userId, a.page, a.size, a.sortBy, a.sortOrder);
        Reply(s.lib, Answer(s.out))
      else
        var s := BorrowingRecordService.RecordsByBook(lib, env, bookId, a.page, a.size, a.sortBy, a.sortOrder);
        Reply(s.lib, Answer(s.out))
  }
}

=== FILE: borrowing_service.dfy ===
/**
 * `BorrowingRecordService`: list, get, create, update and delete borrowing
 * records, and the two searches by customer and by book, with the caches
 * "borrowingRecords" (pages, keyed by all four list arguments),
 * "borrowingRecord" (`findById` answers, keyed by id) and the two search caches
 * keyed by the id searched for alone.
 *
 * Create and update resolve the customer and the book through the other two
 * services' cached `getCustomerById` and `getBookById`, so both of those caches
 * may fill during the call.
 */
module BorrowingRecordService {
  import opened Values
  import opened Entities
  import opened Paging
  import opened Store
  import opened Repositories
  import opened Cache
  import opened State
  import CustomerService
  import BookService

  /** What `getAllBorrowingRecords` computes when it runs: page `page` of `size` rows of the whole
      table, sorted by `sortBy` in the direction `sortOrder` names. The page holds
      exactly the rows whose position in that order falls in its window, in that order. It
      fails on a malformed page request, an unknown property, or a first row beyond the
      largest `int`. */
  ghost function ListRecords(db: Db, env: Env, page: int, size: int, sortBy: string, sortOrder: string): (r: Result<Page<Stored<BorrowingRecord>>>)
    ensures r.Ok? <==>
      && page >= 0 && size >= 1 && Text.HasText(sortBy)
      && sortBy in env.recordOrder.properties && page * size <= MaxInt32
    ensures r.Ok? ==>
      && r.value.request == MakePageRequest(page, size, sortBy, sortOrder).value
      && r.value.totalElements == |db.records.rows|
      && |r.value.content| <= size
      && forall i :: 0 <= i < |r.value.content| ==>
           r.value.content[i].id in db.records.rows && db.records.rows[r.value.content[i].id] == r.value.content[i].val
    ensures r.Ok? ==> forall i, j :: 0 <= i < j < |r.value.content| ==>
      InOrder(KeyOf(db.records.rows, env.recordOrder, sortBy), ParseDirection(sortOrder), r.value.content[i].id, r.value.content[j].id)
    ensures r.Ok? ==> forall x :: x in ContentIds(r.value.content) <==>
      x in db.records.rows && InWindow(page, size, Position(KeyOf(db.records.rows, env.recordOrder, sortBy), ParseDirection(sortOrder), db.records.rows.Keys, x))
  {
    match MakePageRequest(page, size, sortBy, sortOrder)
    case Err(f) => Err(f)
    case Ok(req) =>
      assert req.sort.direction == ParseDirection(sortOrder);
      FindAll(db.records, env.recordOrder, req)
  }

  /** `getAllBorrowingRecords`, cached under all four arguments. */
  ghost function GetAllRecords(lib: Library, env: Env, page: int, size: int, sortBy: string, sortOrder: string): (s: Step<Page<Stored<BorrowingRecord>>>)
    ensures s.lib.db == lib.db && s.lib.cache == lib.cache.(records := s.lib.cache.records)
    ensures var key := ListKey(page, size, sortBy, sortOrder);
      key in lib.cache.records ==> s == Step(lib, Ok(lib.cache.records[key]))
    ensures ListKey(page, size, sortBy, sortOrder) !in lib.cache.records ==>
      s.out == ListRecords(lib.db, env, page, size, sortBy, sortOrder)
    ensures s.out.Ok? ==> s.lib.cache.records == lib.cache.records[ListKey(page, size, sortBy, sortOrder) := s.out.value]
  {
    var r := ReadThrough(lib.cache.records, ListKey(page, size, sortBy, sortOrder),
                         ListRecords(lib.db, env, page, size, sortBy, sortOrder));
    Step(lib.(cache := lib.cache.(records := r.0)), r.1)
  }

  /** `getBorrowingRecordById`, cached per id; a null id is refused as a cache key. */
  function GetRecordById(lib: Library, id: Option<Id>): (s: Step<Option<Stored<BorrowingRecord>>>)
    ensures id.None? ==> s == Step(lib, Err(IllegalArgument))
    ensures s.lib.db == lib.db && s.lib.cache == lib.cache.(record := s.lib.cache.record)
    ensures id.Some? ==> s.out.Ok? && id.value in s.lib.cache.record && s.lib.cache.record[id.value] == s.out.value
    ensures id.Some? && id.value in lib.cache.record ==> s == Step(lib, Ok(lib.cache.record[id.value]))
    ensures id.Some? && id.value !in lib.cache.record ==> s.out == Ok(FindStored(lib.db.records, id.value))
    ensures KeyedById(lib.cache.record) ==> KeyedById(s.lib.cache.record)
    ensures ByIdCoherent(lib.cache.record, lib.db.records) ==>
      ByIdCoherent(s.lib.cache.record, lib.db.records) &&
      (id.Some? ==> s.out == Ok(FindStored(lib.db.records, id.value)))
  {
    if id.None? then Step(lib, Err(IllegalArgument))
    else
      var r := ReadThrough(lib.cache.record, id.value, Ok(FindStored(lib.db.records, id.value)));
      Step(lib.(cache := lib.cache.(record := r.0)), r.1)
  }

  /** The two lookups create and update make, in order: the customer by the details'
      `customerID`, then the book by their `bookID`. A null id stops the call at its
      lookup. */
  function Resolve(lib: Library, r: BorrowingRecord): (s: Step<(Option<Stored<Customer>>, Option<Stored<Book>>)>)
    ensures r.customerID.None? ==> s == Step(lib, Err(IllegalArgument))
    ensures r.customerID.Some? && r.bookID.None? ==> s.out == Err(IllegalArgument)
    ensures s.out.Ok? <==> r.customerID.Some? && r.bookID.Some?
    ensures s.lib.db == lib.db
    ensures s.lib.cache == lib.cache.(customer := s.lib.cache.customer, book := s.lib.cache.book)
    ensures s.out.Ok? && KeyedById(lib.cache.customer) ==>
      RefOf(s.out.value.0).None? || RefOf(s.out.value.0) == r.customerID
    ensures s.out.Ok? && KeyedById(lib.cache.book) ==>
      RefOf(s.out.value.1).None? || RefOf(s.out.value.1) == r.bookID
    ensures ByIdCoherent(lib.cache.customer, lib.db.customers) ==>
      && ByIdCoherent(s.lib.cache.customer, lib.db.customers)
      && (s.out.Ok? ==> s.out.value.0 == FindStored(lib.db.customers, r.customerID.value))
    ensures ByIdCoherent(lib.cache.book, lib.db.books) ==>
      && ByIdCoherent(s.lib.cache.book, lib.db.books)
      && (s.out.Ok? ==> s.out.value.1 == FindStored(lib.db.books, r.bookID.value))
  {
    var c := CustomerService.GetCustomerById(lib, r.customerID);
    if c.out.Err? then Step(c.lib, Err(c.out.fault))
    else
      var b := BookService.GetBookById(c.lib, r.bookID);
      if b.out.Err? then Step(b.lib, Err(b.out.fault))
      else Step(b.lib, Ok((c.out.value, b.out.value)))
  }

  /** `createBorrowingRecord`: `customer` and `book` become the entities the lookups
      answer, or null, the other fields are kept as supplied (the scalar ids included),
      and the record is saved under a fresh id; the list cache is cleared. The store
      refuses a reference to a row that is gone, which a stale lookup can produce. */
  function CreateRecord(lib: Library, r: BorrowingRecord): (s: Step<Stored<BorrowingRecord>>)
    ensures r.customerID.None? ==> s == Step(lib, Err(IllegalArgument))
    ensures r.bookID.None? ==> s.out == Err(IllegalArgument)
    ensures s.lib.db == lib.db.(records := s.lib.db.records)
    ensures s.lib.cache == lib.cache.(customer := s.lib.cache.customer, book := s.lib.cache.book, records := s.lib.cache.records)
    ensures s.out.Err? ==> s.lib.db == lib.db && s.lib.cache.records == lib.cache.records
    ensures s.out.Err? && r.customerID.Some? && r.bookID.Some? ==> s.out.fault == ConstraintViolation
    ensures s.out.Ok? ==>
      && s.out.value.val == r.(customer := s.out.value.val.customer, book := s.out.value.val.book)
      && s.lib.db.records.rows == lib.db.records.rows[s.out.value.id := s.out.value.val]
      && (Fresh(lib.db.records) ==> s.out.value.id !in lib.db.records.rows)
      && s.lib.cache.records == map[]
    ensures s.out.Ok? && KeyedById(lib.cache.customer) ==>
      s.out.value.val.customer.None? || s.out.value.val.customer == r.customerID
    ensures s.out.Ok? && KeyedById(lib.cache.book) ==>
      s.out.value.val.book.None? || s.out.value.val.book == r.bookID
    ensures ByIdCoherent(lib.cache.customer, lib.db.customers) && ByIdCoherent(lib.cache.book, lib.db.books) &&
            r.customerID.Some? && r.bookID.Some? ==>
      && s.out.Ok?
      && (s.out.value.val.customer == r.customerID <==> r.customerID.value in lib.db.customers.rows)
      && (s.out.value.val.book == r.bookID <==> r.bookID.value in lib.db.books.rows)
  {
    var look := Resolve(lib, r);
    if look.out.Err? then Step(look.lib, Err(look.out.fault))
    else
      var rec := r.(customer := RefOf(look.out.value.0), book := RefOf(look.out.value.1));
      match InsertRecord(look.lib.db, rec)
      case Err(f) => Step(look.lib, Err(f))
      case Ok(res) => Step(Library(res.0, look.lib.cache.(records := map[])), Ok(res.1))
  }

  /** `updateBorrowingRecord`: on an existing id `customer` and `book` are re-resolved
      from the details' ids, and the borrow and return dates become the details'; the
      stored `customerID` and `bookID` are left as they were. On a missing id nothing is
      looked up or saved and the answer is empty. After success the list cache is cleared
      and the answer is put under the id. */
  function UpdateRecord(lib: Library, id: Id, details: BorrowingRecord): (s: Step<Option<Stored<BorrowingRecord>>>)
    ensures id !in lib.db.records.rows ==>
      s == Step(lib.(cache := lib.cache.(records := map[], record := lib.cache.record[id := None])), Ok(None))
    ensures id in lib.db.records.rows && details.customerID.None? ==> s == Step(lib, Err(IllegalArgument))
    ensures id in lib.db.records.rows && details.bookID.None? ==> s.out == Err(IllegalArgument)
    ensures s.lib.db == lib.db.(records := s.lib.db.records)
    ensures s.out.Ok? && id in lib.db.records.rows ==>
      (var prev := lib.db.records.rows[id];
       && s.out.value.Some? && s.out.value.value.id == id
       && s.out.value.value.val == prev.(customer := s.out.value.value.val.customer, book := s.out.value.value.val.book,
                                        borrowDate := details.borrowDate, returnDate := details.returnDate)
       && s.lib.db.records.rows == lib.db.records.rows[id := s.out.value.value.val]
       && s.lib.cache.records == map[] && s.lib.cache.record == lib.cache.record[id := s.out.value])
    ensures s.out.Err? ==> s.lib.db == lib.db && s.lib.cache.records == lib.cache.records && s.lib.cache.record == lib.cache.record
    ensures ByIdCoherent(lib.cache.customer, lib.db.customers) && ByIdCoherent(lib.cache.book, lib.db.books) &&
            id in lib.db.records.rows && details.customerID.Some? && details.bookID.Some? ==>
      && s.out.Ok?
      && (s.out.value.value.val.customer == details.customerID <==> details.customerID.value in lib.db.customers.rows)
      && (s.out.value.value.val.book == details.bookID <==> details.bookID.value in lib.db.books.rows)
  {
    match FindStored(lib.db.records, id)
    case None =>
      Step(lib.(cache := lib.cache.(records := map[], record := lib.cache.record[id := None])), Ok(None))
    case Some(found) =>
      var look := Resolve(lib, details);
      if look.out.Err? then Step(look.lib, Err(look.out.fault))
      else
        var row := found.val.(customer := RefOf(look.out.value.0), book := RefOf(look.out.value.1),
                              borrowDate := details.borrowDate, returnDate := details.returnDate);
        match OverwriteRecord(look.lib.db, id, row)
        case Err(f) => Step(look.lib, Err(f))
        case Ok(db) =>
          var saved := Some(Stored(id, row));
          Step(Library(db, look.lib.cache.(records := map[], record := look.lib.cache.record[id := saved])), Ok(saved))
  }

  /** `deleteBorrowingRecord`: the record is removed, the list cache cleared and the id
      evicted; a missing id removes nothing. The two search caches are not touched. */
  function DeleteRecord(lib: Library, id: Id): (s: Step<()>)
    ensures s.out.Ok?
    ensures id !in s.lib.db.records.rows
    ensures forall k :: k != id ==> (k in s.lib.db.records.rows <==> k in lib.db.records.rows)
    ensures s.lib.db == lib.db.(records := s.lib.db.records)
    ensures s.lib.cache == lib.cache.(records := map[], record := lib.cache.record - {id})
  {
    Step(Library(DeleteRecordRow(lib.db, id), lib.cache.(records := map[], record := lib.cache.record - {id})), Ok(()))
  }

  /** `getBorrowingRecordsByCustomerId`, cached under the customer id alone. */
  ghost function RecordsByCustomer(lib: Library, env: Env, userId: Option<Id>, page: int, size: int, sortBy: string, sortOrder: string): (s: Step<Page<Stored<BorrowingRecord>>>)
    ensures userId.None? ==> s == Step(lib, Err(IllegalArgument))
    ensures s.lib.db == lib.db && s.lib.cache == lib.cache.(recordsByCustomer := s.lib.cache.recordsByCustomer)
    ensures userId.Some? && userId.value in lib.cache.recordsByCustomer ==>
      s == Step(lib, Ok(lib.cache.recordsByCustomer[userId.value]))
    ensures userId.Some? && userId.value !in lib.cache.recordsByCustomer ==>
      s.out == RunSearch(page, size, sortBy, sortOrder, req => FindByCustomerId(lib.db, env.recordOrder, userId.value, req))
    ensures userId.Some? && s.out.Ok? ==>
      s.lib.cache.recordsByCustomer == lib.cache.recordsByCustomer[userId.value := s.out.value]
  {
    if userId.None? then Step(lib, Err(IllegalArgument))
    else
      var r := ReadThrough(lib.cache.recordsByCustomer, userId.value,
                           RunSearch(page, size, sortBy, sortOrder, req => FindByCustomerId(lib.db, env.recordOrder, userId.value, req)));
      Step(lib.(cache := lib.cache.(recordsByCustomer := r.0)), r.1)
  }

  /** `getBorrowingRecordsByBookId`, cached under the book id alone. */
  ghost function RecordsByBook(lib: Library, env: Env, bookId: Option<Id>, page: int, size: int, sortBy: string, sortOrder: string): (s: Step<Page<Stored<BorrowingRecord>>>)
    ensures bookId.None? ==> s == Step(lib, Err(IllegalArgument))
    ensures s.lib.db == lib.db && s.lib.cache == lib.cache.(recordsByBook := s.lib.cache.recordsByBook)
    ensures bookId.Some? && bookId.value in lib.cache.recordsByBook ==>
      s == Step(lib, Ok(lib.cache.recordsByBook[bookId.value]))
    ensures bookId.Some? && bookId.value !in lib.cache.recordsByBook ==>
      s.out == RunSearch(page, size, sortBy, sortOrder, req => FindByBookId(lib.db, env.recordOrder, bookId.value, req))
    ensures bookId.Some? && s.out.Ok? ==>
      s.lib.cache.recordsByBook == lib.cache.recordsByBook[bookId.value := s.out.value]
  {
    if bookId.None? then Step(lib, Err(IllegalArgument))
    else
      var r := ReadThrough(lib.cache.recordsByBook, bookId.value,
                           RunSearch(page, size, sortBy, sortOrder, req => FindByBookId(lib.db, env.recordOrder, bookId.value, req)));
      Step(lib.(cache := lib.cache.(recordsByBook := r.0)), r.1)
  }

  // ---------------------------------------------------------------------------
  // Properties across calls

  /** A second list call with the same arguments answers the first call's page without
      querying, whatever has been written to the store in between. */
  lemma ListIsCachedPerArguments(lib: Library, env: Env, db: Db, page: int, size: int, sortBy: string, sortOrder: string)
    requires GetAllRecords(lib, env, page, size, sortBy, sortOrder).out.Ok?
    ensures var s := GetAllRecords(lib, env, page, size, sortBy, sortOrder);
      GetAllRecords(Library(db, s.lib.cache), env, page, size, sortBy, sortOrder).out == s.out
  {
  }

  /** After a delete, the record is gone for `getBorrowingRecordById`. */
  lemma DeleteThenGetIsEmpty(lib: Library, id: Id)
    ensures GetRecordById(DeleteRecord(lib, id).lib, Some(id)).out == Ok(None)
  {
  }

  /** An update answers what a later `getBorrowingRecordById` of the id answers. */
  lemma UpdateThenGet(lib: Library, id: Id, details: BorrowingRecord)
    requires UpdateRecord(lib, id, details).out.Ok?
    ensures var s := UpdateRecord(lib, id, details);
      GetRecordById(s.lib, Some(id)).out == s.out
  {
  }

  /** Moving a record to another customer changes its `customer` but not its stored
      `customerID`, which keeps naming the previous customer. */
  lemma UpdateLeavesCustomerIdStale(lib: Library, id: Id, details: BorrowingRecord)
    requires ByIdCoherent(lib.cache.customer, lib.db.customers) && ByIdCoherent(lib.cache.book, lib.db.books)
    requires id in lib.db.records.rows && details.bookID.Some?
    requires details.customerID.Some? && details.customerID.value in lib.db.customers.rows
    requires lib.db.records.rows[id].customerID != details.customerID
    ensures var s := UpdateRecord(lib, id, details);
      && s.out.Ok?
      && s.out.value.value.val.customer == details.customerID
      && s.out.value.value.val.customerID == lib.db.records.rows[id].customerID
      && s.out.value.value.val.customerID != s.out.value.value.val.customer
  {
  }

  /** Once a customer's records are cached for one page, any other page, size or order
      asked for that customer answers the same cached page. */
  lemma SearchByCustomerIgnoresPagingOnceCached(lib: Library, env: Env, userId: Id, page: int, size: int, sortBy: string, sortOrder: string,
                                                 page2: int, size2: int, sortBy2: string, sortOrder2: string)
    requires RecordsByCustomer(lib, env, Some(userId), page, size, sortBy, sortOrder).out.Ok?
    ensures var s := RecordsByCustomer(lib, env, Some(userId), page, size, sortBy, sortOrder);
      RecordsByCustomer(s.lib, env, Some(userId), page2, size2, sortBy2, sortOrder2).out == s.out
  {
  }

  /** Deleting a customer removes its records by cascade, but a record already in the
      "borrowingRecord" cache is still answered by id. */
  lemma CascadedRecordStaysCached(lib: Library, customer: Id, rec: Id, val: BorrowingRecord)
    requires customer in lib.db.customers.rows
    requires rec in lib.db.records.rows && lib.db.records.rows[rec].customer == Some(customer)
    requires rec in lib.cache.record && lib.cache.record[rec] == Some(Stored(rec, val))
    ensures var s := CustomerService.DeleteCustomer(lib, customer);
      && rec !in s.lib.db.records.rows
      && GetRecordById(s.lib, Some(rec)).out == Ok(Some(Stored(rec, val)))
  {
  }

  /** A book removed while the "book" cache still holds it makes a new record for it fail
      in the store, though the lookup found the book. */
  lemma StaleBookRefusesRecord(lib: Library, r: BorrowingRecord, b: Stored<Book>)
    requires r.customerID.Some? && r.bookID == Some(b.id)
    requires b.id in lib.cache.book && lib.cache.book[b.id] == Some(b) && b.id !in lib.db.books.rows
    ensures CreateRecord(lib, r).out == Err(ConstraintViolation)
  {
  }

  /** Reading, updating and deleting keep the "borrowingRecord" cache in agreement with the
      store. */
  lemma RecordReadsAndWritesKeepCacheCoherent(lib: Library, id: Option<Id>, key: Id, details: BorrowingRecord)
    requires ByIdCoherent(lib.cache.record, lib.db.records)
    ensures ByIdCoherent(GetRecordById(lib, id).lib.cache.record, lib.db.records)
    ensures var s := UpdateRecord(lib, key, details); ByIdCoherent(s.lib.cache.record, s.lib.db.records)
    ensures var s := DeleteRecord(lib, key); ByIdCoherent(s.lib.cache.record, s.lib.db.records)
  {
    var u := UpdateRecord(lib, key, details);
    ByIdCoherentAfterWrite(lib.cache.record, lib.db.records, u.lib.db.records, key);
    if u.out.Ok? {
      assert u.lib.cache.record == lib.cache.record[key := FindStored(u.lib.db.records, key)];
    }
    var d := DeleteRecord(lib, key);
    ByIdCoherentAfterWrite(lib.cache.record, lib.db.records, d.lib.db.records, key);
  }
}

=== FILE: cache.dfy ===
/**
 * Spring's declarative caching, for one named cache, as a map from keys to
 * cached values.
 *
 * `@Cacheable` looks the key up first: on a hit the method is not run and the
 * cached value is the answer; on a miss the method runs, and a normal result is
 * stored under the key while an exception leaves the cache as it was. A method
 * returning `Optional` has its empty result cached as `null`, which a later hit
 * turns back into an empty `Optional`; the by-id caches therefore hold
 * `Option<Stored<E>>`. `@CachePut` stores the result after the method returns
 * and `@CacheEvict` removes one key or every entry after the method returns;
 * neither acts when the method throws.
 */
module Cache {
  import opened Values
  import opened Entities
  import opened Store

  /** `@Cacheable` around a method whose invocation would produce `miss`. */
  function ReadThrough<K, V>(cache: map<K, V>, key: K, miss: Result<V>): (r: (map<K, V>, Result<V>))
    ensures key in cache ==> r == (cache, Ok(cache[key]))
    ensures key !in cache ==> r.1 == miss
    ensures r.1.Ok? ==> key in r.0 && r.0[key] == r.1.value
    ensures r.1.Err? ==> r.0 == cache
    ensures forall k :: k in cache ==> k in r.0 && r.0[k] == cache[k]
  {
    if key in cache then (cache, Ok(cache[key]))
    else if miss.Ok? then (cache[key := miss.value], miss)
    else (cache, miss)
  }

  /** Every cached value is what the method would answer now. */
  ghost predicate Coherent<K, V>(cache: map<K, V>, truth: K -> Result<V>) {
    forall k :: k in cache ==> truth(k) == Ok(cache[k])
  }

  /** A coherent cache is transparent: the answer is the method's own, and the cache
      stays coherent. */
  lemma ReadThroughTransparent<K, V>(cache: map<K, V>, key: K, truth: K -> Result<V>)
    requires Coherent(cache, truth)
    ensures ReadThrough(cache, key, truth(key)).1 == truth(key)
    ensures Coherent(ReadThrough(cache, key, truth(key)).0, truth)
  {
  }

  /** Once a key is cached, later calls with that key answer the first result, whatever
      the method would now produce. */
  lemma ReadThroughSticky<K, V>(cache: map<K, V>, key: K, first: Result<V>, later: Result<V>)
    requires first.Ok?
    ensures var (c1, r1) := ReadThrough(cache, key, first);
      ReadThrough(c1, key, later) == (c1, r1)
  {
  }

  // ---------------------------------------------------------------------------
  // The by-id caches

  /** The cache of `findById` answers agrees with the table. */
  predicate ByIdCoherent<E(==)>(c: map<Id, Option<Stored<E>>>, t: Table<E>) {
    forall id :: id in c ==> c[id] == FindStored(t, id)
  }

  /** Every cached row sits under its own id, as `@CachePut(key = "#id")` of a row loaded
      by that id and `@Cacheable` of `findById` guarantee. */
  predicate KeyedById<E>(c: map<Id, Option<Stored<E>>>) {
    forall k :: k in c && c[k].Some? ==> c[k].value.id == k
  }

  lemma CoherentIsKeyedById<E>(c: map<Id, Option<Stored<E>>>, t: Table<E>)
    requires ByIdCoherent(c, t)
    ensures KeyedById(c)
  {
    forall k | k in c && c[k].Some? ensures c[k].value.id == k {
      assert c[k] == FindStored(t, k);
    }
  }

  /** The by-id cache seen as a `Coherent` cache of the table's `findById`. */
  lemma ByIdCoherentMeans<E>(c: map<Id, Option<Stored<E>>>, t: Table<E>)
    ensures ByIdCoherent(c, t) <==> Coherent(c, (id: Id) => Ok(FindStored(t, id)))
  {
  }

  /** A write to one row keeps a coherent by-id cache coherent once that row's entry is
      evicted, or replaced by the row's new `findById` answer. */
  lemma ByIdCoherentAfterWrite<E>(c: map<Id, Option<Stored<E>>>, t: Table<E>, t2: Table<E>, id: Id)
    requires ByIdCoherent(c, t)
    requires forall k :: k != id ==> (k in t2.rows <==> k in t.rows)
    requires forall k :: k != id && k in t.rows ==> t2.rows[k] == t.rows[k]
    ensures ByIdCoherent(c - {id}, t2)
    ensures ByIdCoherent(c[id := FindStored(t2, id)], t2)
  {
    forall k | k in c && k != id ensures c[k] == FindStored(t2, k) {
      assert c[k] == FindStored(t, k);
    }
  }
}

=== FILE: customer_controller.dfy ===
/**
 * `CustomerController`: the five CRUD handlers. The list handler flattens the
 * records of every listed customer and leaves the customers themselves as they
 * are.
 */
module CustomerController {
  import opened Values
  import opened Entities
  import opened Paging
  import opened Cache
  import opened State
  import opened Web
  import opened Flatten
  import CustomerService

  /** `GET /customers`: the service page with each customer's records flattened; a record
      with a null reference fails the whole answer. */
  ghost function List(lib: Library, env: Env, page: Option<int>, size: Option<int>,
                      sortBy: Option<string>, sortOrder: Option<string>): (r: Reply<Page<Listed<Customer>>>)
    ensures !PagingBinds(page, size) ==> r == Reply(lib, BadRequest400)
    ensures PagingBinds(page, size) ==>
      var a := ListParams(page, size, sortBy, sortOrder);
      var s := CustomerService.GetAllCustomers(lib, env, a.page, a.size, a.sortBy, a.sortOrder);
      && r.lib == s.lib
      && (s.out.Err? ==> r.response == Error500(s.out.fault))
      && (s.out.Ok? ==>
            && (r.response.Ok200? <==>
                  forall i :: 0 <= i < |s.out.value.content| ==> FlattenRecords(s.out.value.content[i].records).Ok?)
            && (!r.response.Ok200? ==> r.response == Error500(NullPointer))
            && (r.response.Ok200? ==>
                  && |r.response.body.content| == |s.out.value.content|
                  && forall i :: 0 <= i < |s.out.value.content| ==>
                       && r.response.body.content[i].row == s.out.value.content[i].row
                       && r.response.body.content[i].records.Keys == s.out.value.content[i].records.Keys
                       && forall k :: k in r.response.body.content[i].records ==>
                            IdsAgree(r.response.body.content[i].records[k])))
  {
    if !PagingBinds(page, size) then Reply(lib, BadRequest400)
    else
      var a := ListParams(page, size, sortBy, sortOrder);
      var s := CustomerService.GetAllCustomers(lib, env, a.page, a.size, a.sortBy, a.sortOrder);
      match s.out
      case Err(f) => Reply(s.lib, Error500(f))
      case Ok(p) =>
        match FlattenPage(p, FlattenCustomer)
        case Err(f) => Reply(s.lib, Error500(f))
        case Ok(q) => Reply(s.lib, Ok200(q))
  }

  /** `GET /customers/{id}`: 404 exactly when the lookup answers empty. */
  function Get(lib: Library, id: Id): (r: Reply<Stored<Customer>>)
    ensures r.lib == CustomerService.GetCustomerById(lib, Some(id)).lib
    ensures r.response.NotFound404? <==> CustomerService.GetCustomerById(lib, Some(id)).out == Ok(None)
    ensures ByIdCoherent(lib.cache.customer, lib.db.customers) ==>
      && (r.response.NotFound404? <==> id !in lib.db.customers.rows)
      && (r.response.Ok200? <==> id in lib.db.customers.rows)
      && (r.response.Ok200? ==> r.response.body == Stored(id, lib.db.customers.rows[id]))
  {
    var s := CustomerService.GetCustomerById(lib, Some(id));
    Reply(s.lib, Found(s.out))
  }

  /** `POST /customers`: 200 with the password encoded, or 500 when the password is
      null. */
  function Create(lib: Library, env: Env, c: Customer): (r: Reply<Stored<Customer>>)
    ensures r.lib == CustomerService.CreateCustomer(lib, env, c).lib
    ensures r.response.Ok200? <==> c.password.Some?
    ensures c.password.None? ==> r == Reply(lib, Error500(IllegalArgument))
    ensures r.response.Ok200? ==> r.response.body.val == c.(password := Some(env.encode(c.password.value)))
  {
    var s := CustomerService.CreateCustomer(lib, env, c);
    Reply(s.lib, Answer(s.out))
  }

  /** `PUT /customers/{id}`: 404 exactly when no such customer is stored, otherwise 200
      with the details under the id. */
  function Update(lib: Library, id: Id, details: Customer): (r: Reply<Stored<Customer>>)
    ensures r.lib == CustomerService.UpdateCustomer(lib, id, details).lib
    ensures r.response.NotFound404? <==> id !in lib.db.customers.rows
    ensures r.response.Ok200? <==> id in lib.db.customers.rows
    ensures r.response.Ok200? ==> r.response.body == Stored(id, details)
  {
    var s := CustomerService.UpdateCustomer(lib, id, details);
    Reply(s.lib, Found(s.out))
  }

  /** `DELETE /customers/{id}`: always 204, whether or not the customer existed. */
  function Delete(lib: Library, id: Id): (r: Reply<()>)
    ensures r.response == NoContent204
    ensures r.lib == CustomerService.DeleteCustomer(lib, id).lib
    ensures id !in r.lib.db.customers.rows
  {
    var s := CustomerService.DeleteCustomer(lib, id);
    Reply(s.lib, Deleted(s.out))
  }
}

=== FILE: customer_service.dfy ===
/**
 * `CustomerService`: list, get, create, update and delete customers, with the
 * caches "customers" (pages, keyed by all four list arguments) and "customer"
 * (`findById` answers, keyed by id). Create stores the encoded password;
 * update stores the supplied one as it is.
 */
module CustomerService {
  import opened Values
  import opened Entities
  import opened Paging
  import opened Store
  import opened Repositories
  import opened Cache
  import opened State

  /** What `getAllCustomers` computes when it runs: page `page` of `size` rows of the whole
      table, each customer with its records, sorted by `sortBy` in the direction `sortOrder` names. The page holds
      exactly the rows whose position in that order falls in its window, in that order. It
      fails on a malformed page request, an unknown property, or a first row beyond the
      largest `int`. */
  ghost function ListCustomers(db: Db, env: Env, page: int, size: int, sortBy: string, sortOrder: string): (r: Result<Page<Listed<Customer>>>)
    ensures r.Ok? <==>
      && page >= 0 && size >= 1 && Text.HasText(sortBy)
      && sortBy in env.customerOrder.properties && page * size <= MaxInt32
    ensures r.Ok? ==>
      && r.value.request == MakePageRequest(page, size, sortBy, sortOrder).value
      && r.value.totalElements == |db.customers.rows|
      && |r.value.content| <= size
      && forall i :: 0 <= i < |r.value.content| ==>
           (var l := r.value.content[i];
            && l.row.id in db.customers.rows && db.customers.rows[l.row.id] == l.row.val
            && l.records == RecordsOfCustomerMap(db, l.row.id))
    ensures r.Ok? ==> forall i, j :: 0 <= i < j < |r.value.content| ==>
      InOrder(KeyOf(db.customers.rows, env.customerOrder, sortBy), ParseDirection(sortOrder), r.value.content[i].row.id, r.value.content[j].row.id)
    ensures r.Ok? ==> forall x :: x in ListedIds(r.value.content) <==>
      x in db.customers.rows && InWindow(page, size, Position(KeyOf(db.customers.rows, env.customerOrder, sortBy), ParseDirection(sortOrder), db.customers.rows.Keys, x))
  {
    match MakePageRequest(page, size, sortBy, sortOrder)
    case Err(f) => Err(f)
    case Ok(req) =>
      assert req.sort.direction == ParseDirection(sortOrder);
      match FindAll(db.customers, env.customerOrder, req)
      case Err(f) => Err(f)
      case Ok(p) =>
        var q := MapPage(p, (e: Stored<Customer>) => WithCustomerRecords(db, e));
        assert ListedIds(q.content) == ContentIds(p.content);
        Ok(q)
  }

  /** `getAllCustomers`, cached under all four arguments. */
  ghost function GetAllCustomers(lib: Library, env: Env, page: int, size: int, sortBy: string, sortOrder: string): (s: Step<Page<Listed<Customer>>>)
    ensures s.lib.db == lib.db && s.lib.cache == lib.cache.(customers := s.lib.cache.customers)
    ensures var key := ListKey(page, size, sortBy, sortOrder);
      key in lib.cache.customers ==> s == Step(lib, Ok(lib.cache.customers[key]))
    ensures ListKey(page, size, sortBy, sortOrder) !in lib.cache.customers ==>
      s.out == ListCustomers(lib.db, env, page, size, sortBy, sortOrder)
    ensures s.out.Ok? ==> s.lib.cache.customers == lib.cache.customers[ListKey(page, size, sortBy, sortOrder) := s.out.value]
  {
    var r := ReadThrough(lib.cache.customers, ListKey(page, size, sortBy, sortOrder),
                         ListCustomers(lib.db, env, page, size, sortBy, sortOrder));
    Step(lib.(cache := lib.cache.(customers := r.0)), r.1)
  }

  /** `getCustomerById`, cached per id; a null id is refused as a cache key. With a
      coherent cache the answer is the store's `findById`. */
  function GetCustomerById(lib: Library, id: Option<Id>): (s: Step<Option<Stored<Customer>>>)
    ensures id.None? ==> s == Step(lib, Err(IllegalArgument))
    ensures s.lib.db == lib.db && s.lib.cache == lib.cache.(customer := s.lib.cache.customer)
    ensures id.Some? ==> s.out.Ok? && id.value in s.lib.cache.customer && s.lib.cache.customer[id.value] == s.out.value
    ensures id.Some? && id.value in lib.cache.customer ==> s == Step(lib, Ok(lib.cache.customer[id.value]))
    ensures id.Some? && id.value !in lib.cache.customer ==> s.out == Ok(FindStored(lib.db.customers, id.value))
    ensures KeyedById(lib.cache.customer) ==> KeyedById(s.lib.cache.customer)
    ensures ByIdCoherent(lib.cache.customer, lib.db.customers) ==>
      ByIdCoherent(s.lib.cache.customer, lib.db.customers) &&
      (id.Some? ==> s.out == Ok(FindStored(lib.db.customers, id.value)))
  {
    if id.None? then Step(lib, Err(IllegalArgument))
    else
      var r := ReadThrough(lib.cache.customer, id.value, Ok(FindStored(lib.db.customers, id.value)));
      Step(lib.(cache := lib.cache.(customer := r.0)), r.1)
  }

  /** `createCustomer`: the customer is saved under a fresh id with the encoder's output in
      place of the supplied password, every other field as supplied; the list cache is
      cleared. A null password makes the encoder throw, and then nothing changes. */
  function CreateCustomer(lib: Library, env: Env, c: Customer): (s: Step<Stored<Customer>>)
    ensures s.out.Ok? <==> c.password.Some?
    ensures c.password.None? ==> s == Step(lib, Err(IllegalArgument))
    ensures s.out.Ok? ==>
      && s.out.value.val.password == Some(env.encode(c.password.value))
      && s.out.value.val.(password := c.password) == c
      && (Fresh(lib.db.customers) ==> s.out.value.id !in lib.db.customers.rows)
      && s.lib.db.customers.rows == lib.db.customers.rows[s.out.value.id := s.out.value.val]
      && s.lib.db == lib.db.(customers := s.lib.db.customers)
      && s.lib.cache == lib.cache.(customers := map[])
  {
    if c.password.None? then Step(lib, Err(IllegalArgument))
    else
      var (db, saved) := InsertCustomer(lib.db, c.(password := Some(env.encode(c.password.value))));
      Step(Library(db, lib.cache.(customers := map[])), Ok(saved))
  }

  /** `updateCustomer`: on an existing id name, email, address, phone number and password
      become the details' (the password as supplied, not encoded), and the id and the
      customer's records stay; on a missing id nothing is saved and the answer is empty.
      Either way the list cache is cleared and the answer is put under the id. */
  function UpdateCustomer(lib: Library, id: Id, details: Customer): (s: Step<Option<Stored<Customer>>>)
    ensures s.out.Ok?
    ensures id !in lib.db.customers.rows ==> s.out.value.None? && s.lib.db == lib.db
    ensures id in lib.db.customers.rows ==>
      && s.out.value == Some(Stored(id, details))
      && s.lib.db.customers.rows == lib.db.customers.rows[id := details]
      && s.lib.db == lib.db.(customers := s.lib.db.customers)
      && RecordsOfCustomerMap(s.lib.db, id) == RecordsOfCustomerMap(lib.db, id)
    ensures s.lib.cache == lib.cache.(customers := map[], customer := lib.cache.customer[id := s.out.value])
  {
    match FindStored(lib.db.customers, id)
    case None =>
      Step(lib.(cache := lib.cache.(customers := map[], customer := lib.cache.customer[id := None])), Ok(None))
    case Some(found) =>
      var row := found.val.(name := details.name, email := details.email, address := details.address,
                            phoneNumber := details.phoneNumber, password := details.password);
      var saved := Some(Stored(id, row));
      Step(Library(OverwriteCustomer(lib.db, id, row),
                   lib.cache.(customers := map[], customer := lib.cache.customer[id := saved])),
           Ok(saved))
  }

  /** `deleteCustomer`: the customer and, by cascade, its records are removed, the list
      cache is cleared and the id evicted; a missing id removes nothing. No record cache is
      touched. */
  function DeleteCustomer(lib: Library, id: Id): (s: Step<()>)
    ensures s.out.Ok?
    ensures id !in s.lib.db.customers.rows
    ensures id in lib.db.customers.rows ==>
      forall r :: r in s.lib.db.records.rows <==> r in lib.db.records.rows && lib.db.records.rows[r].customer != Some(id)
    ensures s.lib.db.authors == lib.db.authors && s.lib.db.books == lib.db.books
    ensures s.lib.cache == lib.cache.(customers := map[], customer := lib.cache.customer - {id})
  {
    Step(Library(DeleteCustomerRow(lib.db, id),
                 lib.cache.(customers := map[], customer := lib.cache.customer - {id})), Ok(()))
  }

  // ---------------------------------------------------------------------------
  // Properties across calls

  /** A second list call with the same arguments answers the first call's page without
      querying, whatever has been written to the store in between. */
  lemma ListIsCachedPerArguments(lib: Library, env: Env, db: Db, page: int, size: int, sortBy: string, sortOrder: string)
    requires GetAllCustomers(lib, env, page, size, sortBy, sortOrder).out.Ok?
    ensures var s := GetAllCustomers(lib, env, page, size, sortBy, sortOrder);
      GetAllCustomers(Library(db, s.lib.cache), env, page, size, sortBy, sortOrder).out == s.out
  {
  }

  /** After a delete, the customer is gone for `getCustomerById`. */
  lemma DeleteThenGetIsEmpty(lib: Library, id: Id)
    ensures GetCustomerById(DeleteCustomer(lib, id).lib, Some(id)).out == Ok(None)
  {
  }

  /** An update answers what a later `getCustomerById` of the id answers. */
  lemma UpdateThenGet(lib: Library, id: Id, details: Customer)
    ensures var s := UpdateCustomer(lib, id, details);
      GetCustomerById(s.lib, Some(id)).out == s.out
  {
  }

  /** Create and update disagree on the password: the same details stored by create hold
      the encoded password and by update the supplied one. */
  lemma CreateAndUpdateStoreDifferentPasswords(lib: Library, env: Env, id: Id, c: Customer)
    requires id in lib.db.customers.rows && c.password.Some?
    ensures CreateCustomer(lib, env, c).out.value.val.password == Some(env.encode(c.password.value))
    ensures UpdateCustomer(lib, id, c).out.value.value.val.password == c.password
  {
  }

  /** Reading, updating and deleting keep the "customer" cache in agreement with the
      store. */
  lemma CustomerReadsAndWritesKeepCacheCoherent(lib: Library, id: Option<Id>, key: Id, c: Customer)
    requires ByIdCoherent(lib.cache.customer, lib.db.customers)
    ensures ByIdCoherent(GetCustomerById(lib, id).lib.cache.customer, lib.db.customers)
    ensures var s := UpdateCustomer(lib, key, c); ByIdCoherent(s.lib.cache.customer, s.lib.db.customers)
    ensures var s := DeleteCustomer(lib, key); ByIdCoherent(s.lib.cache.customer, s.lib.db.customers)
  {
    var u := UpdateCustomer(lib, key, c);
    ByIdCoherentAfterWrite(lib.cache.customer, lib.db.customers, u.lib.db.customers, key);
    assert u.lib.cache.customer == lib.cache.customer[key := FindStored(u.lib.db.customers, key)];
    var d := DeleteCustomer(lib, key);
    ByIdCoherentAfterWrite(lib.cache.customer, lib.db.customers, d.lib.db.customers, key);
  }
}

=== FILE: entities.dfy ===
/**
 * The four persistent entities of the library: their stored columns only.
 *
 * An entity value carries no identifier: the store keys rows by id and hands
 * out `Stored(id, val)` pairs. A resolved reference (`Book.author`,
 * `BorrowingRecord.customer`, `BorrowingRecord.book`) is the referenced row's
 * id, i.e. the join column; `None` is a null reference. The inverse
 * collections (`Author.books`, `Book.borrowingRecords`,
 * `Customer.borrowingRecords`) are mapped by those join columns and are
 * therefore derived from the store rather than held here.
 */
module Entities {
  import opened Values

  datatype Author = Author(name: NStr, birthDate: Option<Date>, nationality: NStr)

  /** `authorID` is the client-supplied scalar; `author` the resolved reference. */
  datatype Book = Book(
    title: NStr,
    isbn: NStr,
    publicationDate: Option<Date>,
    genre: NStr,
    available: bool,
    authorID: Option<Id>,
    author: Option<Id>)

  datatype Customer = Customer(name: NStr, email: NStr, address: NStr, phoneNumber: NStr, password: NStr)

  /** `customerID`/`bookID` are the client-supplied scalars; `customer`/`book` the
      resolved references. */
  datatype BorrowingRecord = BorrowingRecord(
    customer: Option<Id>,
    book: Option<Id>,
    customerID: Option<Id>,
    bookID: Option<Id>,
    borrowDate: Option<Date>,
    returnDate: Option<Date>)

  /** A row as the store returns it: the entity together with its generated id. */
  datatype Stored<E> = Stored(id: Id, val: E)

  /** A row as a list query loads it, together with its inverse collection of borrowing
      records (`Book.borrowingRecords` or `Customer.borrowingRecords`), keyed by record id. */
  datatype Listed<E> = Listed(row: Stored<E>, records: map<Id, BorrowingRecord>)

  /** The id of a possibly null entity (the reference it becomes). */
  function RefOf<E>(e: Option<Stored<E>>): (r: Option<Id>)
    ensures r.Some? <==> e.Some?
    ensures r.Some? ==> r.value == e.value.id
  {
    match e
    case None => None
    case Some(s) => Some(s.id)
  }

  /** The six-argument `Book` constructor; `author` stays null. */
  function NewBook(title: NStr, isbn: NStr, publicationDate: Option<Date>, genre: NStr,
                   available: bool, authorID: Option<Id>): Book
  {
    Book(title, isbn, publicationDate, genre, available, authorID, None)
  }

  /** The six-argument `BorrowingRecord` constructor. */
  function NewBorrowingRecord(customer: Option<Stored<Customer>>, book: Option<Stored<Book>>,
                              borrowDate: Option<Date>, returnDate: Option<Date>,
                              customerID: Option<Id>, bookID: Option<Id>): BorrowingRecord
  {
    BorrowingRecord(RefOf(customer), RefOf(book), customerID, bookID, borrowDate, returnDate)
  }
}

=== FILE: findings.dfy ===
/**
 * Four places where the services or controllers do not do what they evidently
 * mean to. For each: the input that shows the behaviour as written, and a
 * corrected definition with the intended property proved about it.
 */
module Findings {
  import opened Values
  import opened Entities
  import opened Paging
  import opened Store
  import opened Repositories
  import opened Cache
  import opened State
  import opened Web
  import opened Flatten
  import AuthorService
  import BookService
  import CustomerService
  import BookController

  /** An ordering that can only sort by "id" and ranks every row alike. */
  function ByIdOnly<E>(): (o: Ordering<E>)
    ensures "id" in o.properties
  {
    Ordering({"id"}, (p: string, e: E) => 0)
  }

  // ---------------------------------------------------------------------------
  // 1. A "not found" answer cached by `getAuthorById` outlives `createAuthor`

  /** Asking for author 1 before it exists caches the empty answer; creating the author
      then gives it id 1, and `getAuthorById(1)` keeps answering empty. */
  lemma CreateKeepsNegativeEntry(a: Author)
    ensures var lib := Library(EmptyDb(), EmptyCaches());
      var miss := AuthorService.GetAuthorById(lib, Some(1));
      var made := AuthorService.CreateAuthor(miss.lib, a);
      && miss.out == Ok(None)
      && made.out == Ok(Stored(1, a))
      && 1 in made.lib.db.authors.rows
      && AuthorService.GetAuthorById(made.lib, Some(1)).out == Ok(None)
  {
  }

  /** `createAuthor` that also puts the saved author under its id in the "author" cache. */
  function CreateAuthorCaching(lib: Library, a: Author): (s: Step<Stored<Author>>)
    ensures s.out.Ok? && s.out.value.val == a
    ensures s.lib.db == AuthorService.CreateAuthor(lib, a).lib.db
    ensures s.lib.cache == lib.cache.(authors := map[], author := lib.cache.author[s.out.value.id := Some(s.out.value)])
  {
    var s := AuthorService.CreateAuthor(lib, a);
    Step(s.lib.(cache := s.lib.cache.(author := s.lib.cache.author[s.out.value.id := Some(s.out.value)])), s.out)
  }

  /** With the put, a created author is found by id whatever the cache held before. */
  lemma CachingCreateThenGet(lib: Library, a: Author)
    ensures var s := CreateAuthorCaching(lib, a);
      AuthorService.GetAuthorById(s.lib, Some(s.out.value.id)).out == Ok(Some(s.out.value))
  {
  }

  /** With the put, creating keeps the "author" cache coherent with the store; together
      with reads, updates and deletes, coherence is an invariant. */
  lemma CachingCreateKeepsCacheCoherent(lib: Library, a: Author)
    requires ByIdCoherent(lib.cache.author, lib.db.authors)
    ensures var s := CreateAuthorCaching(lib, a); ByIdCoherent(s.lib.cache.author, s.lib.db.authors)
  {
    var s := CreateAuthorCaching(lib, a);
    var id := s.out.value.id;
    ByIdCoherentAfterWrite(lib.cache.author, lib.db.authors, s.lib.db.authors, id);
    assert FindStored(s.lib.db.authors, id) == Some(s.out.value);
  }

  // ---------------------------------------------------------------------------
  // 2. `GET /books` fails on a book without an author

  /** A book whose `authorID` names no author is saved with a null author, and the next
      `GET /books` with the default parameters fails with a null dereference. */
  lemma NullAuthorBreaksBookList(env: Env, b: Book)
    requires OrdersById(env)
    requires b.authorID.Some?
    ensures var s := BookService.CreateBook(Library(EmptyDb(), EmptyCaches()), b);
      && s.out.Ok? && s.out.value.val.author.None?
      && BookController.List(s.lib, env, None, None, None, None).response == Error500(NullPointer)
  {
    var s := BookService.CreateBook(Library(EmptyDb(), EmptyCaches()), b);
    assert s.out.Ok?;
    var p := BookService.GetAllBooks(s.lib, env, 0, 10, "id", "asc").out;
    ListedOnFirstPage(s.lib.db, env, s.out.value.id);
    var i :| 0 <= i < |p.value.content| && p.value.content[i].row.id == s.out.value.id;
    assert !FlattenBook(p.value.content[i]).Ok?;
  }

  /** In a store holding only book `id`, the first default page lists it. */
  lemma ListedOnFirstPage(db: Db, env: Env, id: Id)
    requires OrdersById(env)
    requires db.books.rows.Keys == {id}
    ensures var p := BookService.ListBooks(db, env, 0, 10, "id", "asc");
      && p.Ok?
      && exists i :: 0 <= i < |p.value.content| && p.value.content[i].row == Stored(id, db.books.rows[id])
  {
    assert !Text.IsWhitespace("id"[0]);
    var req := MakePageRequest(0, 10, "id", "asc").value;
    assert Matching(db.books.rows, All) == {id};
    FirstPageHoldsSmallResult(db.books.rows, All, env.bookOrder, req, id);
  }

  /** With the null-safe flattening the same request answers 200, and the listed book keeps
      the `authorID` it was saved with. */
  lemma NullSafeListAnswers(env: Env, b: Book)
    requires OrdersById(env)
    requires b.authorID.Some?
    ensures var s := BookService.CreateBook(Library(EmptyDb(), EmptyCaches()), b);
      var r := BookController.ListNullSafe(s.lib, env, None, None, None, None);
      && r.response.Ok200?
      && exists i :: 0 <= i < |r.response.body.content| &&
           r.response.body.content[i].row == Stored(s.out.value.id, b.(author := None))
  {
    var s := BookService.CreateBook(Library(EmptyDb(), EmptyCaches()), b);
    var p := BookService.GetAllBooks(s.lib, env, 0, 10, "id", "asc").out;
    ListedOnFirstPage(s.lib.db, env, s.out.value.id);
    var i :| 0 <= i < |p.value.content| && p.value.content[i].row.id == s.out.value.id;
    assert FlattenBookSafe(p.value.content[i]).row == Stored(s.out.value.id, b.(author := None));
  }

  // ---------------------------------------------------------------------------
  // 3. Search caches keyed by the term alone answer the wrong page

  /** Once title `t` has been searched for page 0, asking for page 1 answers the cached
      page 0. */
  lemma SearchAnswersFirstPageAgain(lib: Library, env: Env, t: string)
    requires t !in lib.cache.booksByTitle
    requires BookService.SearchBooksByTitle(lib, env, t, 0, 10, "id", "asc").out.Ok?
    ensures var first := BookService.SearchBooksByTitle(lib, env, t, 0, 10, "id", "asc");
      var second := BookService.SearchBooksByTitle(first.lib, env, t, 1, 10, "id", "asc");
      && second.out.Ok? && second.out.value.request.page == 0
  {
  }

  /** The key a search should be cached under: the term and all four paging arguments. */
  datatype SearchKey = SearchKey(term: string, page: int, size: int, sortBy: string, sortOrder: string)

  /** A repository query that answers with the page it was asked for. */
  ghost predicate AnswersRequest<E>(find: PageRequest -> Result<Page<Stored<E>>>) {
    forall req :: find(req).Ok? ==> find(req).value.request == req
  }

  /** Every cached page is the page its key asks for. */
  ghost predicate RequestsMatchKeys<E>(cache: map<SearchKey, Page<E>>) {
    forall k :: k in cache ==>
      MakePageRequest(k.page, k.size, k.sortBy, k.sortOrder).Ok? &&
      cache[k].request == MakePageRequest(k.page, k.size, k.sortBy, k.sortOrder).value
  }

  /** A search cached under all its arguments. */
  ghost function KeyedSearch<E>(cache: map<SearchKey, Page<Stored<E>>>, term: string, page: int, size: int,
                                sortBy: string, sortOrder: string, find: PageRequest -> Result<Page<Stored<E>>>): (r: (map<SearchKey, Page<Stored<E>>>, Result<Page<Stored<E>>>))
    ensures RequestsMatchKeys(cache) && AnswersRequest(find) ==>
      && RequestsMatchKeys(r.0)
      && (r.1.Ok? ==> MakePageRequest(page, size, sortBy, sortOrder).Ok? &&
                      r.1.value.request == MakePageRequest(page, size, sortBy, sortOrder).value)
  {
    ReadThrough(cache, SearchKey(term, page, size, sortBy, sortOrder), RunSearch(page, size, sortBy, sortOrder, find))
  }

  /** The three book searches answer the page they are asked for. */
  lemma BookSearchesAnswerRequest(db: Db, ord: Ordering<Book>, term: string)
    ensures AnswersRequest(req => FindByTitle(db, ord, term, req))
    ensures AnswersRequest(req => FindByAuthorName(db, ord, term, req))
    ensures AnswersRequest(req => FindByIsbn(db, ord, term, req))
  {
  }

  /** With the keyed cache, the second request of the example above answers page 1. */
  lemma KeyedSearchAnswersRequestedPage(db: Db, env: Env, t: string)
    requires OrdersById(env)
    ensures var find := req => FindByTitle(db, env.bookOrder, t, req);
      var first := KeyedSearch(map[], t, 0, 10, "id", "asc", find);
      var second := KeyedSearch(first.0, t, 1, 10, "id", "asc", find);
      && second.1.Ok? && second.1.value.request.page == 1
  {
    var find := req => FindByTitle(db, env.bookOrder, t, req);
    BookSearchesAnswerRequest(db, env.bookOrder, t);
    assert !Text.IsWhitespace("id"[0]);
    var first := KeyedSearch(map[], t, 0, 10, "id", "asc", find);
    assert RequestsMatchKeys(first.0);
  }

  // ---------------------------------------------------------------------------
  // 4. `updateCustomer` stores the password unencoded

  /** `p` is something the encoder produces. */
  ghost predicate IsEncoded(encode: string -> string, p: NStr) {
    p.Some? && exists q :: encode(q) == p.value
  }

  /** Every stored password came out of the encoder. */
  ghost predicate PasswordsEncoded(db: Db, encode: string -> string) {
    forall id :: id in db.customers.rows ==> IsEncoded(encode, db.customers.rows[id].password)
  }

  /** An update whose password the encoder cannot produce leaves a stored password that
      did not come out of the encoder. */
  lemma UpdateStoresPlainPassword(lib: Library, id: Id, details: Customer, encode: string -> string)
    requires id in lib.db.customers.rows
    requires !IsEncoded(encode, details.password)
    ensures !PasswordsEncoded(CustomerService.UpdateCustomer(lib, id, details).lib.db, encode)
  {
    var s := CustomerService.UpdateCustomer(lib, id, details);
    assert s.lib.db.customers.rows[id].password == details.password;
  }

  /** Concretely: with an encoder that always answers a hash, a customer created with
      "secret" and updated with "secret" holds "secret" in the store. */
  lemma PlainPasswordExample(c: Customer)
    ensures var hash := "$2a$10$h";
      var env := Env((p: string) => hash, ByIdOnly(), ByIdOnly(), ByIdOnly(), ByIdOnly());
      var made := CustomerService.CreateCustomer(Library(EmptyDb(), EmptyCaches()), env, c.(password := Some("secret")));
      var upd := CustomerService.UpdateCustomer(made.lib, made.out.value.id, c.(password := Some("secret")));
      && PasswordsEncoded(made.lib.db, env.encode)
      && upd.lib.db.customers.rows[made.out.value.id].password == Some("secret")
      && !PasswordsEncoded(upd.lib.db, env.encode)
  {
    var hash := "$2a$10$h";
    var env := Env((p: string) => hash, ByIdOnly(), ByIdOnly(), ByIdOnly(), ByIdOnly());
    var made := CustomerService.CreateCustomer(Library(EmptyDb(), EmptyCaches()), env, c.(password := Some("secret")));
    assert env.encode("secret") == hash;
    assert "secret" != hash by { assert "secret"[0] != hash[0]; }
    UpdateStoresPlainPassword(made.lib, made.out.value.id, c.(password := Some("secret")), env.encode);
  }

  /** `updateCustomer` storing the encoder's output, as `createCustomer` does: on an
      existing id a null password makes the encoder throw, and then nothing changes. */
  function UpdateCustomerEncoding(lib: Library, env: Env, id: Id, details: Customer): (s: Step<Option<Stored<Customer>>>)
    ensures s.out.Err? <==> id in lib.db.customers.rows && details.password.None?
    ensures s.out.Err? ==> s == Step(lib, Err(IllegalArgument))
    ensures id !in lib.db.customers.rows ==> s.out == Ok(None) && s.lib.db == lib.db
    ensures id in lib.db.customers.rows && details.password.Some? ==>
      var stored := details.(password := Some(env.encode(details.password.value)));
      && s.out == Ok(Some(Stored(id, stored)))
      && s.lib.db.customers.rows == lib.db.customers.rows[id := stored]
      && s.lib.db == lib.db.(customers := s.lib.db.customers)
    ensures s.out.Ok? ==> s.lib.cache == lib.cache.(customers := map[], customer := lib.cache.customer[id := s.out.value])
  {
    if id !in lib.db.customers.rows then CustomerService.UpdateCustomer(lib, id, details)
    else if details.password.None? then Step(lib, Err(IllegalArgument))
    else CustomerService.UpdateCustomer(lib, id, details.(password := Some(env.encode(details.password.value))))
  }

  /** With the encoding update, every customer write keeps every stored password an
      encoder output. */
  lemma CustomerWritesKeepPasswordsEncoded(lib: Library, env: Env, c: Customer, id: Id, details: Customer)
    requires PasswordsEncoded(lib.db, env.encode)
    ensures PasswordsEncoded(CustomerService.CreateCustomer(lib, env, c).lib.db, env.encode)
    ensures PasswordsEncoded(UpdateCustomerEncoding(lib, env, id, details).lib.db, env.encode)
    ensures PasswordsEncoded(CustomerService.DeleteCustomer(lib, id).lib.db, env.encode)
  {
    var made := CustomerService.CreateCustomer(lib, env, c);
    if c.password.Some? {
      forall k | k in made.lib.db.customers.rows
        ensures IsEncoded(env.encode, made.lib.db.customers.rows[k].password)
      {
        if k == made.out.value.id {
          assert env.encode(c.password.value) == made.lib.db.customers.rows[k].password.value;
        } else {
          assert made.lib.db.customers.rows[k] == lib.db.customers.rows[k];
        }
      }
    }
    var upd := UpdateCustomerEncoding(lib, env, id, details);
    if id in lib.db.customers.rows && details.password.Some? {
      forall k | k in upd.lib.db.customers.rows
        ensures IsEncoded(env.encode, upd.lib.db.customers.rows[k].password)
      {
        if k == id {
          assert env.encode(details.password.value) == upd.lib.db.customers.rows[k].password.value;
        } else {
          assert upd.lib.db.customers.rows[k] == lib.db.customers.rows[k];
        }
      }
    }
  }
}

=== FILE: flatten.dfy ===
/**
 * The read-path flattening the list handlers apply before answering: each
 * resolved reference's id is copied onto its scalar column (`authorID`,
 * `customerID`, `bookID`). The handlers call `getId()` on the reference without
 * a null check, so a null reference throws and the whole request fails.
 *
 * The copy is made in place on the objects the list cache holds; since it is
 * idempotent (proved below), a later hit that flattens again answers the same,
 * so the model flattens the answer and leaves the cached page as it was.
 */
module Flatten {
  import opened Values
  import opened Entities
  import opened Paging

  /** A record whose scalar ids name the rows its references resolve to. */
  predicate IdsAgree(r: BorrowingRecord) {
    r.customerID == r.customer && r.bookID == r.book
  }

  /** `record.setCustomerID(record.getCustomer().getId()); record.setBookID(record.getBook().getId())`. */
  function FlattenRecord(r: BorrowingRecord): (o: Result<BorrowingRecord>)
    ensures o.Ok? <==> r.customer.Some? && r.book.Some?
    ensures o.Err? ==> o.fault == NullPointer
    ensures o.Ok? ==> IdsAgree(o.value) && o.value.(customerID := r.customerID, bookID := r.bookID) == r
  {
    if r.customer.None? || r.book.None? then Err(NullPointer)
    else Ok(r.(customerID := r.customer, bookID := r.book))
  }

  /** A record of a listed page, with its id. */
  function FlattenStored(s: Stored<BorrowingRecord>): (o: Result<Stored<BorrowingRecord>>)
    ensures o.Ok? <==> FlattenRecord(s.val).Ok?
    ensures o.Err? ==> o.fault == NullPointer
    ensures o.Ok? ==> o.value == Stored(s.id, FlattenRecord(s.val).value)
  {
    match FlattenRecord(s.val)
    case Err(f) => Err(f)
    case Ok(r) => Ok(Stored(s.id, r))
  }

  /** The nested `borrowingRecords.forEach(...)`: every record is flattened, or the loop
      throws at a record with a null reference. */
  function FlattenRecords(m: map<Id, BorrowingRecord>): (o: Result<map<Id, BorrowingRecord>>)
    ensures o.Ok? <==> forall k :: k in m ==> m[k].customer.Some? && m[k].book.Some?
    ensures o.Err? ==> o.fault == NullPointer
    ensures o.Ok? ==> o.value.Keys == m.Keys
    ensures o.Ok? ==> forall k :: k in m ==>
      IdsAgree(o.value[k]) && o.value[k].(customerID := m[k].customerID, bookID := m[k].bookID) == m[k]
  {
    if forall k :: k in m ==> FlattenRecord(m[k]).Ok? then
      Ok(map k | k in m :: FlattenRecord(m[k]).value)
    else Err(NullPointer)
  }

  /** A listed book: `authorID := author.getId()`, then its records. */
  function FlattenBook(l: Listed<Book>): (o: Result<Listed<Book>>)
    ensures o.Ok? <==> l.row.val.author.Some? && FlattenRecords(l.records).Ok?
    ensures o.Err? ==> o.fault == NullPointer
    ensures o.Ok? ==>
      && o.value.row == Stored(l.row.id, l.row.val.(authorID := l.row.val.author))
      && o.value.records == FlattenRecords(l.records).value
  {
    if l.row.val.author.None? then Err(NullPointer)
    else
      match FlattenRecords(l.records)
      case Err(f) => Err(f)
      case Ok(rs) => Ok(Listed(Stored(l.row.id, l.row.val.(authorID := l.row.val.author)), rs))
  }

  /** A listed customer: only its records are flattened; the customer is unchanged. */
  function FlattenCustomer(l: Listed<Customer>): (o: Result<Listed<Customer>>)
    ensures o.Ok? <==> FlattenRecords(l.records).Ok?
    ensures o.Err? ==> o.fault == NullPointer
    ensures o.Ok? ==> o.value.row == l.row && o.value.records == FlattenRecords(l.records).value
  {
    match FlattenRecords(l.records)
    case Err(f) => Err(f)
    case Ok(rs) => Ok(Listed(l.row, rs))
  }

  /** `content.forEach(f)` in page order: the first element `f` fails on stops the loop
      with its fault; otherwise every element is replaced by its flattened form. */
  function FlattenAll<T>(s: seq<T>, f: T -> Result<T>): (o: Result<seq<T>>)
    ensures o.Ok? <==> forall i :: 0 <= i < |s| ==> f(s[i]).Ok?
    ensures o.Ok? ==> |o.value| == |s| && forall i :: 0 <= i < |s| ==> o.value[i] == f(s[i]).value
    ensures o.Err? ==> exists i :: 0 <= i < |s| && f(s[i]).Err? && o.fault == f(s[i]).fault &&
                                   forall j :: 0 <= j < i ==> f(s[j]).Ok?
  {
    if s == [] then Ok([])
    else
      match f(s[0])
      case Err(e) => Err(e)
      case Ok(x) =>
        match FlattenAll(s[1..], f)
        case Err(e) =>
          assert forall j :: 1 <= j < |s| ==> s[j] == s[1..][j - 1];
          Err(e)
        case Ok(rest) => Ok([x] + rest)
  }

  /** A page with its content flattened. */
  function FlattenPage<T>(p: Page<T>, f: T -> Result<T>): (o: Result<Page<T>>)
    ensures o.Ok? <==> forall i :: 0 <= i < |p.content| ==> f(p.content[i]).Ok?
    ensures o.Ok? ==> o.value.request == p.request && o.value.totalElements == p.totalElements
    ensures o.Ok? ==> |o.value.content| == |p.content|
    ensures o.Ok? ==> forall i :: 0 <= i < |p.content| ==> o.value.content[i] == f(p.content[i]).value
  {
    match FlattenAll(p.content, f)
    case Err(e) => Err(e)
    case Ok(c) => Ok(p.(content := c))
  }

  // ---------------------------------------------------------------------------
  // Flattening twice answers what flattening once does

  lemma FlattenRecordIdempotent(r: BorrowingRecord)
    ensures FlattenRecord(r).Ok? ==> FlattenRecord(FlattenRecord(r).value) == FlattenRecord(r)
  {
  }

  lemma FlattenRecordsIdempotent(m: map<Id, BorrowingRecord>)
    ensures FlattenRecords(m).Ok? ==> FlattenRecords(FlattenRecords(m).value) == FlattenRecords(m)
  {
    if FlattenRecords(m).Ok? {
      var once := FlattenRecords(m).value;
      forall k | k in once
        ensures FlattenRecord(once[k]).Ok? && FlattenRecord(once[k]).value == once[k]
      {
        FlattenRecordIdempotent(m[k]);
      }
      assert FlattenRecords(once).value == once;
    }
  }

  lemma FlattenBookIdempotent(l: Listed<Book>)
    ensures FlattenBook(l).Ok? ==> FlattenBook(FlattenBook(l).value) == FlattenBook(l)
  {
    if FlattenBook(l).Ok? {
      FlattenRecordsIdempotent(l.records);
    }
  }

  lemma FlattenCustomerIdempotent(l: Listed<Customer>)
    ensures FlattenCustomer(l).Ok? ==> FlattenCustomer(FlattenCustomer(l).value) == FlattenCustomer(l)
  {
    if FlattenCustomer(l).Ok? {
      FlattenRecordsIdempotent(l.records);
    }
  }

  /** An idempotent per-element flattening gives an idempotent page flattening. */
  lemma FlattenPageIdempotent<T>(p: Page<T>, f: T -> Result<T>)
    requires forall x :: f(x).Ok? ==> f(f(x).value) == f(x)
    ensures FlattenPage(p, f).Ok? ==> FlattenPage(FlattenPage(p, f).value, f) == FlattenPage(p, f)
  {
    if FlattenPage(p, f).Ok? {
      var q := FlattenPage(p, f).value;
      assert forall i :: 0 <= i < |q.content| ==> f(q.content[i]) == f(p.content[i]);
      assert FlattenPage(q, f).value.content == q.content;
    }
  }

  // ---------------------------------------------------------------------------
  // Null-safe flattening

  /** The copy with a null check: a null reference leaves its scalar as it was. */
  function FlattenRecordSafe(r: BorrowingRecord): (o: BorrowingRecord)
    ensures o.customer == r.customer && o.book == r.book
    ensures o.customerID == (if r.customer.Some? then r.customer else r.customerID)
    ensures o.bookID == (if r.book.Some? then r.book else r.bookID)
    ensures o.borrowDate == r.borrowDate && o.returnDate == r.returnDate
  {
    r.(customerID := if r.customer.Some? then r.customer else r.customerID,
       bookID := if r.book.Some? then r.book else r.bookID)
  }

  function FlattenRecordsSafe(m: map<Id, BorrowingRecord>): (o: map<Id, BorrowingRecord>)
    ensures o.Keys == m.Keys
    ensures forall k :: k in m ==> o[k] == FlattenRecordSafe(m[k])
  {
    map k | k in m :: FlattenRecordSafe(m[k])
  }

  /** A listed book flattened with null checks; it never fails. */
  function FlattenBookSafe(l: Listed<Book>): (o: Listed<Book>)
    ensures o.row.id == l.row.id
    ensures o.row.val.author == l.row.val.author
    ensures o.row.val.authorID == (if l.row.val.author.Some? then l.row.val.author else l.row.val.authorID)
    ensures o.row.val.(authorID := l.row.val.authorID) == l.row.val
    ensures o.records == FlattenRecordsSafe(l.records)
  {
    Listed(Stored(l.row.id, l.row.val.(authorID := if l.row.val.author.Some? then l.row.val.author else l.row.val.authorID)),
           FlattenRecordsSafe(l.records))
  }

  /** Wherever the unchecked flattening succeeds the null-safe one answers the same, and
      the null-safe one is idempotent. */
  lemma FlattenBookSafeAgrees(l: Listed<Book>)
    ensures FlattenBook(l).Ok? ==> FlattenBook(l).value == FlattenBookSafe(l)
    ensures FlattenBookSafe(FlattenBookSafe(l)) == FlattenBookSafe(l)
  {
    if FlattenBook(l).Ok? {
      var m := l.records;
      assert forall k :: k in m ==> FlattenRecords(m).value[k] == FlattenRecordSafe(m[k]);
      assert FlattenRecords(m).value == FlattenRecordsSafe(m);
    }
    var once := FlattenBookSafe(l);
    assert FlattenRecordsSafe(once.records) == once.records;
  }
}

=== FILE: paging.dfy ===
/**
 * Turning `(page, size, sortBy, sortOrder)` into a page request, and running a
 * paged, sorted query over one table.
 *
 * `Sort.by(direction, sortBy)` and `PageRequest.of(page, size, sort)` reject a
 * property without text, a negative page and a size below one. The database's
 * ordering of a named column is not modelled; an `Ordering` supplies the set of
 * sortable property names and a rank per row. Rows of equal rank are ordered by
 * id, and a descending query returns the ascending order reversed. The id
 * tie-break is a modelling choice: the source sorts by the named property alone,
 * and the database leaves the order of equal ranks unspecified.
 */
module Paging {
  import opened Values
  import opened Text
  import opened Entities

  // ---------------------------------------------------------------------------
  // Sort direction and page requests

  datatype Direction = Asc | Desc

  /** Every string `equalsIgnoreCase("asc")` accepts (ASCII case mapping): each of the
      three letters in either case. */
  function AscSpellings(): set<string> {
    set a, b, c | a in {'a', 'A'} && b in {'s', 'S'} && c in {'c', 'C'} :: [a, b, c]
  }

  lemma AscSpellingsExact(s: string)
    ensures (|s| == 3 && LowerAll(s) == "asc") <==> s in AscSpellings()
  {
    if |s| == 3 && LowerAll(s) == "asc" {
      LowerIsAsc(s);
    }
    forall a, b, c | a in {'a', 'A'} && b in {'s', 'S'} && c in {'c', 'C'}
      ensures LowerAll([a, b, c]) == "asc"
    {
      AscSpellingLowers(a, b, c);
    }
  }

  /** Helper for `AscSpellingsExact`: the characters ASCII lower-casing maps to a lower-case
      letter are that letter and its upper case. */
  lemma LowerIsLetter(c: char, l: char)
    requires 'a' <= l <= 'z'
    ensures Lower(c) == l <==> c == l || c as int == l as int - 32
  {
  }

  /** Helper for `AscSpellingsExact`, from left to right. */
  lemma LowerIsAsc(s: string)
    requires |s| == 3 && LowerAll(s) == "asc"
    ensures s in AscSpellings()
  {
    assert Lower(s[0]) == 'a' && Lower(s[1]) == 's' && Lower(s[2]) == 'c';
    LowerIsLetter(s[0], 'a');
    LowerIsLetter(s[1], 's');
    LowerIsLetter(s[2], 'c');
    assert s[0] in {'a', 'A'} && s[1] in {'s', 'S'} && s[2] in {'c', 'C'};
    assert s == [s[0], s[1], s[2]];
  }

  /** Helper for `AscSpellingsExact`, from right to left. */
  lemma AscSpellingLowers(a: char, b: char, c: char)
    requires a in {'a', 'A'} && b in {'s', 'S'} && c in {'c', 'C'}
    ensures LowerAll([a, b, c]) == "asc"
  {
    var l := LowerAll([a, b, c]);
    assert l[0] == Lower(a) == 'a';
    assert l[1] == Lower(b) == 's';
    assert l[2] == Lower(c) == 'c';
    assert l == "asc";
  }

  /** The direction of a `sortOrder` parameter: ascending exactly for the eight spellings
      of "asc", descending for everything else, the empty string and "desc" included. */
  function ParseDirection(sortOrder: string): (d: Direction)
    ensures d == Asc <==> sortOrder in AscSpellings()
  {
    AscSpellingsExact(sortOrder);
    if EqualsIgnoreCase(sortOrder, "asc") then Asc else Desc
  }

  datatype Sort = Sort(direction: Direction, property: string)

  datatype PageRequest = PageRequest(page: nat, size: nat, sort: Sort)

  /** `PageRequest.of(page, size, Sort.by(direction, sortBy))`. */
  function MakePageRequest(page: int, size: int, sortBy: string, sortOrder: string): (r: Result<PageRequest>)
    ensures r.Ok? <==> page >= 0 && size >= 1 && HasText(sortBy)
    ensures r.Err? ==> r.fault == IllegalArgument
    ensures r.Ok? ==>
      && r.value.page == page && r.value.size == size
      && r.value.sort.property == sortBy
      && (r.value.sort.direction == Asc <==> sortOrder in AscSpellings())
  {
    if !HasText(sortBy) then Err(IllegalArgument)
    else if page < 0 || size < 1 then Err(IllegalArgument)
    else Ok(PageRequest(page, size, Sort(ParseDirection(sortOrder), sortBy)))
  }

  /** The request the service tests expect for page 0 of 10 by name, ascending, and the
      one the endpoints build from their defaults. */
  lemma PageRequestExamples()
    ensures MakePageRequest(0, 10, "name", "asc") == Ok(PageRequest(0, 10, Sort(Asc, "name")))
    ensures MakePageRequest(0, 10, "id", "asc") == Ok(PageRequest(0, 10, Sort(Asc, "id")))
    ensures MakePageRequest(0, 10, "id", "DESC") == Ok(PageRequest(0, 10, Sort(Desc, "id")))
    ensures MakePageRequest(0, 10, "id", "").value.sort.direction == Desc
    ensures MakePageRequest(-1, 10, "id", "asc").Err?
    ensures MakePageRequest(0, 0, "id", "asc").Err?
    ensures MakePageRequest(0, 10, " ", "asc").Err?
  {
    assert !IsWhitespace("name"[0]) && !IsWhitespace("id"[0]);
    assert "asc" == ['a', 's', 'c'] && "asc" in AscSpellings();
    assert IsWhitespace(" "[0]);
  }

  // ---------------------------------------------------------------------------
  // Ordering rows

  /** The database's ordering of a table: which properties it can sort by, and the rank
      of a row under each of them. */
  datatype Ordering<!E> = Ordering(properties: set<string>, rank: (string, E) -> int)

  /** The rank of every id under one property (ids without a row rank 0; they never occur). */
  function KeyOf<E>(rows: map<Id, E>, ord: Ordering<E>, property: string): Id -> int {
    id => if id in rows then ord.rank(property, rows[id]) else 0
  }

  /** The strict ascending order: by rank, then by id (the id tie-break is the model's choice). */
  predicate Precedes(key: Id -> int, a: Id, b: Id) {
    key(a) < key(b) || (key(a) == key(b) && a < b)
  }

  predicate InOrder(key: Id -> int, d: Direction, a: Id, b: Id) {
    if d == Asc then Precedes(key, a, b) else Precedes(key, b, a)
  }

  ghost predicate IsLeast(key: Id -> int, s: set<Id>, x: Id) {
    x in s && forall y :: y in s && y != x ==> Precedes(key, x, y)
  }

  /** Helper for `Least`: a non-empty set has a least element. */
  lemma {:induction false} LeastExists(key: Id -> int, s: set<Id>)
    requires s != {}
    ensures exists x :: IsLeast(key, s, x)
    decreases |s|
  {
    NonEmptyHasElement(s);
    var z :| z in s;
    var rest := s - {z};
    if rest == {} {
      assert forall y :: y in s ==> y == z by {
        forall y | y in s ensures y == z {
          assert y in rest || y == z;
        }
      }
      assert IsLeast(key, s, z);
    } else {
      LeastExists(key, rest);
      var m :| IsLeast(key, rest, m);
      if Precedes(key, z, m) {
        forall y | y in s && y != z
          ensures Precedes(key, z, y)
        {
          if y != m {
            assert y in rest;
            assert Precedes(key, m, y);
          }
        }
        assert IsLeast(key, s, z);
      } else {
        assert IsLeast(key, s, m);
      }
    }
  }

  lemma NonEmptyHasElement(s: set<Id>)
    requires s != {}
    ensures exists z :: z in s
  {
    if forall z :: z !in s {
      assert false;
    }
  }

  ghost function Least(key: Id -> int, s: set<Id>): (x: Id)
    requires s != {}
    ensures IsLeast(key, s, x)
  {
    LeastExists(key, s);
    var x :| IsLeast(key, s, x); x
  }

  ghost predicate Ascending(key: Id -> int, s: seq<Id>) {
    forall i, j :: 0 <= i < j < |s| ==> Precedes(key, s[i], s[j])
  }

  /** The ids of `s` in ascending order. */
  ghost function SortAsc(key: Id -> int, s: set<Id>): (r: seq<Id>)
    ensures |r| == |s|
    ensures forall x :: x in r <==> x in s
    ensures Ascending(key, r)
    decreases |s|
  {
    if s == {} then []
    else
      var x := Least(key, s);
      [x] + SortAsc(key, s - {x})
  }

  function Reverse<T>(s: seq<T>): (r: seq<T>)
    ensures |r| == |s|
    ensures forall i :: 0 <= i < |s| ==> r[i] == s[|s| - 1 - i]
  {
    if s == [] then [] else Reverse(s[1..]) + [s[0]]
  }

  /** The ids of `s` in the requested direction. */
  ghost function SortIds(key: Id -> int, d: Direction, s: set<Id>): (r: seq<Id>)
    ensures |r| == |s|
    ensures forall x :: x in r <==> x in s
    ensures forall i, j :: 0 <= i < j < |r| ==> InOrder(key, d, r[i], r[j])
  {
    var up := SortAsc(key, s);
    if d == Asc then up
    else
      var r := Reverse(up);
      assert forall x :: x in r <==> x in up by {
        forall x | x in up ensures x in r {
          var i :| 0 <= i < |up| && up[i] == x;
          assert r[|up| - 1 - i] == x;
        }
      }
      r
  }

  function Min(a: int, b: int): int {
    if a <= b then a else b
  }

  /** The slice of `s` that page `page` of `size` elements covers. */
  function Window<T>(s: seq<T>, page: nat, size: nat): (w: seq<T>)
    ensures |w| <= size
  {
    var lo := Min(page * size, |s|);
    var hi := Min(lo + size, |s|);
    s[lo..hi]
  }

  /** An element is on the page exactly when its index falls in `[page * size, page * size + size)`. */
  lemma WindowIndex<T>(s: seq<T>, page: nat, size: nat)
    ensures var lo := page * size;
      && (forall k :: 0 <= k < |Window(s, page, size)| ==>
            lo + k < |s| && Window(s, page, size)[k] == s[lo + k])
      && (forall i :: 0 <= i < |s| && lo <= i < lo + size ==>
            i - lo < |Window(s, page, size)| && Window(s, page, size)[i - lo] == s[i])
  {
    var lo := page * size;
    var w := Window(s, page, size);
    if lo < |s| {
      var hi := Min(lo + size, |s|);
      assert w == s[lo..hi];
    } else {
      assert w == [];
    }
  }

  // ---------------------------------------------------------------------------
  // Paged queries

  /** One page of a result: its elements, the request it answers, and the size of the
      whole result. */
  datatype Page<T> = Page(content: seq<T>, request: PageRequest, totalElements: nat)

  /** The same page with every element transformed. */
  function MapPage<T, U>(p: Page<T>, f: T -> U): (r: Page<U>)
    ensures |r.content| == |p.content|
    ensures forall i :: 0 <= i < |p.content| ==> r.content[i] == f(p.content[i])
    ensures r.request == p.request && r.totalElements == p.totalElements
  {
    Page(seq(|p.content|, i requires 0 <= i < |p.content| => f(p.content[i])), p.request, p.totalElements)
  }

  /** The ids of the rows `keep` selects. */
  ghost function Matching<E>(rows: map<Id, E>, keep: E -> bool): set<Id> {
    set id | id in rows && keep(rows[id])
  }

  function Materialize<E>(rows: map<Id, E>, ids: seq<Id>): (r: seq<Stored<E>>)
    requires forall i :: 0 <= i < |ids| ==> ids[i] in rows
    ensures |r| == |ids|
    ensures forall i :: 0 <= i < |ids| ==> r[i] == Stored(ids[i], rows[ids[i]])
  {
    if ids == [] then [] else [Stored(ids[0], rows[ids[0]])] + Materialize(rows, ids[1..])
  }

  /** The ids of a page's rows, in page order. */
  function ContentIds<E>(c: seq<Stored<E>>): (r: seq<Id>)
    ensures |r| == |c|
    ensures forall i :: 0 <= i < |c| ==> r[i] == c[i].id
  {
    seq(|c|, i requires 0 <= i < |c| => c[i].id)
  }

  /** Position `p` of the whole result falls on page `page` of `size` elements. */
  predicate InWindow(page: int, size: int, p: int) {
    page * size <= p < page * size + size
  }

  /** The ids the page request selects, in page order. */
  ghost function PageIds<E>(rows: map<Id, E>, keep: E -> bool, ord: Ordering<E>, req: PageRequest): seq<Id> {
    var key := KeyOf(rows, ord, req.sort.property);
    Window(SortIds(key, req.sort.direction, Matching(rows, keep)), req.page, req.size)
  }

  /** A window keeps only elements of the listing, in the listing's order. */
  lemma WindowKeepsOrder(key: Id -> int, d: Direction, all: seq<Id>, page: nat, size: nat)
    requires forall i, j :: 0 <= i < j < |all| ==> InOrder(key, d, all[i], all[j])
    ensures forall k :: 0 <= k < |Window(all, page, size)| ==> Window(all, page, size)[k] in all
    ensures forall i, j :: 0 <= i < j < |Window(all, page, size)| ==>
      InOrder(key, d, Window(all, page, size)[i], Window(all, page, size)[j])
  {
    WindowIndex(all, page, size);
    var w := Window(all, page, size);
    var lo := page * size;
    forall i, j | 0 <= i < j < |w|
      ensures InOrder(key, d, w[i], w[j])
    {
      assert w[i] == all[lo + i] && w[j] == all[lo + j];
    }
  }

  /** The selected ids, sorted, windowed: each is a selected row, at most `size` of them,
      in the requested order. */
  lemma PageIdsFacts<E>(rows: map<Id, E>, keep: E -> bool, ord: Ordering<E>, req: PageRequest)
    ensures var ids := PageIds(rows, keep, ord, req);
      && |ids| <= req.size
      && (forall i :: 0 <= i < |ids| ==> ids[i] in rows && keep(rows[ids[i]]))
      && (forall i, j :: 0 <= i < j < |ids| ==>
            InOrder(KeyOf(rows, ord, req.sort.property), req.sort.direction, ids[i], ids[j]))
  {
    var key := KeyOf(rows, ord, req.sort.property);
    var m := Matching(rows, keep);
    var all := SortIds(key, req.sort.direction, m);
    WindowKeepsOrder(key, req.sort.direction, all, req.page, req.size);
    var ids := PageIds(rows, keep, ord, req);
    assert ids == Window(all, req.page, req.size);
    forall i | 0 <= i < |ids|
      ensures ids[i] in rows && keep(rows[ids[i]])
    {
      assert ids[i] in m;
    }
  }

  /** A paged query: the rows `keep` selects, sorted by the requested property and
      direction, cut to the requested page. An unknown property is an error, and so is a
      page whose first row, `page * size`, lies beyond the largest `int`: the query's first
      result is an `int`. */
  ghost function Query<E>(rows: map<Id, E>, keep: E -> bool, ord: Ordering<E>, req: PageRequest): (r: Result<Page<Stored<E>>>)
    ensures r.Ok? <==> req.sort.property in ord.properties && req.page * req.size <= MaxInt32
    ensures r.Err? ==> r.fault == (if req.sort.property !in ord.properties then UnknownProperty else OffsetTooLarge)
    ensures r.Ok? ==>
      && r.value.request == req
      && |r.value.content| <= req.size
      && r.value.totalElements == |Matching(rows, keep)|
    ensures r.Ok? ==> forall i :: 0 <= i < |r.value.content| ==>
      var e := r.value.content[i]; e.id in rows && rows[e.id] == e.val && keep(e.val)
    ensures r.Ok? ==> forall i, j :: 0 <= i < j < |r.value.content| ==>
      InOrder(KeyOf(rows, ord, req.sort.property), req.sort.direction,
              r.value.content[i].id, r.value.content[j].id)
    ensures r.Ok? ==> forall x :: x in ContentIds(r.value.content) <==>
      && x in Matching(rows, keep)
      && InWindow(req.page, req.size,
                  Position(KeyOf(rows, ord, req.sort.property), req.sort.direction, Matching(rows, keep), x))
  {
    if req.sort.property !in ord.properties then Err(UnknownProperty)
    else if req.page * req.size > MaxInt32 then Err(OffsetTooLarge)
    else
      PageIdsFacts(rows, keep, ord, req);
      var ids := PageIds(rows, keep, ord, req);
      var content := Materialize(rows, ids);
      assert ContentIds(content) == ids;
      assert forall x :: x in ids <==>
        && x in Matching(rows, keep)
        && InWindow(req.page, req.size,
                    Position(KeyOf(rows, ord, req.sort.property), req.sort.direction, Matching(rows, keep), x))
      by {
        forall x
          ensures x in ids <==>
            && x in Matching(rows, keep)
            && InWindow(req.page, req.size,
                        Position(KeyOf(rows, ord, req.sort.property), req.sort.direction, Matching(rows, keep), x))
        {
          OnPageIffPositionInWindow(rows, keep, ord, req, x);
        }
      }
      Ok(Page(content, req, |Matching(rows, keep)|))
  }

  /** An ordering that sorts by "id" as the entity's `@Id` does: "id" is a sortable property
      and ranks every row alike, so the id tie-break alone decides. */
  ghost predicate SortsById<E(!new)>(ord: Ordering<E>) {
    && "id" in ord.properties
    && forall e: E, f: E :: ord.rank("id", e) == ord.rank("id", f)
  }

  // ---------------------------------------------------------------------------
  // Which page a row lands on

  /** How many of `s` come before `x` in ascending order. */
  ghost function RankIn(key: Id -> int, s: set<Id>, x: Id): nat {
    |set y | y in s && Precedes(key, y, x)|
  }

  /** The index of `x` among `s` in direction `d`. */
  ghost function Position(key: Id -> int, d: Direction, s: set<Id>, x: Id): int {
    if d == Asc then RankIn(key, s, x) else |s| - 1 - RankIn(key, s, x)
  }

  /** Helper for the rank computation: a sequence without repeats has as many elements as
      its set. */
  lemma {:induction false} DistinctCard(s: seq<Id>)
    requires forall i, j :: 0 <= i < j < |s| ==> s[i] != s[j]
    ensures |set x | x in s| == |s|
  {
    if s != [] {
      var t := s[1..];
      DistinctCard(t);
      assert (set x | x in s) == (set x | x in t) + {s[0]};
      assert s[0] !in (set x | x in t);
    }
  }

  /** In an ascending listing of `s`, the element at index `i` has exactly `i` predecessors. */
  lemma AscendingIndexIsRank(key: Id -> int, up: seq<Id>, s: set<Id>, i: int)
    requires Ascending(key, up)
    requires forall x :: x in up <==> x in s
    requires 0 <= i < |up|
    ensures RankIn(key, s, up[i]) == i
  {
    var x := up[i];
    var before := up[..i];
    assert (set y | y in s && Precedes(key, y, x)) == (set y | y in before) by {
      forall y | y in s && Precedes(key, y, x) ensures y in before {
        var j :| 0 <= j < |up| && up[j] == y;
        if j >= i {
          assert false;
        }
        assert before[j] == y;
      }
      forall y | y in before ensures y in s && Precedes(key, y, x) {
        var j :| 0 <= j < i && before[j] == y;
        assert up[j] == y;
      }
    }
    assert forall a, b :: 0 <= a < b < |before| ==> before[a] != before[b] by {
      forall a, b | 0 <= a < b < |before| ensures before[a] != before[b] {
        assert Precedes(key, up[a], up[b]);
      }
    }
    DistinctCard(before);
  }

  /** In the sorted listing of `s`, every element's index is its position. */
  lemma IndexIsPosition(key: Id -> int, d: Direction, s: set<Id>, i: int)
    requires 0 <= i < |s|
    ensures Position(key, d, s, SortIds(key, d, s)[i]) == i
  {
    var up := SortAsc(key, s);
    var all := SortIds(key, d, s);
    if d == Asc {
      assert all == up;
      AscendingIndexIsRank(key, up, s, i);
    } else {
      var j := |up| - 1 - i;
      assert all == Reverse(up);
      assert all[i] == up[j];
      AscendingIndexIsRank(key, up, s, j);
    }
  }

  /** A row is on a page exactly when it is selected and its position in the requested
      order falls inside the page's window: the pages partition the result. */
  lemma OnPageIffPositionInWindow<E>(rows: map<Id, E>, keep: E -> bool, ord: Ordering<E>,
                                     req: PageRequest, x: Id)
    ensures var key := KeyOf(rows, ord, req.sort.property);
            var m := Matching(rows, keep);
            var p := Position(key, req.sort.direction, m, x);
            x in PageIds(rows, keep, ord, req) <==>
              x in m && req.page * req.size <= p < req.page * req.size + req.size
  {
    var key := KeyOf(rows, ord, req.sort.property);
    var d := req.sort.direction;
    var m := Matching(rows, keep);
    var all := SortIds(key, d, m);
    var w := PageIds(rows, keep, ord, req);
    var lo := req.page * req.size;
    WindowIndex(all, req.page, req.size);
    if x in w {
      var k :| 0 <= k < |w| && w[k] == x;
      IndexIsPosition(key, d, m, lo + k);
    }
    if x in m && lo <= Position(key, d, m, x) < lo + req.size {
      var i :| 0 <= i < |all| && all[i] == x;
      IndexIsPosition(key, d, m, i);
    }
  }

  /** When everything the query selects fits on one page, the first page holds all of it. */
  lemma FirstPageHoldsSmallResult<E>(rows: map<Id, E>, keep: E -> bool, ord: Ordering<E>, req: PageRequest, x: Id)
    requires req.page == 0 && |Matching(rows, keep)| <= req.size
    requires req.sort.property in ord.properties
    requires x in Matching(rows, keep)
    ensures var content := Query(rows, keep, ord, req).value.content;
      exists i :: 0 <= i < |content| && content[i] == Stored(x, rows[x])
  {
    var key := KeyOf(rows, ord, req.sort.property);
    var m := Matching(rows, keep);
    var before := set y | y in m && Precedes(key, y, x);
    assert before <= m - {x};
    assert m - {x} == before + ((m - {x}) - before);
    assert |m - {x}| == |m| - 1;
    OnPageIffPositionInWindow(rows, keep, ord, req, x);
    var ids := PageIds(rows, keep, ord, req);
    PageIdsFacts(rows, keep, ord, req);
    var k :| 0 <= k < |ids| && ids[k] == x;
    assert Query(rows, keep, ord, req).value.content == Materialize(rows, ids);
  }

  /** Helpers for the page arithmetic. */
  lemma MulMonotone(a: nat, b: nat, c: nat)
    requires a <= b
    ensures a * c <= b * c
  {
    var d := b - a;
    assert b * c == a * c + d * c;
  }

  lemma MulSucc(a: nat, c: nat)
    ensures (a + 1) * c == a * c + c
  {
  }

  /** A position lies in the window of exactly one page: the one its quotient by the page
      size names. */
  lemma InWindowIffQuotient(page: nat, size: nat, p: nat)
    requires size >= 1
    ensures InWindow(page, size, p) <==> page == p / size
  {
    var q, m := p / size, p % size;
    assert p == q * size + m && 0 <= m < size;
    if page < q {
      MulMonotone(page + 1, q, size);
      MulSucc(page, size);
    } else if page > q {
      MulMonotone(q + 1, page, size);
      MulSucc(q, size);
    }
  }

  /** A selected row has a position among the selected rows. */
  lemma PositionInRange(key: Id -> int, d: Direction, s: set<Id>, x: Id)
    requires x in s
    ensures 0 <= Position(key, d, s, x) < |s|
  {
    var before := set y | y in s && Precedes(key, y, x);
    assert before <= s - {x};
    assert |s - {x}| == |s| - 1;
    assert s - {x} == before + ((s - {x}) - before);
  }

  /** The pages of one size partition the result: a selected row is on the page its
      position divided by the size names, and on no other. */
  lemma RowOnExactlyOnePage<E>(rows: map<Id, E>, keep: E -> bool, ord: Ordering<E>, sort: Sort, size: nat, x: Id)
    requires size >= 1 && sort.property in ord.properties && x in Matching(rows, keep)
    ensures var p := Position(KeyOf(rows, ord, sort.property), sort.direction, Matching(rows, keep), x);
      && 0 <= p < |Matching(rows, keep)|
      && forall page: nat :: page * size <= MaxInt32 ==>
           (x in ContentIds(Query(rows, keep, ord, PageRequest(page, size, sort)).value.content) <==> page == p / size)
  {
    var key := KeyOf(rows, ord, sort.property);
    var p := Position(key, sort.direction, Matching(rows, keep), x);
    PositionInRange(key, sort.direction, Matching(rows, keep), x);
    forall page: nat | page * size <= MaxInt32
      ensures x in ContentIds(Query(rows, keep, ord, PageRequest(page, size, sort)).value.content) <==> page == p / size
    {
      InWindowIffQuotient(page, size, p);
    }
  }

  /** Sorting by "id" is sorting by the row id: the first page of `size` rows, ascending by
      "id", holds exactly the `size` smallest selected ids, smallest first. */
  lemma DefaultOrderIsIdOrder<E(!new)>(rows: map<Id, E>, keep: E -> bool, ord: Ordering<E>, size: nat)
    requires SortsById(ord)
    ensures var r := Query(rows, keep, ord, PageRequest(0, size, Sort(Asc, "id")));
      && r.Ok?
      && (forall i, j :: 0 <= i < j < |r.value.content| ==> r.value.content[i].id < r.value.content[j].id)
      && (forall x :: x in ContentIds(r.value.content) <==>
            x in Matching(rows, keep) && |set y | y in Matching(rows, keep) && y < x| < size)
  {
    var req := PageRequest(0, size, Sort(Asc, "id"));
    var key := KeyOf(rows, ord, "id");
    var m := Matching(rows, keep);
    var r := Query(rows, keep, ord, req);
    assert r.Ok?;
    var c := r.value.content;
    forall i, j | 0 <= i < j < |c|
      ensures c[i].id < c[j].id
    {
      assert InOrder(key, Asc, c[i].id, c[j].id);
      assert key(c[i].id) == ord.rank("id", rows[c[i].id]);
      assert key(c[j].id) == ord.rank("id", rows[c[j].id]);
    }
    forall x | x in m
      ensures Position(key, Asc, m, x) == |set y | y in m && y < x|
    {
      forall y | y in m
        ensures Precedes(key, y, x) <==> y < x
      {
        assert key(y) == ord.rank("id", rows[y]) == ord.rank("id", rows[x]) == key(x);
      }
      assert (set y | y in m && Precedes(key, y, x)) == (set y | y in m && y < x);
    }
  }
}

=== FILE: repositories.dfy ===
/**
 * The repository queries: `findAll` with a page request, the three derived book
 * searches and the two derived record searches.
 *
 * A derived `...ContainingIgnoreCase` query compares the lower-cased column with
 * the lower-cased term and never matches a null column. `findByAuthor_Name...`
 * joins the resolved author, and `findByCustomer_Id`/`findByBook_Id` follow the
 * resolved reference, so a null reference never matches and the scalar
 * `authorID`, `customerID` and `bookID` columns play no part.
 */
module Repositories {
  import opened Values
  import opened Text
  import opened Entities
  import opened Store
  import opened Paging

  // ---------------------------------------------------------------------------
  // Filters

  /** `findByTitleContainingIgnoreCase`. */
  predicate TitleMatches(term: string, b: Book) {
    b.title.Some? && ContainsIgnoreCase(b.title.value, term)
  }

  /** `findByIsbnContainingIgnoreCase`. */
  predicate IsbnMatches(term: string, b: Book) {
    b.isbn.Some? && ContainsIgnoreCase(b.isbn.value, term)
  }

  /** `findByAuthor_NameContainingIgnoreCase`: the name of the author the book's join
      column names. */
  predicate AuthorNameMatches(authors: map<Id, Author>, term: string, b: Book) {
    && b.author.Some? && b.author.value in authors
    && authors[b.author.value].name.Some?
    && ContainsIgnoreCase(authors[b.author.value].name.value, term)
  }

  /** `findByCustomer_Id`. */
  predicate OfCustomer(userId: Id, r: BorrowingRecord) {
    r.customer == Some(userId)
  }

  /** `findByBook_Id`. */
  predicate OfBook(bookId: Id, r: BorrowingRecord) {
    r.book == Some(bookId)
  }

  /** An ignore-case match is an occurrence of the lower-cased term in the lower-cased
      title; a book without title never matches, and the empty term matches every title. */
  lemma TitleMatchesMeaning(term: string, b: Book)
    ensures TitleMatches(term, b) <==>
      b.title.Some? && exists i :: OccursAt(LowerAll(b.title.value), LowerAll(term), i)
    ensures term == [] ==> (TitleMatches(term, b) <==> b.title.Some?)
  {
    if b.title.Some? {
      ContainsIgnoreCaseMeaning(b.title.value, term);
    }
  }

  /** The ISBN search is the same case-insensitive substring match on the `isbn` column. */
  lemma IsbnMatchesMeaning(term: string, b: Book)
    ensures IsbnMatches(term, b) <==>
      b.isbn.Some? && exists i :: OccursAt(LowerAll(b.isbn.value), LowerAll(term), i)
  {
    if b.isbn.Some? {
      ContainsIgnoreCaseMeaning(b.isbn.value, term);
    }
  }

  /** The author search looks only at the resolved author: a book whose `author` is null
      never matches, whatever its `authorID` says, and changing `authorID` changes nothing. */
  lemma AuthorSearchFollowsReference(authors: map<Id, Author>, term: string, b: Book, other: Option<Id>)
    ensures b.author.None? ==> !AuthorNameMatches(authors, term, b)
    ensures AuthorNameMatches(authors, term, b.(authorID := other)) == AuthorNameMatches(authors, term, b)
    ensures AuthorNameMatches(authors, term, b) ==>
      exists i :: OccursAt(LowerAll(authors[b.author.value].name.value), LowerAll(term), i)
  {
    if AuthorNameMatches(authors, term, b) {
      ContainsIgnoreCaseMeaning(authors[b.author.value].name.value, term);
    }
  }

  /** The record searches follow the resolved reference and not the scalar id: a null
      reference never matches, and a record whose stale `customerID`/`bookID` names the
      searched id is not found unless its reference does too. */
  lemma RecordSearchFollowsReference(r: BorrowingRecord, id: Id)
    ensures r.customer.None? ==> !OfCustomer(id, r)
    ensures r.book.None? ==> !OfBook(id, r)
    ensures OfCustomer(id, r) <==> r.customer.Some? && r.customer.value == id
    ensures OfBook(id, r) <==> r.book.Some? && r.book.value == id
    ensures OfCustomer(id, r.(customerID := Some(id))) == OfCustomer(id, r)
    ensures OfBook(id, r.(bookID := Some(id))) == OfBook(id, r)
  {
  }

  // ---------------------------------------------------------------------------
  // Paged queries

  function All<E>(e: E): bool {
    true
  }

  /** `findAll(pageable)`: the page of the whole table. It holds exactly the rows whose
      position in the requested order falls in the page's window, in that order, each
      with its stored value. */
  ghost function FindAll<E>(t: Table<E>, ord: Ordering<E>, req: PageRequest): (r: Result<Page<Stored<E>>>)
    ensures r.Ok? <==> req.sort.property in ord.properties && req.page * req.size <= MaxInt32
    ensures r.Ok? ==> r.value.request == req && r.value.totalElements == |t.rows| && |r.value.content| <= req.size
    ensures r.Ok? ==> forall i :: 0 <= i < |r.value.content| ==>
      r.value.content[i].id in t.rows && t.rows[r.value.content[i].id] == r.value.content[i].val
    ensures r.Ok? ==> forall i, j :: 0 <= i < j < |r.value.content| ==>
      InOrder(KeyOf(t.rows, ord, req.sort.property), req.sort.direction,
              r.value.content[i].id, r.value.content[j].id)
    ensures r.Ok? ==> forall x :: x in ContentIds(r.value.content) <==>
      x in t.rows && InWindow(req.page, req.size,
                              Position(KeyOf(t.rows, ord, req.sort.property), req.sort.direction, t.rows.Keys, x))
  {
    assert forall id :: id in Matching(t.rows, All) <==> id in t.rows.Keys;
    assert Matching(t.rows, All) == t.rows.Keys;
    Query(t.rows, All, ord, req)
  }

  ghost function FindByTitle(db: Db, ord: Ordering<Book>, title: string, req: PageRequest): Result<Page<Stored<Book>>> {
    Query(db.books.rows, b => TitleMatches(title, b), ord, req)
  }

  ghost function FindByIsbn(db: Db, ord: Ordering<Book>, isbn: string, req: PageRequest): Result<Page<Stored<Book>>> {
    Query(db.books.rows, b => IsbnMatches(isbn, b), ord, req)
  }

  ghost function FindByAuthorName(db: Db, ord: Ordering<Book>, name: string, req: PageRequest): Result<Page<Stored<Book>>> {
    Query(db.books.rows, b => AuthorNameMatches(db.authors.rows, name, b), ord, req)
  }

  ghost function FindByCustomerId(db: Db, ord: Ordering<BorrowingRecord>, userId: Id, req: PageRequest): Result<Page<Stored<BorrowingRecord>>> {
    Query(db.records.rows, r => OfCustomer(userId, r), ord, req)
  }

  ghost function FindByBookId(db: Db, ord: Ordering<BorrowingRecord>, bookId: Id, req: PageRequest): Result<Page<Stored<BorrowingRecord>>> {
    Query(db.records.rows, r => OfBook(bookId, r), ord, req)
  }

  /** What a search computes when it runs: the page request built as for the list, then
      the repository query `find` for it. */
  ghost function RunSearch<E>(page: int, size: int, sortBy: string, sortOrder: string,
                              find: PageRequest -> Result<Page<Stored<E>>>): (r: Result<Page<Stored<E>>>)
    ensures MakePageRequest(page, size, sortBy, sortOrder).Err? ==> r == Err(IllegalArgument)
    ensures MakePageRequest(page, size, sortBy, sortOrder).Ok? ==> r == find(MakePageRequest(page, size, sortBy, sortOrder).value)
  {
    match MakePageRequest(page, size, sortBy, sortOrder)
    case Err(f) => Err(f)
    case Ok(req) => find(req)
  }

  /** The title search answers with stored books whose title matches, at most a page of
      them, and counts every matching book in the total. */
  lemma TitleSearchSelects(db: Db, ord: Ordering<Book>, term: string, req: PageRequest)
    ensures var r := FindByTitle(db, ord, term, req);
      r.Ok? ==> |r.value.content| <= req.size && forall i :: 0 <= i < |r.value.content| ==>
        (var e := r.value.content[i]; e.id in db.books.rows && db.books.rows[e.id] == e.val && TitleMatches(term, e.val))
    ensures var r := FindByTitle(db, ord, term, req);
      r.Ok? ==> r.value.totalElements == |set id | id in db.books.rows && TitleMatches(term, db.books.rows[id])|
  {
    var keep := (b: Book) => TitleMatches(term, b);
    assert Matching(db.books.rows, keep) == set id | id in db.books.rows && TitleMatches(term, db.books.rows[id]);
  }

  /** The ISBN search answers with stored books whose ISBN matches. */
  lemma IsbnSearchSelects(db: Db, ord: Ordering<Book>, term: string, req: PageRequest)
    ensures var r := FindByIsbn(db, ord, term, req);
      r.Ok? ==> forall i :: 0 <= i < |r.value.content| ==>
        (var e := r.value.content[i]; e.id in db.books.rows && db.books.rows[e.id] == e.val && IsbnMatches(term, e.val))
  {
  }

  /** The author search answers only with stored books that have a resolved author whose
      name matches. */
  lemma AuthorSearchSelects(db: Db, ord: Ordering<Book>, term: string, req: PageRequest)
    ensures var r := FindByAuthorName(db, ord, term, req);
      r.Ok? ==> forall i :: 0 <= i < |r.value.content| ==>
        (var e := r.value.content[i];
         e.id in db.books.rows && e.val.author.Some? && AuthorNameMatches(db.authors.rows, term, e.val))
  {
  }

  /** The record searches answer with stored records whose resolved reference is the
      searched id. */
  lemma RecordSearchesSelect(db: Db, ord: Ordering<BorrowingRecord>, id: Id, req: PageRequest)
    ensures var r := FindByCustomerId(db, ord, id, req);
      r.Ok? ==> forall i :: 0 <= i < |r.value.content| ==>
        (var e := r.value.content[i]; e.id in db.records.rows && e.val.customer == Some(id))
    ensures var r := FindByBookId(db, ord, id, req);
      r.Ok? ==> forall i :: 0 <= i < |r.value.content| ==>
        (var e := r.value.content[i]; e.id in db.records.rows && e.val.book == Some(id))
  {
  }

  // ---------------------------------------------------------------------------
  // Inverse collections

  /** `Book.borrowingRecords`: the records whose join column names book `b`. */
  function RecordsOfBook(db: Db, b: Id): (m: map<Id, BorrowingRecord>)
    ensures forall k :: k in m <==> k in db.records.rows && db.records.rows[k].book == Some(b)
    ensures forall k :: k in m ==> m[k] == db.records.rows[k]
  {
    map k | k in db.records.rows && db.records.rows[k].book == Some(b) :: db.records.rows[k]
  }

  /** `Customer.borrowingRecords`: the records whose join column names customer `c`. */
  function RecordsOfCustomerMap(db: Db, c: Id): (m: map<Id, BorrowingRecord>)
    ensures forall k :: k in m <==> k in db.records.rows && db.records.rows[k].customer == Some(c)
    ensures forall k :: k in m ==> m[k] == db.records.rows[k]
  {
    map k | k in db.records.rows && db.records.rows[k].customer == Some(c) :: db.records.rows[k]
  }

  /** The ids of a listed page's rows, in page order. */
  function ListedIds<E>(c: seq<Listed<E>>): (r: seq<Id>)
    ensures |r| == |c|
    ensures forall i :: 0 <= i < |c| ==> r[i] == c[i].row.id
  {
    seq(|c|, i requires 0 <= i < |c| => c[i].row.id)
  }

  function WithBookRecords(db: Db, b: Stored<Book>): (l: Listed<Book>)
    ensures l.row == b
  {
    Listed(b, RecordsOfBook(db, b.id))
  }

  function WithCustomerRecords(db: Db, c: Stored<Customer>): (l: Listed<Customer>)
    ensures l.row == c
  {
    Listed(c, RecordsOfCustomerMap(db, c.id))
  }
}

=== FILE: serialization.dfy ===
/**
 * The JSON the endpoints answer with, as far as the entities declare it:
 * which members each object has. `Customer.password` is write-only, so it is
 * read from a request body but never written into a response. A nested object
 * leaves out the members its `@JsonIgnoreProperties` names, which is what keeps
 * the two-way associations from recursing:
 *
 *   - a book's author, and an author's books, leave out the way back;
 *   - the records of a book or a customer leave out `customer` and `book`;
 *   - a record's customer leaves out its records and the password, and a
 *     record's book leaves out its records, its author and `authorID`.
 *
 * The entities declare no order for their inverse collections (there is no
 * `@OrderBy`), so the order the persistence provider loads them in is open; the
 * model picks ascending id order, and none of the properties below depends on
 * it. Page metadata is not modelled: a page body is the sequence of its
 * content's objects.
 */
module Serialization {
  import opened Values
  import opened Entities
  import opened Store
  import opened Paging

  /** The member names the entities declare. */
  datatype Prop =
    | id | name | email | address | phoneNumber | password | borrowingRecords
    | customer | book | customerID | bookID | borrowDate | returnDate
    | title | isbn | publicationDate | genre | available | authorID | author
    | birthDate | nationality | books

  /** A JSON value; an object is its members by name. */
  datatype Json =
    | Null
    | Num(n: int)
    | Bool(flag: bool)
    | Str(s: string)
    | Arr(items: seq<Json>)
    | Obj(members: map<Prop, Json>)

  /** Some object anywhere inside `j` has a member named `key`. */
  predicate Mentions(j: Json, key: Prop) {
    match j
    case Arr(items) => exists i :: 0 <= i < |items| && Mentions(items[i], key)
    case Obj(ms) => key in ms || exists k :: k in ms && Mentions(ms[k], key)
    case _ => false
  }

  /** A property of a request body: its value, or `null` when absent. */
  function Lookup(ms: map<Prop, Json>, key: Prop): (r: Json)
    ensures key in ms ==> r == ms[key]
    ensures key !in ms ==> r == Null
  {
    if key in ms then ms[key] else Null
  }

  // ---------------------------------------------------------------------------
  // Scalars

  function OfStr(s: NStr): (j: Json)
    ensures j.Null? || j.Str?
  {
    if s.None? then Null else Str(s.value)
  }

  function OfInt(n: Option<int>): (j: Json)
    ensures j.Null? || j.Num?
  {
    if n.None? then Null else Num(n.value)
  }

  /** Reading a string property back: a string, or null for anything else. */
  function ReadStr(j: Json): NStr {
    if j.Str? then Some(j.s) else None
  }

  /** Reading a string property gives back the string written. */
  lemma ReadStrOfStr(s: NStr)
    ensures ReadStr(OfStr(s)) == s
  {
  }

  // ---------------------------------------------------------------------------
  // Objects

  /** The ids of `m` in ascending order. */
  ghost function IdsOf<V>(m: map<Id, V>): (r: seq<Id>)
    ensures |r| == |m|
    ensures forall x :: x in r <==> x in m
  {
    SortAsc(id => id, m.Keys)
  }

  /** A record inside a book's or a customer's `borrowingRecords`: no `customer`, no `book`. */
  function BareRecord(id: Id, r: BorrowingRecord): Json {
    Obj(map[Prop.id := Num(id), Prop.customerID := OfInt(r.customerID), Prop.bookID := OfInt(r.bookID),
            Prop.borrowDate := OfInt(r.borrowDate), Prop.returnDate := OfInt(r.returnDate)])
  }

  /** A record collection, in ascending id order. */
  ghost function BareRecords(m: map<Id, BorrowingRecord>): (j: Json)
    ensures j.Arr? && |j.items| == |m|
    ensures forall i :: 0 <= i < |j.items| ==> j.items[i] == BareRecord(IdsOf(m)[i], m[IdsOf(m)[i]])
  {
    var ids := IdsOf(m);
    Arr(seq(|ids|, i requires 0 <= i < |ids| => BareRecord(ids[i], m[ids[i]])))
  }

  /** A record's customer: no records and, being write-only, no password. */
  function NestedCustomer(id: Id, c: Customer): Json {
    Obj(map[Prop.id := Num(id), Prop.name := OfStr(c.name), Prop.email := OfStr(c.email),
            Prop.address := OfStr(c.address), Prop.phoneNumber := OfStr(c.phoneNumber)])
  }

  /** A record's book, or an author's book: no records, no author, no `authorID`. */
  function NestedBook(id: Id, b: Book): Json {
    Obj(map[Prop.id := Num(id), Prop.title := OfStr(b.title), Prop.isbn := OfStr(b.isbn),
            Prop.publicationDate := OfInt(b.publicationDate), Prop.genre := OfStr(b.genre),
            Prop.available := Bool(b.available)])
  }

  /** A book's author: no books. */
  function NestedAuthor(id: Id, a: Author): Json {
    Obj(map[Prop.id := Num(id), Prop.name := OfStr(a.name), Prop.birthDate := OfInt(a.birthDate),
            Prop.nationality := OfStr(a.nationality)])
  }

  /** A reference is written as the object it names, or `null`. */
  function Ref<E>(ref: Option<Id>, rows: map<Id, E>, nested: (Id, E) -> Json): Json {
    if ref.Some? && ref.value in rows then nested(ref.value, rows[ref.value]) else Null
  }

  /** A customer response body: the customer's own members and its records. */
  ghost function CustomerBody(row: Stored<Customer>, records: map<Id, BorrowingRecord>): Json {
    Obj(NestedCustomer(row.id, row.val).members[Prop.borrowingRecords := BareRecords(records)])
  }

  /** A record response body: the record's own members, its customer and its book. */
  function RecordBody(db: Db, row: Stored<BorrowingRecord>): Json {
    var r := row.val;
    Obj(BareRecord(row.id, r).members[Prop.customer := Ref(r.customer, db.customers.rows, NestedCustomer)]
                                     [Prop.book := Ref(r.book, db.books.rows, NestedBook)])
  }

  /** A book response body: the book's own members, `authorID`, its author and its records. */
  ghost function BookBody(db: Db, row: Stored<Book>, records: map<Id, BorrowingRecord>): Json {
    var b := row.val;
    Obj(NestedBook(row.id, b).members[Prop.authorID := OfInt(b.authorID)]
                                     [Prop.author := Ref(b.author, db.authors.rows, NestedAuthor)]
                                     [Prop.borrowingRecords := BareRecords(records)])
  }

  /** The ids of an author's books, in ascending order. */
  ghost function BookIdsOf(db: Db, aid: Id): (r: seq<Id>)
    ensures forall k :: k in r <==> k in db.books.rows && db.books.rows[k].author == Some(aid)
    ensures forall i :: 0 <= i < |r| ==> r[i] in db.books.rows && db.books.rows[r[i]].author == Some(aid)
  {
    SortAsc(k => k, BooksOf(db, aid))
  }

  /** An author's books, in ascending id order. */
  ghost function AuthorBooks(db: Db, aid: Id): (j: Json)
    ensures j.Arr? && |j.items| == |BookIdsOf(db, aid)|
    ensures forall i :: 0 <= i < |j.items| ==>
      j.items[i] == NestedBook(BookIdsOf(db, aid)[i], db.books.rows[BookIdsOf(db, aid)[i]])
  {
    var ids := BookIdsOf(db, aid);
    Arr(seq(|ids|, i requires 0 <= i < |ids| => NestedBook(ids[i], db.books.rows[ids[i]])))
  }

  /** An author response body: the author's own members and its books. */
  ghost function AuthorBody(db: Db, row: Stored<Author>): Json {
    Obj(NestedAuthor(row.id, row.val).members[Prop.books := AuthorBooks(db, row.id)])
  }

  /** A customer request body as a client sends it: every property, the password included. */
  function CustomerRequest(c: Customer): Json {
    Obj(map[Prop.name := OfStr(c.name), Prop.email := OfStr(c.email), Prop.address := OfStr(c.address),
            Prop.phoneNumber := OfStr(c.phoneNumber), Prop.password := OfStr(c.password)])
  }

  /** Reading a customer from a request body; a missing property is null, and the others
      (the id, the records) are not bound. */
  function ReadCustomer(j: Json): Customer {
    if !j.Obj? then Customer(None, None, None, None, None)
    else
      var ms := j.members;
      Customer(ReadStr(Lookup(ms, Prop.name)), ReadStr(Lookup(ms, Prop.email)), ReadStr(Lookup(ms, Prop.address)),
               ReadStr(Lookup(ms, Prop.phoneNumber)), ReadStr(Lookup(ms, Prop.password)))
  }

  // ---------------------------------------------------------------------------
  // What the bodies contain

  /** An object whose members are all scalars mentions exactly its own member names. */
  lemma FlatObjectMentions(ms: map<Prop, Json>, key: Prop)
    requires forall k :: k in ms ==> !ms[k].Arr? && !ms[k].Obj?
    ensures Mentions(Obj(ms), key) <==> key in ms
  {
  }

  lemma BareRecordMentions(rid: Id, r: BorrowingRecord, key: Prop)
    ensures Mentions(BareRecord(rid, r), key) <==> key in {Prop.id, Prop.customerID, Prop.bookID, Prop.borrowDate, Prop.returnDate}
  {
    FlatObjectMentions(BareRecord(rid, r).members, key);
  }

  /** No element of a record collection mentions a member a bare record lacks. */
  lemma BareRecordsNeverMention(m: map<Id, BorrowingRecord>, key: Prop)
    requires key !in {Prop.id, Prop.customerID, Prop.bookID, Prop.borrowDate, Prop.returnDate}
    ensures !Mentions(BareRecords(m), key)
  {
    var j := BareRecords(m);
    var ids := IdsOf(m);
    forall i | 0 <= i < |j.items| ensures !Mentions(j.items[i], key) {
      BareRecordMentions(ids[i], m[ids[i]], key);
    }
  }

  /** A record's customer mentions exactly its five scalar members: no records, no password. */
  lemma NestedCustomerMentions(cid: Id, c: Customer, key: Prop)
    ensures Mentions(NestedCustomer(cid, c), key) <==>
      key in {Prop.id, Prop.name, Prop.email, Prop.address, Prop.phoneNumber}
  {
    FlatObjectMentions(NestedCustomer(cid, c).members, key);
  }

  /** A nested book mentions exactly its scalar members: no records, no author, no `authorID`. */
  lemma NestedBookMentions(bid: Id, b: Book, key: Prop)
    ensures Mentions(NestedBook(bid, b), key) <==>
      key in {Prop.id, Prop.title, Prop.isbn, Prop.publicationDate, Prop.genre, Prop.available}
  {
    FlatObjectMentions(NestedBook(bid, b).members, key);
  }

  /** A book's author mentions exactly its scalar members: no books. */
  lemma NestedAuthorMentions(aid: Id, a: Author, key: Prop)
    ensures Mentions(NestedAuthor(aid, a), key) <==> key in {Prop.id, Prop.name, Prop.birthDate, Prop.nationality}
  {
    FlatObjectMentions(NestedAuthor(aid, a).members, key);
  }

  /** Adding a member that does not mention `key`, under another name, keeps `key`
      unmentioned. */
  lemma WithMember(ms: map<Prop, Json>, k: Prop, v: Json, key: Prop)
    requires !Mentions(Obj(ms), key) && k != key && !Mentions(v, key)
    ensures !Mentions(Obj(ms[k := v]), key)
  {
  }

  /** A customer body mentions the password nowhere, not even inside its records. */
  lemma CustomerBodyHidesPassword(row: Stored<Customer>, records: map<Id, BorrowingRecord>)
    ensures !Mentions(CustomerBody(row, records), Prop.password)
  {
    NestedCustomerMentions(row.id, row.val, Prop.password);
    BareRecordsNeverMention(records, Prop.password);
    WithMember(NestedCustomer(row.id, row.val).members, Prop.borrowingRecords, BareRecords(records), Prop.password);
  }

  /** A record body mentions the password nowhere, not even inside its customer. */
  lemma RecordBodyHidesPassword(db: Db, row: Stored<BorrowingRecord>)
    ensures !Mentions(RecordBody(db, row), Prop.password)
  {
    var r := row.val;
    var own := BareRecord(row.id, r).members;
    var cust := Ref(r.customer, db.customers.rows, NestedCustomer);
    if r.customer.Some? && r.customer.value in db.customers.rows {
      NestedCustomerMentions(r.customer.value, db.customers.rows[r.customer.value], Prop.password);
    }
    if r.book.Some? && r.book.value in db.books.rows {
      NestedBookMentions(r.book.value, db.books.rows[r.book.value], Prop.password);
    }
    BareRecordMentions(row.id, r, Prop.password);
    WithMember(own, Prop.customer, cust, Prop.password);
    WithMember(own[Prop.customer := cust], Prop.book, Ref(r.book, db.books.rows, NestedBook), Prop.password);
  }

  /** A book body mentions the password nowhere, not in its author nor its records. */
  lemma BookBodyHidesPassword(db: Db, row: Stored<Book>, records: map<Id, BorrowingRecord>)
    ensures !Mentions(BookBody(db, row, records), Prop.password)
  {
    var b := row.val;
    var own := NestedBook(row.id, b).members;
    var withId := own[Prop.authorID := OfInt(b.authorID)];
    var auth := Ref(b.author, db.authors.rows, NestedAuthor);
    if b.author.Some? && b.author.value in db.authors.rows {
      NestedAuthorMentions(b.author.value, db.authors.rows[b.author.value], Prop.password);
    }
    NestedBookMentions(row.id, b, Prop.password);
    BareRecordsNeverMention(records, Prop.password);
    WithMember(own, Prop.authorID, OfInt(b.authorID), Prop.password);
    WithMember(withId, Prop.author, auth, Prop.password);
    WithMember(withId[Prop.author := auth], Prop.borrowingRecords, BareRecords(records), Prop.password);
  }

  /** An author body mentions the password nowhere, not in any of its books. */
  lemma AuthorBodyHidesPassword(db: Db, row: Stored<Author>)
    ensures !Mentions(AuthorBody(db, row), Prop.password)
  {
    NestedAuthorMentions(row.id, row.val, Prop.password);
    AuthorBooksHidePassword(db, row.id);
    WithMember(NestedAuthor(row.id, row.val).members, Prop.books, AuthorBooks(db, row.id), Prop.password);
  }

  lemma AuthorBooksHidePassword(db: Db, aid: Id)
    ensures !Mentions(AuthorBooks(db, aid), Prop.password)
  {
    var books := AuthorBooks(db, aid);
    var ids := BookIdsOf(db, aid);
    forall i | 0 <= i < |books.items| ensures !Mentions(books.items[i], Prop.password) {
      NestedBookMentions(ids[i], db.books.rows[ids[i]], Prop.password);
    }
  }

  /** A record's customer and book are written as the rows its references name, with the
      members their ignore lists leave; a null reference is written as `null`. */
  lemma RecordBodyNests(db: Db, row: Stored<BorrowingRecord>)
    ensures var ms := RecordBody(db, row).members;
      && ms.Keys == {Prop.id, Prop.customer, Prop.book, Prop.customerID, Prop.bookID, Prop.borrowDate, Prop.returnDate}
      && (row.val.customer.None? ==> ms[Prop.customer] == Null)
      && (row.val.book.None? ==> ms[Prop.book] == Null)
      && (row.val.customer.Some? && row.val.customer.value in db.customers.rows ==>
            ms[Prop.customer] == NestedCustomer(row.val.customer.value, db.customers.rows[row.val.customer.value]))
      && (row.val.book.Some? && row.val.book.value in db.books.rows ==>
            ms[Prop.book] == NestedBook(row.val.book.value, db.books.rows[row.val.book.value]))
  {
  }

  /** The password is write-only: read from a request, never written back. A customer
      read from its own request body is the customer; read from a response body it is
      the customer with a null password. */
  lemma PasswordIsWriteOnly(c: Customer, row: Stored<Customer>, records: map<Id, BorrowingRecord>)
    ensures ReadCustomer(CustomerRequest(c)) == c
    ensures ReadCustomer(CustomerBody(row, records)) == row.val.(password := None)
  {
    ReadStrOfStr(c.name);
    ReadStrOfStr(c.email);
    ReadStrOfStr(c.address);
    ReadStrOfStr(c.phoneNumber);
    ReadStrOfStr(c.password);
    var v := row.val;
    ReadStrOfStr(v.name);
    ReadStrOfStr(v.email);
    ReadStrOfStr(v.address);
    ReadStrOfStr(v.phoneNumber);
  }
}

=== FILE: state.dfy ===
/**
 * The state a request sees: the store and the thirteen named caches, plus what
 * the environment supplies (the password encoder and the database's orderings).
 */
module State {
  import opened Values
  import opened Entities
  import opened Paging
  import opened Store

  /** The key of a list cache: Spring's `SimpleKey` of all four arguments. */
  datatype ListKey = ListKey(page: int, size: int, sortBy: string, sortOrder: string)

  /** The caches by their names in the services. */
  datatype Caches = Caches(
    authors: map<ListKey, Page<Stored<Author>>>,                       // "authors"
    author: map<Id, Option<Stored<Author>>>,                           // "author"
    books: map<ListKey, Page<Listed<Book>>>,                           // "books"
    book: map<Id, Option<Stored<Book>>>,                               // "book"
    booksByTitle: map<string, Page<Stored<Book>>>,                     // "booksByTitle"
    booksByAuthor: map<string, Page<Stored<Book>>>,                    // "booksByAuthor"
    booksByIsbn: map<string, Page<Stored<Book>>>,                      // "booksByIsbn"
    customers: map<ListKey, Page<Listed<Customer>>>,                   // "customers"
    customer: map<Id, Option<Stored<Customer>>>,                       // "customer"
    records: map<ListKey, Page<Stored<BorrowingRecord>>>,              // "borrowingRecords"
    record: map<Id, Option<Stored<BorrowingRecord>>>,                  // "borrowingRecord"
    recordsByCustomer: map<Id, Page<Stored<BorrowingRecord>>>,         // "borrowingRecordsByCustomerId"
    recordsByBook: map<Id, Page<Stored<BorrowingRecord>>>)             // "borrowingRecordsByBookId"

  function EmptyCaches(): Caches {
    Caches(map[], map[], map[], map[], map[], map[], map[], map[], map[], map[], map[], map[], map[])
  }

  datatype Library = Library(db: Db, cache: Caches)

  /** The store's guarantees hold. */
  predicate Valid(lib: Library) {
    Store.Valid(lib.db)
  }

  /** What the services receive from outside: the `PasswordEncoder` (applied to a non-null
      raw password; a null one makes every standard encoder throw), and the database's
      ordering of each table. */
  datatype Env = Env(
    encode: string -> string,
    authorOrder: Ordering<Author>,
    bookOrder: Ordering<Book>,
    customerOrder: Ordering<Customer>,
    recordOrder: Ordering<BorrowingRecord>)

  /** Every table sorts by "id" in the order of its row ids, as each entity's `@Id` column
      does in the database; the default listing (`sortBy` "id") therefore never fails. */
  ghost predicate OrdersById(env: Env) {
    && SortsById(env.authorOrder) && SortsById(env.bookOrder)
    && SortsById(env.customerOrder) && SortsById(env.recordOrder)
  }

  /** The outcome of one service call: the state afterwards and the answer or fault. */
  datatype Step<T> = Step(lib: Library, out: Result<T>)
}

=== FILE: store.dfy ===
/**
 * The relational store behind the four repositories.
 *
 * A table maps identity values to rows and remembers the next identity value:
 * `save` of a new entity takes that value, and ids are never reused. The store
 * enforces the join columns as foreign keys: a write whose reference names no
 * row, and a delete that would leave a reference dangling, is refused with a
 * `ConstraintViolation` and changes nothing.
 *
 * The declared cascades are applied: deleting an author removes the books that
 * reference it (`Author.books`, `CascadeType.ALL`), and deleting a customer
 * removes its borrowing records (`Customer.borrowingRecords`, `CascadeType.ALL`).
 * `Book.borrowingRecords` has no cascade, so a book that a record references
 * cannot be deleted, neither directly nor through its author.
 *
 * `deleteById` of an id without a row does nothing.
 */
module Store {
  import opened Values
  import opened Entities

  // ---------------------------------------------------------------------------
  // One table

  datatype Table<E> = Table(rows: map<Id, E>, next: Id)

  /** Identity generation: ids start at 1 and every row's id is below `next`. */
  predicate Fresh<E>(t: Table<E>) {
    t.next >= 1 && forall id :: id in t.rows ==> 1 <= id < t.next
  }

  function EmptyTable<E>(): (t: Table<E>)
    ensures Fresh(t) && t.rows == map[]
  {
    Table(map[], 1)
  }

  /** `findById`: the row together with its id, or nothing. */
  function FindStored<E>(t: Table<E>, id: Id): (r: Option<Stored<E>>)
    ensures r.Some? <==> id in t.rows
    ensures r.Some? ==> r.value == Stored(id, t.rows[id])
  {
    if id in t.rows then Some(Stored(id, t.rows[id])) else None
  }

  /** `save` of a new entity: it receives the next identity value, which no row has. */
  function Insert<E>(t: Table<E>, e: E): (r: (Table<E>, Stored<E>))
    ensures r.1 == Stored(t.next, e)
    ensures r.0.rows == t.rows[t.next := e]
    ensures Fresh(t) ==> Fresh(r.0) && t.next !in t.rows
  {
    (Table(t.rows[t.next := e], t.next + 1), Stored(t.next, e))
  }

  /** `save` of an entity loaded by id: its row is overwritten, the id stays. */
  function Overwrite<E>(t: Table<E>, id: Id, e: E): (r: Table<E>)
    requires id in t.rows
    ensures r.rows.Keys == t.rows.Keys && r.rows[id] == e
    ensures forall k :: k in t.rows && k != id ==> r.rows[k] == t.rows[k]
    ensures Fresh(t) ==> Fresh(r)
  {
    Table(t.rows[id := e], t.next)
  }

  /** Removing rows; the identity counter is not rewound. */
  function RemoveAll<E>(t: Table<E>, ids: set<Id>): (r: Table<E>)
    ensures forall k :: k in r.rows <==> k in t.rows && k !in ids
    ensures forall k :: k in r.rows ==> r.rows[k] == t.rows[k]
    ensures r.next == t.next
    ensures Fresh(t) ==> Fresh(r)
  {
    Table(t.rows - ids, t.next)
  }

  /** `findById` after each kind of `save` and delete: it finds what was saved under the
      id it was saved under, finds nothing under a removed id, and answers every other id
      as before. */
  lemma FindAfterWrites<E>(t: Table<E>, e: E, id: Id, ids: set<Id>, k: Id)
    requires Fresh(t)
    ensures var (t2, saved) := Insert(t, e);
      && FindStored(t2, saved.id) == Some(saved)
      && (k != saved.id ==> FindStored(t2, k) == FindStored(t, k))
      && FindStored(t, saved.id) == None
    ensures id in t.rows ==>
      && FindStored(Overwrite(t, id, e), id) == Some(Stored(id, e))
      && (k != id ==> FindStored(Overwrite(t, id, e), k) == FindStored(t, k))
    ensures k in ids ==> FindStored(RemoveAll(t, ids), k) == None
    ensures k !in ids ==> FindStored(RemoveAll(t, ids), k) == FindStored(t, k)
  {
  }

  // ---------------------------------------------------------------------------
  // The four tables and their foreign keys

  datatype Db = Db(
    authors: Table<Author>,
    books: Table<Book>,
    customers: Table<Customer>,
    records: Table<BorrowingRecord>)

  function EmptyDb(): (db: Db)
    ensures Valid(db)
    ensures db.authors.rows == map[] && db.books.rows == map[]
    ensures db.customers.rows == map[] && db.records.rows == map[]
  {
    Db(EmptyTable(), EmptyTable(), EmptyTable(), EmptyTable())
  }

  /** A nullable join column is acceptable when null or naming an existing row. */
  predicate RefOk<E>(ref: Option<Id>, rows: map<Id, E>) {
    ref.None? || ref.value in rows
  }

  predicate BookRefsOk(db: Db, b: Book) {
    RefOk(b.author, db.authors.rows)
  }

  predicate RecordRefsOk(db: Db, r: BorrowingRecord) {
    RefOk(r.customer, db.customers.rows) && RefOk(r.book, db.books.rows)
  }

  /** No join column dangles. */
  predicate RefIntegrity(db: Db) {
    && (forall id :: id in db.books.rows ==> BookRefsOk(db, db.books.rows[id]))
    && (forall id :: id in db.records.rows ==> RecordRefsOk(db, db.records.rows[id]))
  }

  /** What the database itself guarantees between statements. */
  predicate Valid(db: Db) {
    && Fresh(db.authors) && Fresh(db.books) && Fresh(db.customers) && Fresh(db.records)
    && RefIntegrity(db)
  }

  /** The books whose join column names author `a` (the `Author.books` collection). */
  function BooksOf(db: Db, a: Id): (s: set<Id>)
    ensures forall b :: b in s <==> b in db.books.rows && db.books.rows[b].author == Some(a)
  {
    set b | b in db.books.rows && db.books.rows[b].author == Some(a)
  }

  /** Some record's join column names one of `bs`. */
  predicate AnyRecordOnBooks(db: Db, bs: set<Id>) {
    exists r :: r in db.records.rows && db.records.rows[r].book.Some? && db.records.rows[r].book.value in bs
  }

  /** The records whose join column names customer `c` (the `Customer.borrowingRecords` collection). */
  function RecordsOfCustomer(db: Db, c: Id): (s: set<Id>)
    ensures forall r :: r in s <==> r in db.records.rows && db.records.rows[r].customer == Some(c)
  {
    set r | r in db.records.rows && db.records.rows[r].customer == Some(c)
  }

  // ---------------------------------------------------------------------------
  // Writes

  function InsertAuthor(db: Db, a: Author): (r: (Db, Stored<Author>)) {
    var (t, s) := Insert(db.authors, a);
    (db.(authors := t), s)
  }

  function InsertCustomer(db: Db, c: Customer): (r: (Db, Stored<Customer>)) {
    var (t, s) := Insert(db.customers, c);
    (db.(customers := t), s)
  }

  /** Inserting a book whose author reference names no author is refused. */
  function InsertBook(db: Db, b: Book): (r: Result<(Db, Stored<Book>)>)
    ensures r.Ok? <==> BookRefsOk(db, b)
    ensures r.Err? ==> r.fault == ConstraintViolation
    ensures r.Ok? ==> r.value.0 == db.(books := Insert(db.books, b).0) && r.value.1 == Insert(db.books, b).1
  {
    if !BookRefsOk(db, b) then Err(ConstraintViolation)
    else
      var (t, s) := Insert(db.books, b);
      Ok((db.(books := t), s))
  }

  /** Inserting a record whose customer or book reference names no row is refused. */
  function InsertRecord(db: Db, rec: BorrowingRecord): (r: Result<(Db, Stored<BorrowingRecord>)>)
    ensures r.Ok? <==> RecordRefsOk(db, rec)
    ensures r.Err? ==> r.fault == ConstraintViolation
    ensures r.Ok? ==> r.value.0 == db.(records := Insert(db.records, rec).0) && r.value.1 == Insert(db.records, rec).1
  {
    if !RecordRefsOk(db, rec) then Err(ConstraintViolation)
    else
      var (t, s) := Insert(db.records, rec);
      Ok((db.(records := t), s))
  }

  function OverwriteAuthor(db: Db, id: Id, a: Author): (r: Db)
    requires id in db.authors.rows
  {
    db.(authors := Overwrite(db.authors, id, a))
  }

  function OverwriteCustomer(db: Db, id: Id, c: Customer): (r: Db)
    requires id in db.customers.rows
  {
    db.(customers := Overwrite(db.customers, id, c))
  }

  function OverwriteBook(db: Db, id: Id, b: Book): (r: Result<Db>)
    requires id in db.books.rows
    ensures r.Ok? <==> BookRefsOk(db, b)
    ensures r.Err? ==> r.fault == ConstraintViolation
    ensures r.Ok? ==> r.value == db.(books := Overwrite(db.books, id, b))
  {
    if !BookRefsOk(db, b) then Err(ConstraintViolation)
    else Ok(db.(books := Overwrite(db.books, id, b)))
  }

  function OverwriteRecord(db: Db, id: Id, rec: BorrowingRecord): (r: Result<Db>)
    requires id in db.records.rows
    ensures r.Ok? <==> RecordRefsOk(db, rec)
    ensures r.Err? ==> r.fault == ConstraintViolation
    ensures r.Ok? ==> r.value == db.(records := Overwrite(db.records, id, rec))
  {
    if !RecordRefsOk(db, rec) then Err(ConstraintViolation)
    else Ok(db.(records := Overwrite(db.records, id, rec)))
  }

  // ---------------------------------------------------------------------------
  // Deletes

  /** Deleting an author removes it and, by cascade, its books; refused when a record
      references one of those books. */
  function DeleteAuthorRow(db: Db, id: Id): (r: Result<Db>)
    ensures r.Err? <==> id in db.authors.rows && AnyRecordOnBooks(db, BooksOf(db, id))
    ensures r.Err? ==> r.fault == ConstraintViolation
    ensures id !in db.authors.rows ==> r == Ok(db)
    ensures r.Ok? ==> id !in r.value.authors.rows
    ensures r.Ok? && id in db.authors.rows ==>
      forall b :: b in r.value.books.rows <==> b in db.books.rows && b !in BooksOf(db, id)
    ensures r.Ok? ==> r.value.customers == db.customers && r.value.records == db.records
  {
    if id !in db.authors.rows then Ok(db)
    else
      var books := BooksOf(db, id);
      if AnyRecordOnBooks(db, books) then Err(ConstraintViolation)
      else Ok(db.(authors := RemoveAll(db.authors, {id}), books := RemoveAll(db.books, books)))
  }

  /** Deleting a book; refused when a record references it. */
  function DeleteBookRow(db: Db, id: Id): (r: Result<Db>)
    ensures r.Err? <==> id in db.books.rows && AnyRecordOnBooks(db, {id})
    ensures r.Err? ==> r.fault == ConstraintViolation
    ensures r.Ok? ==> r.value == db.(books := RemoveAll(db.books, {id}))
  {
    if id in db.books.rows && AnyRecordOnBooks(db, {id}) then Err(ConstraintViolation)
    else Ok(db.(books := RemoveAll(db.books, {id})))
  }

  /** Deleting a customer removes it and, by cascade, its records; never refused. */
  function DeleteCustomerRow(db: Db, id: Id): (r: Db)
    ensures id !in db.customers.rows ==> r == db
    ensures id !in r.customers.rows
    ensures id in db.customers.rows ==>
      forall k :: k in r.records.rows <==> k in db.records.rows && k !in RecordsOfCustomer(db, id)
    ensures r.authors == db.authors && r.books == db.books
  {
    if id !in db.customers.rows then db
    else db.(customers := RemoveAll(db.customers, {id}),
             records := RemoveAll(db.records, RecordsOfCustomer(db, id)))
  }

  function DeleteRecordRow(db: Db, id: Id): (r: Db)
    ensures id !in r.records.rows
    ensures r == db.(records := RemoveAll(db.records, {id}))
  {
    db.(records := RemoveAll(db.records, {id}))
  }

  // ---------------------------------------------------------------------------
  // The store's guarantees are kept by every write

  lemma InsertsKeepValid(db: Db, a: Author, c: Customer, b: Book, rec: BorrowingRecord)
    requires Valid(db)
    ensures Valid(InsertAuthor(db, a).0)
    ensures Valid(InsertCustomer(db, c).0)
    ensures InsertBook(db, b).Ok? ==> Valid(InsertBook(db, b).value.0)
    ensures InsertRecord(db, rec).Ok? ==> Valid(InsertRecord(db, rec).value.0)
  {
    var db1 := InsertAuthor(db, a).0;
    assert forall id :: id in db1.books.rows ==> BookRefsOk(db1, db1.books.rows[id]) by {
      forall id | id in db1.books.rows ensures BookRefsOk(db1, db1.books.rows[id]) {
        assert BookRefsOk(db, db.books.rows[id]);
      }
    }
    var db2 := InsertCustomer(db, c).0;
    assert forall id :: id in db2.records.rows ==> RecordRefsOk(db2, db2.records.rows[id]) by {
      forall id | id in db2.records.rows ensures RecordRefsOk(db2, db2.records.rows[id]) {
        assert RecordRefsOk(db, db.records.rows[id]);
      }
    }
    if InsertBook(db, b).Ok? {
      var db3 := InsertBook(db, b).value.0;
      assert forall id :: id in db3.records.rows ==> RecordRefsOk(db3, db3.records.rows[id]) by {
        forall id | id in db3.records.rows ensures RecordRefsOk(db3, db3.records.rows[id]) {
          assert RecordRefsOk(db, db.records.rows[id]);
        }
      }
    }
  }

  lemma OverwritesKeepValid(db: Db, id: Id, a: Author, c: Customer, b: Book, rec: BorrowingRecord)
    requires Valid(db)
    ensures id in db.authors.rows ==> Valid(OverwriteAuthor(db, id, a))
    ensures id in db.customers.rows ==> Valid(OverwriteCustomer(db, id, c))
    ensures id in db.books.rows && OverwriteBook(db, id, b).Ok? ==> Valid(OverwriteBook(db, id, b).value)
    ensures id in db.records.rows && OverwriteRecord(db, id, rec).Ok? ==> Valid(OverwriteRecord(db, id, rec).value)
  {
  }

  /** The cascades are what keeps the foreign keys intact across deletes. */
  lemma DeletesKeepValid(db: Db, id: Id)
    requires Valid(db)
    ensures DeleteAuthorRow(db, id).Ok? ==> Valid(DeleteAuthorRow(db, id).value)
    ensures DeleteBookRow(db, id).Ok? ==> Valid(DeleteBookRow(db, id).value)
    ensures Valid(DeleteCustomerRow(db, id))
    ensures Valid(DeleteRecordRow(db, id))
  {
    if DeleteAuthorRow(db, id).Ok? && id in db.authors.rows {
      var d := DeleteAuthorRow(db, id).value;
      var gone := BooksOf(db, id);
      forall k | k in d.books.rows ensures BookRefsOk(d, d.books.rows[k]) {
        assert BookRefsOk(db, db.books.rows[k]);
        assert k !in gone;
      }
      forall k | k in d.records.rows ensures RecordRefsOk(d, d.records.rows[k]) {
        assert RecordRefsOk(db, db.records.rows[k]);
        assert !(db.records.rows[k].book.Some? && db.records.rows[k].book.value in gone);
      }
    }
    if DeleteBookRow(db, id).Ok? {
      var d := DeleteBookRow(db, id).value;
      forall k | k in d.records.rows ensures RecordRefsOk(d, d.records.rows[k]) {
        assert RecordRefsOk(db, db.records.rows[k]);
        assert !(db.records.rows[k].book.Some? && db.records.rows[k].book.value in {id});
      }
    }
    var d := DeleteCustomerRow(db, id);
    forall k | k in d.records.rows ensures RecordRefsOk(d, d.records.rows[k]) {
      assert RecordRefsOk(db, db.records.rows[k]);
      assert k !in RecordsOfCustomer(db, id);
    }
  }
}

=== FILE: text.dfy ===
/**
 * The string operations the backend relies on: `String.equalsIgnoreCase`,
 * `String.trim` (behind `@NotBlank`), Spring's `StringUtils.hasText` (behind
 * `Sort.by`), `Long.toString`, and the case-insensitive substring match that
 * the derived `...ContainingIgnoreCase` repository queries perform.
 *
 * Case mapping is ASCII only: `A`..`Z` and `a`..`z` are the only letters that
 * have another case here.
 */
module Text {

  /** ASCII lower case of one character. */
  function Lower(c: char): char {
    if 'A' <= c <= 'Z' then (c as int + 32) as char else c
  }

  /** ASCII upper case of one character. */
  function Upper(c: char): char {
    if 'a' <= c <= 'z' then (c as int - 32) as char else c
  }

  /** The string with every character lower-cased. */
  function LowerAll(s: string): (r: string)
    ensures |r| == |s|
    ensures forall i :: 0 <= i < |s| ==> r[i] == Lower(s[i])
  {
    if s == [] then [] else [Lower(s[0])] + LowerAll(s[1..])
  }

  /** `String.regionMatches(true, ...)` on one character pair: equal as is, after
      upper-casing, or after upper- then lower-casing. */
  predicate CharEqualsIgnoreCase(x: char, y: char) {
    x == y || Upper(x) == Upper(y) || Lower(Upper(x)) == Lower(Upper(y))
  }

  lemma CharEqualsIgnoreCaseIsLowerEq(x: char, y: char)
    ensures CharEqualsIgnoreCase(x, y) <==> Lower(x) == Lower(y)
  {
  }

  /** The character-by-character comparison of two strings of equal length. */
  function RegionMatches(a: string, b: string): (r: bool)
    requires |a| == |b|
    ensures r <==> LowerAll(a) == LowerAll(b)
  {
    if a == [] then true
    else
      CharEqualsIgnoreCaseIsLowerEq(a[0], b[0]);
      assert LowerAll(a) == [Lower(a[0])] + LowerAll(a[1..]);
      assert LowerAll(b) == [Lower(b[0])] + LowerAll(b[1..]);
      CharEqualsIgnoreCase(a[0], b[0]) && RegionMatches(a[1..], b[1..])
  }

  /** `String.equalsIgnoreCase`: same length and every position matches ignoring case. */
  function EqualsIgnoreCase(a: string, b: string): (r: bool)
    ensures r <==> |a| == |b| && LowerAll(a) == LowerAll(b)
  {
    |a| == |b| && RegionMatches(a, b)
  }

  /** The characters `String.trim` removes from either end: every code point up to U+0020. */
  predicate IsTrimmable(c: char) {
    c <= ' '
  }

  /** `s` with its leading trimmable characters removed. */
  function TrimStart(s: string): (r: string)
    ensures |r| <= |s| && r == s[|s| - |r|..]
    ensures r == [] || !IsTrimmable(r[0])
    ensures forall i :: 0 <= i < |s| - |r| ==> IsTrimmable(s[i])
  {
    if s != [] && IsTrimmable(s[0]) then
      var r := TrimStart(s[1..]);
      assert s[1..][|s| - 1 - |r|..] == s[|s| - |r|..];
      r
    else s
  }

  /** `s` with its trailing trimmable characters removed. */
  function TrimEnd(s: string): (r: string)
    ensures |r| <= |s| && r == s[..|r|]
    ensures r == [] || !IsTrimmable(r[|r| - 1])
    ensures forall i :: |r| <= i < |s| ==> IsTrimmable(s[i])
  {
    if s != [] && IsTrimmable(s[|s| - 1]) then
      var r := TrimEnd(s[..|s| - 1]);
      assert s[..|s| - 1][..|r|] == s[..|r|];
      r
    else s
  }

  /** `String.trim`. */
  function Trim(s: string): string {
    TrimEnd(TrimStart(s))
  }

  /** `String.trim` leaves nothing exactly when every character is trimmable, and
      otherwise keeps a middle slice that starts and ends with a kept character. */
  lemma TrimEmptyIffAllTrimmable(s: string)
    ensures |Trim(s)| == 0 <==> forall i :: 0 <= i < |s| ==> IsTrimmable(s[i])
    ensures Trim(s) != [] ==> !IsTrimmable(Trim(s)[0]) && !IsTrimmable(Trim(s)[|Trim(s)| - 1])
  {
    var t := TrimStart(s);
    if |Trim(s)| == 0 {
      assert t == [];
    } else {
      assert t != [];
      assert !IsTrimmable(t[0]);
      assert s[|s| - |t|] == t[0];
    }
  }

  /** `Character.isWhitespace`: the ASCII controls TAB..CR and FS..US, SPACE, and the
      Unicode space, line and paragraph separators other than the no-break spaces. */
  predicate IsWhitespace(c: char) {
    || '\t' <= c <= '\r'
    || '\U{1C}' <= c <= ' '
    || c == '\U{1680}'
    || '\U{2000}' <= c <= '\U{2006}'
    || '\U{2008}' <= c <= '\U{200A}'
    || c == '\U{2028}' || c == '\U{2029}' || c == '\U{205F}' || c == '\U{3000}'
  }

  /** Spring's `StringUtils.hasText`: some character is not whitespace. */
  predicate HasText(s: string) {
    exists i :: 0 <= i < |s| && !IsWhitespace(s[i])
  }

  /** `needle` occurs in `hay` starting at index `i`. */
  predicate OccursAt(hay: string, needle: string, i: int) {
    0 <= i <= |hay| - |needle| && hay[i..i + |needle|] == needle
  }

  /** The substring test, one starting position at a time. */
  function Contains(hay: string, needle: string): bool
    decreases |hay|
  {
    (|needle| <= |hay| && hay[..|needle|] == needle) || (|hay| > 0 && Contains(hay[1..], needle))
  }

  /** The recursive substring test finds an occurrence exactly when one exists. */
  lemma {:induction false} ContainsIffOccurs(hay: string, needle: string)
    ensures Contains(hay, needle) <==> exists i :: OccursAt(hay, needle, i)
    decreases |hay|
  {
    if |hay| > 0 {
      ContainsIffOccurs(hay[1..], needle);
      if |needle| <= |hay| && hay[..|needle|] == needle {
        assert OccursAt(hay, needle, 0);
      }
      if Contains(hay[1..], needle) {
        var i :| OccursAt(hay[1..], needle, i);
        assert hay[1..][i..i + |needle|] == hay[i + 1..i + 1 + |needle|];
        assert OccursAt(hay, needle, i + 1);
      }
      if i :| OccursAt(hay, needle, i) {
        if i > 0 {
          assert hay[1..][i - 1..i - 1 + |needle|] == hay[i..i + |needle|];
          assert OccursAt(hay[1..], needle, i - 1);
        } else {
          assert hay[..|needle|] == needle;
        }
      }
    } else {
      if needle == [] {
        assert OccursAt(hay, needle, 0);
      }
    }
  }

  /** The `ContainingIgnoreCase` match: the lower-cased term occurs in the lower-cased text. */
  predicate ContainsIgnoreCase(hay: string, needle: string) {
    Contains(LowerAll(hay), LowerAll(needle))
  }

  /** An occurrence ignoring case is an occurrence of the lower-cased term, and the
      empty term is found in every text. */
  lemma ContainsIgnoreCaseMeaning(hay: string, needle: string)
    ensures ContainsIgnoreCase(hay, needle) <==> exists i :: OccursAt(LowerAll(hay), LowerAll(needle), i)
    ensures needle == [] ==> ContainsIgnoreCase(hay, needle)
  {
    ContainsIffOccurs(LowerAll(hay), LowerAll(needle));
    assert ContainsIgnoreCase(hay, needle) == Contains(LowerAll(hay), LowerAll(needle));
    assert Contains(LowerAll(hay), LowerAll(needle)) <==> exists i :: OccursAt(LowerAll(hay), LowerAll(needle), i);
    if needle == [] {
      assert OccursAt(LowerAll(hay), LowerAll(needle), 0);
    }
  }

  /** Decimal digits of a non-negative number, most significant first. */
  function Digits(n: nat): (r: string)
    ensures |r| > 0
    ensures forall i :: 0 <= i < |r| ==> '0' <= r[i] <= '9'
  {
    var d := ['0' + (n % 10) as char];
    if n < 10 then d else Digits(n / 10) + d
  }

  /** `Long.toString`. */
  function LongToString(n: int): (r: string)
    ensures |r| > 0
  {
    if n < 0 then "-" + Digits(-n) else Digits(n)
  }
}

=== FILE: validation.dfy ===
/**
 * The Bean Validation constraints declared on the entities, as predicates.
 *
 * `@NotBlank` rejects null and strings that `trim` empties; `@Size` and
 * `@Pattern` accept null; `@Past`/`@PastOrPresent` accept null and compare
 * with today's date, which is a parameter. No controller asks for validation,
 * so these predicates stand on their own and gate no operation.
 */
module Validation {
  import opened Values
  import opened Text
  import opened Entities

  // ---------------------------------------------------------------------------
  // Single-field constraints

  /** `@NotBlank`. */
  predicate NotBlank(s: NStr) {
    s.Some? && |Trim(s.value)| > 0
  }

  /** A non-blank string is one with a character above U+0020 somewhere. */
  lemma NotBlankIffVisibleChar(s: NStr)
    ensures NotBlank(s) <==> s.Some? && exists i :: 0 <= i < |s.value| && s.value[i] > ' '
  {
    if s.Some? {
      TrimEmptyIffAllTrimmable(s.value);
    }
  }

  lemma VisibleFirstNotBlank(s: string)
    requires |s| > 0 && s[0] > ' '
    ensures NotBlank(Some(s))
  {
    NotBlankIffVisibleChar(Some(s));
  }

  /** `@Size(min, max)` on a string, counted in characters (Java counts UTF-16 code units). */
  predicate SizeBetween(s: NStr, min: nat, max: nat) {
    s.None? || min <= |s.value| <= max
  }

  /** `@Past`. */
  predicate Past(d: Option<Date>, today: Date) {
    d.None? || d.value < today
  }

  /** `@PastOrPresent`. */
  predicate PastOrPresent(d: Option<Date>, today: Date) {
    d.None? || d.value <= today
  }

  // ---------------------------------------------------------------------------
  // The phone pattern ^01[0125]\d{8}$

  /** One element of an anchored regular expression without repetition operators. */
  datatype CharClass = Literal(c: char) | OneOf(cs: set<char>) | Digit

  predicate ClassMatches(k: CharClass, c: char) {
    match k
    case Literal(l) => c == l
    case OneOf(cs) => c in cs
    case Digit => '0' <= c <= '9'
  }

  /** `^p$`: the whole string matches the classes one character each. */
  predicate MatchesWhole(p: seq<CharClass>, s: string) {
    if p == [] then s == []
    else s != [] && ClassMatches(p[0], s[0]) && MatchesWhole(p[1..], s[1..])
  }

  function Repeat(k: CharClass, n: nat): (r: seq<CharClass>)
    ensures |r| == n
    ensures forall i :: 0 <= i < n ==> r[i] == k
  {
    if n == 0 then [] else [k] + Repeat(k, n - 1)
  }

  /** `^01[0125]\d{8}$`, with `\d` the ASCII digits as in `java.util.regex`. */
  function PhonePattern(): seq<CharClass> {
    [Literal('0'), Literal('1'), OneOf({'0', '1', '2', '5'})] + Repeat(Digit, 8)
  }

  /** `@Pattern` on the phone number. */
  predicate PhoneValid(phone: NStr) {
    phone.None? || MatchesWhole(PhonePattern(), phone.value)
  }

  /** Matching classes one by one is matching each position of an equally long string. */
  lemma {:induction false} MatchesWholePointwise(p: seq<CharClass>, s: string)
    ensures MatchesWhole(p, s) <==> |p| == |s| && forall i :: 0 <= i < |p| ==> ClassMatches(p[i], s[i])
    decreases |p|
  {
    if p != [] && s != [] {
      MatchesWholePointwise(p[1..], s[1..]);
      if |p| == |s| && forall i :: 0 <= i < |p| ==> ClassMatches(p[i], s[i]) {
        assert forall i :: 0 <= i < |p[1..]| ==> p[1..][i] == p[i + 1] && s[1..][i] == s[i + 1];
      }
    }
  }

  /** A phone number is valid iff it is null or exactly eleven characters: "01", then
      one of 0, 1, 2, 5, then eight ASCII digits. */
  lemma PhoneValidShape(phone: NStr)
    ensures PhoneValid(phone) <==>
      phone.None? ||
      (var s := phone.value;
       && |s| == 11
       && s[0] == '0' && s[1] == '1'
       && s[2] in {'0', '1', '2', '5'}
       && forall i :: 3 <= i < 11 ==> '0' <= s[i] <= '9')
  {
    if phone.Some? {
      MatchesWholePointwise(PhonePattern(), phone.value);
      var p := PhonePattern();
      assert p[0] == Literal('0') && p[1] == Literal('1') && p[2] == OneOf({'0', '1', '2', '5'});
      assert forall i :: 3 <= i < 11 ==> p[i] == Digit;
    }
  }

  /** A well-formed mobile number passes the phone pattern. */
  lemma PhoneAccepted()
    ensures PhoneValid(Some("01112345678"))
  {
    var s := "01112345678";
    PhoneValidShape(Some(s));
    assert forall i :: 3 <= i < 11 ==> '0' <= s[i] <= '9';
  }

  /** The controller tests' fixture "12345678" fails the phone pattern, as do a number one
      digit short and one whose third character is outside 0, 1, 2, 5. */
  lemma PhoneRejected()
    ensures !PhoneValid(Some("12345678"))
    ensures !PhoneValid(Some("0151234567"))
    ensures !PhoneValid(Some("01312345678"))
  {
    PhoneValidShape(Some("12345678"));
    PhoneValidShape(Some("0151234567"));
    PhoneValidShape(Some("01312345678"));
    assert "01312345678"[2] == '3';
  }

  // ---------------------------------------------------------------------------
  // Entity constraints

  predicate AuthorValid(a: Author, today: Date) {
    && NotBlank(a.name) && SizeBetween(a.name, 2, 50)
    && Past(a.birthDate, today)
    && NotBlank(a.nationality) && SizeBetween(a.nationality, 4, 50)
  }

  /** An author passes validation iff the name has 2..50 characters, not all blank; the
      birth date is null or before today; the nationality has 4..50 characters, not all blank. */
  lemma AuthorValidIff(a: Author, today: Date)
    ensures AuthorValid(a, today) <==>
      && a.name.Some? && 2 <= |a.name.value| <= 50
      && (exists i :: 0 <= i < |a.name.value| && a.name.value[i] > ' ')
      && (a.birthDate.None? || a.birthDate.value < today)
      && a.nationality.Some? && 4 <= |a.nationality.value| <= 50
      && (exists i :: 0 <= i < |a.nationality.value| && a.nationality.value[i] > ' ')
  {
    NotBlankIffVisibleChar(a.name);
    NotBlankIffVisibleChar(a.nationality);
    assert SizeBetween(a.name, 2, 50) <==> a.name.None? || 2 <= |a.name.value| <= 50;
    assert SizeBetween(a.nationality, 4, 50) <==> a.nationality.None? || 4 <= |a.nationality.value| <= 50;
  }

  predicate BookValid(b: Book, today: Date) {
    && NotBlank(b.title)
    && NotBlank(b.isbn)
    && PastOrPresent(b.publicationDate, today)
    && NotBlank(b.genre)
    && b.authorID.Some?
  }

  /** A book needs a non-null authorID but may have a null author; the resolved author
      plays no part in its validity, and neither does availability. */
  lemma BookValidIgnoresAuthor(b: Book, today: Date, author: Option<Id>, available: bool)
    ensures BookValid(b, today) ==> b.authorID.Some?
    ensures BookValid(b.(author := author, available := available), today) == BookValid(b, today)
    ensures BookValid(b, today) ==> b.publicationDate.None? || b.publicationDate.value <= today
  {
  }

  predicate CustomerValid(c: Customer) {
    && NotBlank(c.name) && SizeBetween(c.name, 2, 50)
    && NotBlank(c.email)
    && NotBlank(c.address)
    && PhoneValid(c.phoneNumber)
    && NotBlank(c.password)
  }

  lemma FixtureTextsNotBlank()
    ensures NotBlank(Some("John Doe")) && NotBlank(Some("john@example.com"))
    ensures NotBlank(Some("Address 1")) && NotBlank(Some("password"))
  {
    VisibleFirstNotBlank("John Doe");
    VisibleFirstNotBlank("john@example.com");
    VisibleFirstNotBlank("Address 1");
    VisibleFirstNotBlank("password");
  }

  /** The customer the controller tests build is invalid only because of its phone number. */
  lemma CustomerFixtureInvalid()
    ensures !CustomerValid(Customer(Some("John Doe"), Some("john@example.com"), Some("Address 1"),
                                    Some("12345678"), Some("password")))
    ensures CustomerValid(Customer(Some("John Doe"), Some("john@example.com"), Some("Address 1"),
                                   Some("01112345678"), Some("password")))
  {
    PhoneRejected();
    PhoneAccepted();
    FixtureTextsNotBlank();
  }

  /** `isReturnDateValid`: with both dates present, the return is after or on the borrow date. */
  predicate ReturnDateValid(r: BorrowingRecord) {
    if r.borrowDate.Some? && r.returnDate.Some? then
      r.returnDate.value > r.borrowDate.value || r.returnDate.value == r.borrowDate.value
    else
      true
  }

  /** The only records `isReturnDateValid` rejects are those returned strictly before they
      were borrowed; a record returned on the day it was borrowed is accepted. */
  lemma ReturnDateInvalidIff(r: BorrowingRecord)
    ensures !ReturnDateValid(r) <==>
      r.borrowDate.Some? && r.returnDate.Some? && r.returnDate.value < r.borrowDate.value
    ensures r.borrowDate.Some? && r.returnDate == r.borrowDate ==> ReturnDateValid(r)
  {
  }

  predicate BorrowingRecordValid(r: BorrowingRecord) {
    r.customerID.Some? && r.bookID.Some? && ReturnDateValid(r)
  }

  /** Both scalar ids are mandatory, while any single date, past or future, is acceptable. */
  lemma BorrowingRecordDatesUnconstrained(r: BorrowingRecord, d: Date)
    ensures BorrowingRecordValid(r) ==> r.customerID.Some? && r.bookID.Some?
    ensures r.customerID.Some? && r.bookID.Some? ==>
      && BorrowingRecordValid(r.(borrowDate := Some(d), returnDate := None))
      && BorrowingRecordValid(r.(borrowDate := None, returnDate := Some(d)))
  {
  }
}

=== FILE: values.dfy ===
/**
 * Basic value types shared by the whole model of the library backend.
 *
 * Java's nullable references become `Option`, `java.lang.Long` identifiers and
 * `LocalDate`s become unbounded integers (a date is a day number), and the
 * exceptions that can escape a service call become a `Fault`.
 */
module Values {

  /** A row identifier (a `Long` primary key). */
  type Id = int

  /** A calendar date, as a day number; later days are larger. */
  type Date = int

  /** A nullable Java reference: `None` is `null`. */
  datatype Option<+T> = None | Some(value: T)

  /** A nullable `String`. */
  type NStr = Option<string>

  /** The exceptions a call can end in; every one of them becomes a 500 response. */
  datatype Fault =
    | IllegalArgument      // a null id or cache key, or a malformed page request
    | UnknownProperty      // the sort property names no column of the entity
    | ConstraintViolation  // the relational store refused a write (foreign key)
    | NullPointer          // a controller dereferenced a null reference
    | OffsetTooLarge       // a page's first row lies beyond the largest Java `int`

  /** The largest and smallest values of a Java `int`. */
  const MaxInt32: int := 0x7fff_ffff
  const MinInt32: int := -0x8000_0000

  /** The outcome of a call that may throw. */
  datatype Result<+T> = Ok(value: T) | Err(fault: Fault)

  /** The value stored under `k`, or `None` when there is none (a repository `findById`). */
  function Find<K, V>(m: map<K, V>, k: K): (r: Option<V>)
    ensures r.Some? <==> k in m
    ensures r.Some? ==> r.value == m[k]
  {
    if k in m then Some(m[k]) else None
  }
}

=== FILE: web.dfy ===
/**
 * What the controllers share: the response a handler gives (only its status and
 * body), the request-parameter defaults, and the mapping of a service answer to a
 * status. An exception that escapes a handler becomes a 500.
 */
module Web {
  import opened Values
  import opened State

  datatype Response<T> =
    | Ok200(body: T)
    | NoContent204
    | BadRequest400
    | NotFound404
    | Error500(fault: Fault)

  function Status<T>(r: Response<T>): (code: int)
    ensures code in {200, 204, 400, 404, 500}
  {
    match r
    case Ok200(_) => 200
    case NoContent204 => 204
    case BadRequest400 => 400
    case NotFound404 => 404
    case Error500(_) => 500
  }

  /** The state after a request and the response it got. */
  datatype Reply<T> = Reply(lib: Library, response: Response<T>)

  /** A `String` parameter with a `defaultValue`: an absent or empty value takes the
      default. */
  function StrParam(raw: Option<string>, fallback: string): (v: string)
    ensures raw.Some? && raw.value != "" ==> v == raw.value
    ensures raw.None? || raw.value == "" ==> v == fallback
  {
    if raw.None? || raw.value == "" then fallback else raw.value
  }

  /** An `int` parameter with a `defaultValue`: an absent value takes the default. */
  function IntParam(raw: Option<int>, fallback: int): (v: int)
    ensures raw.Some? ==> v == raw.value
    ensures raw.None? ==> v == fallback
  {
    if raw.None? then fallback else raw.value
  }

  /** An `int` parameter binds when it is absent, so its default applies, or when its value
      fits in a Java `int`; any other value makes the framework answer 400 before the
      handler runs. */
  predicate IntBinds(raw: Option<int>) {
    raw.None? || MinInt32 <= raw.value <= MaxInt32
  }

  /** Both `int` paging parameters of a list or search request bind. */
  predicate PagingBinds(page: Option<int>, size: Option<int>) {
    IntBinds(page) && IntBinds(size)
  }

  /** The list and search defaults: page 0, size 10, sorted by "id", "asc". */
  datatype ListArgs = ListArgs(page: int, size: int, sortBy: string, sortOrder: string)

  /** Each of the four parameters takes its default on its own: `page` 0 and `size` 10 when
      absent, `sortBy` "id" and `sortOrder` "asc" when absent or empty. */
  function ListParams(page: Option<int>, size: Option<int>, sortBy: Option<string>, sortOrder: Option<string>): (a: ListArgs)
    ensures page.None? && size.None? && sortBy.None? && sortOrder.None? ==> a == ListArgs(0, 10, "id", "asc")
    ensures a.page == (if page.Some? then page.value else 0)
    ensures a.size == (if size.Some? then size.value else 10)
    ensures a.sortBy == (if sortBy.Some? && sortBy.value != "" then sortBy.value else "id")
    ensures a.sortOrder == (if sortOrder.Some? && sortOrder.value != "" then sortOrder.value else "asc")
    ensures a.sortBy != "" && a.sortOrder != ""
    ensures PagingBinds(page, size) ==> MinInt32 <= a.page <= MaxInt32 && MinInt32 <= a.size <= MaxInt32
  {
    ListArgs(IntParam(page, 0), IntParam(size, 10), StrParam(sortBy, "id"), StrParam(sortOrder, "asc"))
  }

  /** `optional.map(ResponseEntity::ok).orElseGet(notFound)`: a present answer is a 200
      with it, an empty one a 404, and a fault a 500. */
  function Found<T>(out: Result<Option<T>>): (r: Response<T>)
    ensures r.Ok200? <==> out.Ok? && out.value.Some?
    ensures r.Ok200? ==> r.body == out.value.value
    ensures r.NotFound404? <==> out == Ok(None)
    ensures r.Error500? <==> out.Err?
    ensures r.Error500? ==> r.fault == out.fault
  {
    match out
    case Err(f) => Error500(f)
    case Ok(None) => NotFound404
    case Ok(Some(x)) => Ok200(x)
  }

  /** `ResponseEntity.ok(answer)`, or a 500 on a fault. */
  function Answer<T>(out: Result<T>): (r: Response<T>)
    ensures r.Ok200? <==> out.Ok?
    ensures r.Ok200? ==> r.body == out.value
    ensures !r.Ok200? ==> r == Error500(out.fault)
  {
    match out
    case Err(f) => Error500(f)
    case Ok(x) => Ok200(x)
  }

  /** `ResponseEntity.noContent()` after a delete, or a 500 on a fault. */
  function Deleted(out: Result<()>): (r: Response<()>)
    ensures r == NoContent204 <==> out.Ok?
    ensures !r.NoContent204? ==> r == Error500(out.fault)
  {
    match out
    case Err(f) => Error500(f)
    case Ok(_) => NoContent204
  }
}
